=== FILE: README.md ===
# HydroForecast core, modelled in Dafny

HydroForecast has two parts. The first is a map-based visualizer for water-meter datasets: a React/Redux front end and a Spring back end that keeps one spatial index per dataset. The second is a set of Python scripts that prepare consumption series and train a recurrent forecaster. This project models the decision logic of both parts as pure Dafny functions and proves what the code promises about them.

Visualizer front end:

- `VisState` holds the view state and the action vocabulary. `VisReducer` is the reducer: a total function `Reduce(state, action, clock)`. `Writes(a)` is the table of fields each reducer case names. The `...Frame` lemmas prove, case by case, that the result agrees with the input outside `Writes(a)`.
- `VisThunks` holds the thunks that compose queries. A `Run` threads the state, the list of effects so far (requests sent, actions dispatched) and whether an exception was thrown. Server responses are parameters.
- `ClusterFeatures` holds the point-feature map and the `reduce` merge that the clustering library is given.
- `VisControl`, `MapView`, `VisPage`, `ChartTs` and `StatsPanel` hold the decision logic of the five view components.

Visualizer back end:

- `RawData` is the per-dataset index registry of `RawDataService` and its result assembly. The index engine is a parameter.
- `DatasetResource` is the REST resource: id checks, header naming, not-found wrapping and the status endpoint.
- `SingleRect` holds the single-measure statistics and their null-on-empty rule.

Forecasting scripts:

- `LoadDataset`: month decrement, the train/validation/test split and the sliding windows.
- `Normalization`: min-max and z-score scaling with their inverses, over `real`.
- `MaskedFlip`: the padded sequence flip.
- `TrainModel`: early stopping.
- `ReadArguments`: the tuple argument and the argument groups.
- `FlaskFeatures`: `fixData` and the calendar features of the forecasting service.

Shared helpers:

- `Wrappers` provides `Option` and `Result`.
- `Text` models the host languages' `split`, an ASCII-only lower-casing and decimal integer text.
- `PySlice` models Python slicing with negative bounds.
- `Calendar` models the proleptic Gregorian calendar, with Python's ordinal and weekday numbering.

Two facts about the code shape the model:

- The code has no request generation or sequence token. Responses are applied in arrival order.
- A point tuple is `[y, x, measureCols, values, fileOffset, isDigital]`, the order `RawDataService` writes. `RawData.TupleOrderAgreesWithClient` proves that the client reads `x` and `y` back from the right positions.

Errors are values. A JavaScript `TypeError`, a Java exception or a Python exception becomes `Err(name)` or `threw == true`. No precondition rules them out.

## Model

Front-end paths start with `visualization/src/main/webapp/app/modules/visualizer/`. Back-end paths start with `visualization/src/main/java/gr/archimedes/eidapp/tool/`. Python paths start with `models/training/lstm/`. All three prefixes are written out in every cell.

| member | source | states |
|---|---|---|
| VisState.AgreeOutsideNothing | visualization/src/main/webapp/app/modules/visualizer/visualizer.reducer.ts:95-96 | A state that agrees with another outside no field is that state. So a case that names nothing changes nothing. |
| VisReducer.Reduce | visualization/src/main/webapp/app/modules/visualizer/visualizer.reducer.ts:95-263 | The reducer fails exactly for UPDATE_GROUP_BY while `groupByCols` is null, where the source reads the length of null. Every other action yields a state. |
| VisReducer.PendingFrame | visualization/src/main/webapp/app/modules/visualizer/visualizer.reducer.ts:97-102 | A request writes only the fields `Writes` names for it and copies the rest. A dataset request may write all of them. A row request (lines 235-240) writes the selected point and the row. Other requests write none. |
| VisReducer.RejectedFrame | visualization/src/main/webapp/app/modules/visualizer/visualizer.reducer.ts:103-108 | A failure writes only `loading` and `errorMessage`, and only for the dataset request. Every other field is copied. |
| VisReducer.DatasetLoadedFrame | visualization/src/main/webapp/app/modules/visualizer/visualizer.reducer.ts:109-121 | A loaded dataset writes only `loading`, `dataset`, `groupByCols` and `measureCol`. A loaded dataset list writes only `datasets`. Every other field is copied. |
| VisReducer.QueryLoadedFrame | visualization/src/main/webapp/app/modules/visualizer/visualizer.reducer.ts:122-128 | Loaded clusters write only the clusters, the expanded index and `totalTime`. Loaded analysis results (lines 176-186) write only the analysis fields and the selected series. Every other field is copied. |
| VisReducer.IndexDoneFrame | visualization/src/main/webapp/app/modules/visualizer/visualizer.reducer.ts:209-234 | A completed reset, index-status fetch or time-range fetch writes only its own fields and copies the rest. |
| VisReducer.SelectionDoneFrame | visualization/src/main/webapp/app/modules/visualizer/visualizer.reducer.ts:241-259 | A fetched row, selected measure or selected series writes only its own field. A fulfilled forecast writes nothing. Every other field is copied. |
| VisReducer.QuerySettingFrame | visualization/src/main/webapp/app/modules/visualizer/visualizer.reducer.ts:150-164 | UPDATE_MEASURE, UPDATE_FILTERS and UPDATE_AGG_TYPE each write only their own field and copy the rest. |
| VisReducer.AreaSettingFrame | visualization/src/main/webapp/app/modules/visualizer/visualizer.reducer.ts:165-175 | UPDATE_DRAWN_RECT writes only the drawn rectangle. UPDATE_MAP_BOUNDS writes only the zoom and the view rectangle. Every other field is copied. |
| VisReducer.MapTypeFrame | visualization/src/main/webapp/app/modules/visualizer/visualizer.reducer.ts:129-133 | UPDATE_MAP_TYPE writes only the map type and copies the rest. |
| VisReducer.DataToggleFrame | visualization/src/main/webapp/app/modules/visualizer/visualizer.reducer.ts:134-138 | UPDATE_TIMESERIES_DATA_TOGGLE writes only the toggle and copies the rest. |
| VisReducer.FacetsFrame | visualization/src/main/webapp/app/modules/visualizer/visualizer.reducer.ts:139-143 | UPDATE_FACETS writes only the facets and copies the rest. |
| VisReducer.DisabledToggleFrame | visualization/src/main/webapp/app/modules/visualizer/visualizer.reducer.ts:215-219 | TOGGLE_TIMESERIES_DATA writes only the disabled flag and copies the rest. |
| VisReducer.ExpandedClusterFrame | visualization/src/main/webapp/app/modules/visualizer/visualizer.reducer.ts:225-229 | UPDATE_EXPANDED_CLUSTER_INDEX writes only the expanded index and copies the rest. |
| VisReducer.ResultsFrame | visualization/src/main/webapp/app/modules/visualizer/visualizer.reducer.ts:187-208 | The bare analysis results write only the analysis fields and `timeSeries`. Query info writes only the seven counters. Every other field is copied. |
| VisReducer.GroupByFrame | visualization/src/main/webapp/app/modules/visualizer/visualizer.reducer.ts:144-149 | Once `groupByCols` is set, UPDATE_GROUP_BY writes only `groupByCols` and `series` and copies the rest. |
| VisReducer.UnnamedActionsKeepState | visualization/src/main/webapp/app/modules/visualizer/visualizer.reducer.ts:260-261 | An action for which `Writes` names no field returns the state unchanged. These are an unknown type, the other requests and failures, the fulfilled forecast and the plain UPDATE_SELECTED_* actions. |
| VisReducer.FetchDatasetRequestResets | visualization/src/main/webapp/app/modules/visualizer/visualizer.reducer.ts:97-102 | A dataset request yields exactly the initial state, whatever the previous state was. `loading` is true and `errorMessage` is null. |
| VisReducer.FetchDatasetSuccess | visualization/src/main/webapp/app/modules/visualizer/visualizer.reducer.ts:109-116 | A loaded dataset ends loading and stores the dataset. It groups by `[dimensions[0]]` and measures `measure0`. |
| VisReducer.GroupByClearsSeriesIffCountChanges | visualization/src/main/webapp/app/modules/visualizer/visualizer.reducer.ts:144-149 | UPDATE_GROUP_BY stores the columns. It clears `series` to `[]` exactly when the number of columns changes, and otherwise keeps it. |
| VisReducer.ClustersAndResetEffects | visualization/src/main/webapp/app/modules/visualizer/visualizer.reducer.ts:122-128 | New clusters replace the old ones and collapse the expanded cluster. A completed reset drops the drawn rectangle and returns the index status to uninitialised. |
| VisReducer.AnalysisResultsForms | visualization/src/main/webapp/app/modules/visualizer/visualizer.reducer.ts:176-197 | Both forms overwrite series and statistics. The fulfilled form clears the selected series and keeps `timeSeries`. The bare form sets `timeSeries` and keeps the selection. |
| VisThunks.Dispatch | visualization/src/main/webapp/app/modules/visualizer/visualizer.reducer.ts:95-263 | Dispatching records the action and runs the reducer. It throws exactly when the reducer throws. Nothing runs after a throw. |
| VisThunks.Send | visualization/src/main/webapp/app/modules/visualizer/visualizer.reducer.ts:322-325 | Sending appends exactly one request after the effects so far and changes neither the state nor the thrown flag. After a throw nothing is recorded. The thunk lemmas below use this to fix the order of posts. |
| VisThunks.AnalysisQueryOf | visualization/src/main/webapp/app/modules/visualizer/visualizer.reducer.ts:316-326 | The analysis query uses `drawnRect` when it is set, else `viewRect`, plus the stored range and filters. Without a time range, reading `from` throws. |
| VisThunks.ClusterQueryOf | visualization/src/main/webapp/app/modules/visualizer/visualizer.reducer.ts:328-365 | The cluster query always uses `viewRect` and the zoom. There is none while `viewRect` is null. |
| VisThunks.UpdateAnalysisResults | visualization/src/main/webapp/app/modules/visualizer/visualizer.reducer.ts:316-326 | Reads the store and posts the analysis query. `VisThunks.AnalysisStep` proves the post and the throw without a range. |
| VisThunks.UpdateClustersWTime | visualization/src/main/webapp/app/modules/visualizer/visualizer.reducer.ts:390-448 | Posts the cluster query with the given range, or does nothing without a view rectangle. `VisThunks.ClustersStep` proves it. |
| VisThunks.UpdateClusters | visualization/src/main/webapp/app/modules/visualizer/visualizer.reducer.ts:328-386 | The cluster query with the store's own range. `VisThunks.UpdateMapBoundsIssuesClustersOnly` and `VisThunks.TimeRangeAsWrittenLosesRange` prove what it sends. |
| VisThunks.ResolveClusters | visualization/src/main/webapp/app/modules/visualizer/visualizer.reducer.ts:366-384 | The response handler's dispatches. `VisThunks.ResolveClustersAppliesAnalysisIffNoDrawnRect` proves their effect. |
| VisThunks.ResolveAnalysis | visualization/src/main/webapp/app/modules/visualizer/visualizer.reducer.ts:176-186 | The fulfilled analysis action. `VisThunks.ResolveAnalysisStoresResults` proves its effect. |
| VisThunks.UpdateFilters | visualization/src/main/webapp/app/modules/visualizer/visualizer.reducer.ts:450-457 | `VisThunks.UpdateFiltersIssuesAnalysisThenClusters` and `VisThunks.UpdateFiltersWithoutTimeRangeIssuesNothing` prove its order and its throw. |
| VisThunks.UpdateGroupBy | visualization/src/main/webapp/app/modules/visualizer/visualizer.reducer.ts:459-471 | `VisThunks.UpdateGroupByClearsGroupedFilters` and `VisThunks.UpdateGroupByBeforeDatasetThrows` prove what it stores and when it throws. |
| VisThunks.UpdateMeasure | visualization/src/main/webapp/app/modules/visualizer/visualizer.reducer.ts:473-479 | `VisThunks.UpdateMeasureIssuesAnalysisOnly` proves its effects. |
| VisThunks.UpdateAggType | visualization/src/main/webapp/app/modules/visualizer/visualizer.reducer.ts:481-487 | `VisThunks.UpdateAggTypeIssuesAnalysisOnly` proves its effects. |
| VisThunks.UpdateDrawnRect | visualization/src/main/webapp/app/modules/visualizer/visualizer.reducer.ts:490-500 | `VisThunks.UpdateDrawnRectIssuesAnalysisOnly` proves its effects. |
| VisThunks.UpdateMapBounds | visualization/src/main/webapp/app/modules/visualizer/visualizer.reducer.ts:502-512 | `VisThunks.UpdateMapBoundsIssuesClustersOnly` proves its effects. |
| VisThunks.AwaitReset | visualization/src/main/webapp/app/modules/visualizer/visualizer.reducer.ts:515-519 | The awaited RESET. `VisThunks.ResetStep` proves the success case and `VisThunks.ResetFailureIssuesNoClusters` the rejection. |
| VisThunks.ResetIndex | visualization/src/main/webapp/app/modules/visualizer/visualizer.reducer.ts:514-521 | `VisThunks.ResetAwaitsBeforeClusters` and `VisThunks.ResetFailureIssuesNoClusters` prove its order. |
| VisThunks.ResetWTime | visualization/src/main/webapp/app/modules/visualizer/visualizer.reducer.ts:523-530 | The reset followed by the cluster query with the given range. The two time-range lemmas prove what it sends. |
| VisThunks.UpdateTimeRangeAsWritten | visualization/src/main/webapp/app/modules/visualizer/visualizer.reducer.ts:559-565 | `VisThunks.TimeRangeAsWrittenLosesRange` proves that the store loses the range. |
| VisThunks.UpdateTimeRange | visualization/src/main/webapp/app/modules/visualizer/visualizer.reducer.ts:559-565 | `VisThunks.TimeRangeStored` proves that the corrected thunk stores it. |
| VisThunks.GetDataset | visualization/src/main/webapp/app/modules/visualizer/visualizer.reducer.ts:266-272 | `VisPage.DatasetEffectRequests` proves its request and pending action. |
| VisThunks.GetDatasets | visualization/src/main/webapp/app/modules/visualizer/visualizer.reducer.ts:274-280 | `VisPage.DatasetEffectRequests` proves its request and pending action. |
| VisThunks.GetRow | visualization/src/main/webapp/app/modules/visualizer/visualizer.reducer.ts:282-289 | Requests the row, carrying its id as `meta`. `VisReducer.PendingFrame` states what the pending row action writes. |
| VisThunks.GetIndexStatus | visualization/src/main/webapp/app/modules/visualizer/visualizer.reducer.ts:539-545 | `VisPage.DatasetEffectRequests` proves its request and pending action. |
| VisThunks.ForecastStep | visualization/src/main/webapp/app/modules/visualizer/visualizer.reducer.ts:589-600 | `forecast(id, predictions)` posts to the prediction endpoint for that series and horizon and dispatches the pending FORECAST action. The store is left unchanged. |
| VisThunks.WithoutColumns | visualization/src/main/webapp/app/modules/visualizer/visualizer.reducer.ts:459-471 | The filters keep exactly the keys that are not grouped columns, with their values. |
| VisThunks.AnalysisStep | visualization/src/main/webapp/app/modules/visualizer/visualizer.reducer.ts:316-326 | `updateAnalysisResults` posts one analysis query and dispatches its pending action, or throws without a time range. |
| VisThunks.ClustersStep | visualization/src/main/webapp/app/modules/visualizer/visualizer.reducer.ts:390-448 | The cluster thunk posts one query and dispatches one pending action when there is a view rectangle. Otherwise it does nothing. |
| VisThunks.ResetStep | visualization/src/main/webapp/app/modules/visualizer/visualizer.reducer.ts:514-521 | A successful reset posts RESET, dispatches its pending action, then applies the reset. |
| VisThunks.UpdateFiltersIssuesAnalysisThenClusters | visualization/src/main/webapp/app/modules/visualizer/visualizer.reducer.ts:450-457 | `updateFilters` stores the filters, then issues the analysis query, then the cluster query, in that order. |
| VisThunks.UpdateFiltersWithoutTimeRangeIssuesNothing | visualization/src/main/webapp/app/modules/visualizer/visualizer.reducer.ts:450-457 | Without a time range the analysis step throws, so no cluster query follows. |
| VisThunks.UpdateMeasureIssuesAnalysisOnly | visualization/src/main/webapp/app/modules/visualizer/visualizer.reducer.ts:473-479 | `updateMeasure` stores the measure and issues only the analysis query. |
| VisThunks.UpdateAggTypeIssuesAnalysisOnly | visualization/src/main/webapp/app/modules/visualizer/visualizer.reducer.ts:481-487 | `updateAggType` stores the aggregate and issues only the analysis query. |
| VisThunks.UpdateDrawnRectIssuesAnalysisOnly | visualization/src/main/webapp/app/modules/visualizer/visualizer.reducer.ts:490-500 | `updateDrawnRect` stores the rectangle, or null when it is deleted, and issues only the analysis query. |
| VisThunks.UpdateMapBoundsIssuesClustersOnly | visualization/src/main/webapp/app/modules/visualizer/visualizer.reducer.ts:502-512 | `updateMapBounds` stores zoom and view rectangle and issues exactly one cluster query, for the new view. |
| VisThunks.ResetAwaitsBeforeClusters | visualization/src/main/webapp/app/modules/visualizer/visualizer.reducer.ts:514-521 | `reset` applies the completed RESET before it issues the cluster query. |
| VisThunks.ResetFailureIssuesNoClusters | visualization/src/main/webapp/app/modules/visualizer/visualizer.reducer.ts:514-521 | A rejected RESET makes `reset` throw before any cluster query. |
| VisThunks.TimeRangeAsWrittenLosesRange | visualization/src/main/webapp/app/modules/visualizer/visualizer.reducer.ts:559-565 | As written, the fulfilled range action leaves the store's `timeRange` undefined. The reset's cluster query still carries the range, passed directly. The next `updateAnalysisResults` then throws, and a later `updateClusters`, after a map move say, sends no `from`/`to`. |
| VisThunks.TimeRangeStored | visualization/src/main/webapp/app/modules/visualizer/visualizer.reducer.ts:559-565 | When the range itself is the payload, it is stored before the reset, and the cluster query carries it. |
| VisThunks.ResolveCountersStep | visualization/src/main/webapp/app/modules/visualizer/visualizer.reducer.ts:366-375 | The cluster response first stores the facets, then the query counters. |
| VisThunks.ResolveClustersAppliesAnalysisIffNoDrawnRect | visualization/src/main/webapp/app/modules/visualizer/visualizer.reducer.ts:366-384 | The cluster response stores facets, counters and clusters. It replaces the analysis results exactly when the snapshot taken before the request had no drawn rectangle. |
| VisThunks.ClustersRoundTripUsesSnapshot | visualization/src/main/webapp/app/modules/visualizer/visualizer.reducer.ts:328-383 | When `updateClusters` is followed directly by its response, the response replaces the analysis results exactly when the store had no drawn rectangle at request time. The recorded time is the response time less the request time. |
| VisThunks.ResolveAnalysisStoresResults | visualization/src/main/webapp/app/modules/visualizer/visualizer.reducer.ts:176-186 | The analysis response stores the new series and statistics, clears the selected series and keeps the time series. Nothing else is dispatched. |
| VisThunks.UpdateGroupByClearsGroupedFilters | visualization/src/main/webapp/app/modules/visualizer/visualizer.reducer.ts:459-471 | `updateGroupBy` stores the columns and passes on the filters it read, less every grouped column. |
| VisThunks.UpdateGroupByBeforeDatasetThrows | visualization/src/main/webapp/app/modules/visualizer/visualizer.reducer.ts:459-471 | Before any dataset has loaded, the group-by dispatch throws and nothing follows it. |
| ClusterFeatures.PointFeatures | visualization/src/main/webapp/app/modules/visualizer/visualizer.reducer.ts:292-299 | One feature per point, in order. |
| ClusterFeatures.PointFeature | visualization/src/main/webapp/app/modules/visualizer/visualizer.reducer.ts:293-298 | The feature of one point. `ClusterFeatures.PointFeatureFlagAgrees` and `ClusterFeatures.PointFeaturesCarryPoints` prove what it carries. |
| ClusterFeatures.Props | visualization/src/main/webapp/app/modules/visualizer/visualizer.reducer.ts:306-310 | The properties of the features, in order. |
| ClusterFeatures.PointFeaturesCarryPoints | visualization/src/main/webapp/app/modules/visualizer/visualizer.reducer.ts:292-299 | The features carry the input points back in order, and their counts add up to the number of points. |
| ClusterFeatures.AllPointsSnoc | visualization/src/main/webapp/app/modules/visualizer/visualizer.reducer.ts:307-309 | Appending one more set of properties appends its points and adds its count. |
| ClusterFeatures.Merge | visualization/src/main/webapp/app/modules/visualizer/visualizer.reducer.ts:306-310 | The `reduce` callback as written. `ClusterFeatures.MergeMissesLastDigital` proves its flaw. |
| ClusterFeatures.MergeAll | visualization/src/main/webapp/app/modules/visualizer/visualizer.reducer.ts:306-310 | Folding `reduce` over the neighbours. `ClusterFeatures.MergeAllCountsAndPoints` and `ClusterFeatures.MergeAllDigitalAsWritten` prove its counts, points and flag. |
| ClusterFeatures.MergeAllCountsAndPoints | visualization/src/main/webapp/app/modules/visualizer/visualizer.reducer.ts:306-310 | Folding `reduce` adds the counts and concatenates the points in order. |
| ClusterFeatures.MergeAllDigitalAsWritten | visualization/src/main/webapp/app/modules/visualizer/visualizer.reducer.ts:308-309 | As written, the merged digital flag looks at every point except those of the last merged neighbour. |
| ClusterFeatures.MergeMissesLastDigital | visualization/src/main/webapp/app/modules/visualizer/visualizer.reducer.ts:308-309 | A plain point merged with a digital one is not marked digital. |
| ClusterFeatures.MergeFixed | visualization/src/main/webapp/app/modules/visualizer/visualizer.reducer.ts:306-310 | The merge adds counts and concatenates points. When both flags agree with their points, the merged flag does too. |
| ClusterFeatures.MergeAllFixedFlagAgrees | visualization/src/main/webapp/app/modules/visualizer/visualizer.reducer.ts:306-310 | With the flag computed after the concatenation, a cluster is digital exactly when one of its points is. |
| ClusterFeatures.PointFeatureFlagAgrees | visualization/src/main/webapp/app/modules/visualizer/visualizer.reducer.ts:294 | A single point's feature is digital exactly when its point is. |
| VisControl.QuickRange | visualization/src/main/webapp/app/modules/visualizer/vis-control.tsx:151-180 | Every quick range starts at 0 and ends no later than `now`. It ends strictly earlier exactly for ids 1 to 5. |
| VisControl.QuickRangeOrder | visualization/src/main/webapp/app/modules/visualizer/vis-control.tsx:155-178 | The end points order as id 1 < 2 < 3 < 4 < 5 < 0. The longest ends two 365-day years before now, and id 5 one 730th of that before now. |
| VisControl.FilterChange | visualization/src/main/webapp/app/modules/visualizer/vis-control.tsx:79-84 | The chosen key is set to the value, or to null for the empty value. Every other key and value is kept. |
| VisControl.RemoveFilter | visualization/src/main/webapp/app/modules/visualizer/vis-control.tsx:86-89 | Exactly the chosen key is removed. Every other key and value is kept. |
| VisControl.RemoveUndoesChange | visualization/src/main/webapp/app/modules/visualizer/vis-control.tsx:79-89 | Removing a filter undoes setting it, whatever was there before. |
| VisControl.AccordionClick | visualization/src/main/webapp/app/modules/visualizer/vis-control.tsx:72-77 | A click closes the open title. Any other click opens the clicked one. |
| VisControl.AccordionClickTwice | visualization/src/main/webapp/app/modules/visualizer/vis-control.tsx:72-77 | A second click on the same title returns to closed, or to open when the first click closed it. |
| VisControl.CheckboxDispatch | visualization/src/main/webapp/app/modules/visualizer/vis-control.tsx:54-57 | The checkbox dispatches its value exactly when the toggle is not disabled. `VisControl.CheckboxSetsToggle` shows what the dispatch does to the store. |
| VisControl.CheckboxSetsToggle | visualization/src/main/webapp/app/modules/visualizer/vis-control.tsx:54-57 | A disabled toggle dispatches nothing. An enabled one dispatches the checkbox value, and the reducer then stores exactly that value as the toggle and changes no other field. |
| VisControl.At | visualization/src/main/webapp/app/modules/visualizer/vis-control.tsx:63-66 | Indexing a split result gives a value exactly within bounds. Past the end it gives `undefined`. |
| VisControl.HandleChange | visualization/src/main/webapp/app/modules/visualizer/vis-control.tsx:59-70 | A range is taken exactly when the text splits on " - " into two parts with a non-empty second part. Each date's fields are its `-`-parts 2, 1 and 0. The lemmas below show which texts that accepts and rejects. |
| VisControl.HandleChangeRejectsSingleDate | visualization/src/main/webapp/app/modules/visualizer/vis-control.tsx:59-62 | Text that never contains " - ", such as a single date, sets no range. |
| VisControl.HandleChangeRejectsOpenRange | visualization/src/main/webapp/app/modules/visualizer/vis-control.tsx:59-62 | A first date followed by " - " and nothing else, the state while the second date is still being picked, sets no range. |
| VisControl.HandleChangeRejectsThreeDates | visualization/src/main/webapp/app/modules/visualizer/vis-control.tsx:59-62 | Text with two separators, three parts, sets no range. |
| VisControl.DateTextFields | visualization/src/main/webapp/app/modules/visualizer/vis-control.tsx:63-66 | "DD-MM-YYYY" splits back into year, month and day. |
| VisControl.HandleChangeReadsBothDates | visualization/src/main/webapp/app/modules/visualizer/vis-control.tsx:59-70 | "D1-M1-Y1 - D2-M2-Y2" yields the fields of both dates. |
| VisControl.CalendarMonth | visualization/src/main/webapp/app/modules/visualizer/vis-control.tsx:65-66 | A zero-based month index always lands in a calendar month 1 to 12. |
| VisControl.MonthIndexAsWritten | visualization/src/main/webapp/app/modules/visualizer/vis-control.tsx:65-66 | The month index as written: the typed month. `VisControl.MonthShiftedAsWritten` proves the shift. |
| VisControl.MonthIndex | visualization/src/main/webapp/app/modules/visualizer/vis-control.tsx:65-66 | The corrected index, one less. `VisControl.MonthIndexKeepsMonth` proves it keeps the month. |
| VisControl.MonthShiftedAsWritten | visualization/src/main/webapp/app/modules/visualizer/vis-control.tsx:65-66 | As written, every month typed as its plain decimal text ("1" to "12") lands one calendar month later, and December lands in January. |
| VisControl.MonthIndexKeepsMonth | visualization/src/main/webapp/app/modules/visualizer/vis-control.tsx:65-66 | With the index decremented, every typed month is the calendar month. |
| MapView.Bucket | visualization/src/main/webapp/app/modules/visualizer/map.tsx:65-69 | There are three size buckets. |
| MapView.BucketMonotone | visualization/src/main/webapp/app/modules/visualizer/map.tsx:65-69 | A larger cluster never gets a lighter bucket. |
| MapView.FetchIcon | visualization/src/main/webapp/app/modules/visualizer/map.tsx:38-84 | Count 1 gives a star marker when digital, else the plain marker. Any other count gives a count marker: background at alpha 0.8 and border at alpha 0.5 of its bucket's colour, badge exactly when digital. |
| MapView.SpiderLegs | visualization/src/main/webapp/app/modules/visualizer/map.tsx:115-133 | One marker and one leg per member point, in order. |
| MapView.RenderCluster | visualization/src/main/webapp/app/modules/visualizer/map.tsx:224-246 | A single point exactly when `totalCount` is 1. A spiderfy exactly when the cluster has more points and is the expanded one. Otherwise a count marker, clickable only at the maximum zoom. |
| MapView.ClusterClick | visualization/src/main/webapp/app/modules/visualizer/map.tsx:239-244 | A marker click expands that cluster exactly at the maximum zoom. |
| MapView.ClickExpandsThenBackgroundCollapses | visualization/src/main/webapp/app/modules/visualizer/map.tsx:187-189 | After a click at the maximum zoom, the cluster is drawn spiderfied. A background click then collapses it. |
| MapView.DrawnBounds | visualization/src/main/webapp/app/modules/visualizer/map.tsx:171-181 | A drawn rectangle passes its bounds. Deleting it passes none. |
| MapView.DrawEventsSetDrawnRect | visualization/src/main/webapp/app/modules/visualizer/map.tsx:171-181 | Drawing stores the rectangle of the bounds as the drawn rectangle. Deleting stores null. |
| MapView.HeatPoints | visualization/src/main/webapp/app/modules/visualizer/map.tsx:195-200 | Each point becomes one `[lat, lon, values]` heat point, in order. |
| MapView.HeatOf | visualization/src/main/webapp/app/modules/visualizer/map.tsx:197-199 | The heat point of one point tuple. `MapView.GetPointsFlattens` proves the whole list. |
| MapView.GetPoints | visualization/src/main/webapp/app/modules/visualizer/map.tsx:195-200 | `MapView.GetPointsFlattens` proves it flattens the clusters' points in order. |
| MapView.GetPointsFlattens | visualization/src/main/webapp/app/modules/visualizer/map.tsx:195-200 | The heat points are exactly the clusters' points in order, as many as there are points. |
| VisPage.ZoomEffect | visualization/src/main/webapp/app/modules/visualizer/vis-page.tsx:68-74 | From zoom 16 on, one action enables the toggle. Below it the toggle is disabled and switched off. |
| VisPage.ReduceAll | visualization/src/main/webapp/app/modules/visualizer/vis-page.tsx:68-74 | Dispatches a list of actions in turn, stopping at the first throw. `VisPage.ZoomEffectCouplesToggle` uses it. |
| VisPage.ZoomEffectCouplesToggle | visualization/src/main/webapp/app/modules/visualizer/vis-page.tsx:68-74 | After the zoom effect the toggle is disabled exactly below zoom 16. From zoom 16 on it keeps its value; below it, it is off. |
| VisPage.DatasetEffect | visualization/src/main/webapp/app/modules/visualizer/vis-page.tsx:62-66 | `VisPage.DatasetEffectRequests` proves its three requests and their order. |
| VisPage.LowZoomCheckboxInert | visualization/src/main/webapp/app/modules/visualizer/vis-page.tsx:68-74 | Below zoom 16, once the zoom effect has run, the toggle is off and the checkbox dispatches nothing, whatever its value. |
| VisPage.DatasetEffectRequests | visualization/src/main/webapp/app/modules/visualizer/vis-page.tsx:62-66 | A dataset id change requests the dataset, the dataset list and the index status, in that order, and starts from the initial state. |
| VisPage.PollsStatus | visualization/src/main/webapp/app/modules/visualizer/vis-page.tsx:76-82 | Another status request is scheduled exactly while the index is not initialised. `VisPage.PollingFollowsIndexStatus` ties this to the status the store receives. |
| VisPage.Renders | visualization/src/main/webapp/app/modules/visualizer/vis-page.tsx:84-145 | Nothing is rendered exactly while loading. Otherwise the render throws a `TypeError` exactly when there is no dataset, because the indexing dialog's children read `dataset.name` and `dataset.objectCount` even when it is closed. With a dataset the page renders. |
| VisPage.LoadingHidesPage | visualization/src/main/webapp/app/modules/visualizer/vis-page.tsx:84 | Requesting a dataset hides the page. Loading it shows the page again. |
| VisPage.FailedFetchThrowsOnRender | visualization/src/main/webapp/app/modules/visualizer/visualizer.reducer.ts:97-108 | From any state, a dataset request followed by its failure leaves the store without a dataset and not loading, so the render throws a `TypeError`. |
| VisPage.ModalOpen | visualization/src/main/webapp/app/modules/visualizer/vis-page.tsx:133-136 | The indexing dialog is open exactly while the status is still being polled. `VisPage.PollingFollowsIndexStatus` ties this to the store. |
| VisPage.PollingFollowsIndexStatus | visualization/src/main/webapp/app/modules/visualizer/vis-page.tsx:76-135 | After a fetched status, polling continues and the dialog stays open exactly when that status reports the index not initialised. After a completed reset both come back. |
| VisPage.RightPanelOf | visualization/src/main/webapp/app/modules/visualizer/vis-page.tsx:112-131 | No panel without rectangle statistics. The time-series chart exactly when `measure0` is set and the toggle is on. Otherwise the statistics panel and chart. With statistics but no dataset, rendering throws. |
| VisPage.LowZoomHidesTimeSeriesChart | visualization/src/main/webapp/app/modules/visualizer/vis-page.tsx:68-131 | Below zoom 16 the time-series chart is never shown. |
| ChartTs.ChartPoints | visualization/src/main/webapp/app/modules/visualizer/chart-ts.tsx:49-51 | Each data point maps to `{x: timestamp*1000, y: value}`, in order. |
| ChartTs.WithPoints | visualization/src/main/webapp/app/modules/visualizer/chart-ts.tsx:46-55 | The series kept are exactly those with data points. |
| ChartTs.Convert | visualization/src/main/webapp/app/modules/visualizer/chart-ts.tsx:43-58 | The names list has the chart series' names, position for position. |
| ChartTs.ConvertKeepsSeriesWithPoints | visualization/src/main/webapp/app/modules/visualizer/chart-ts.tsx:43-58 | The conversion keeps exactly the series with data points, in order, with name, id and converted points. |
| ChartTs.SelectById | visualization/src/main/webapp/app/modules/visualizer/chart-ts.tsx:61-63 | A new selected id keeps exactly the series with that id. |
| ChartTs.HandleUpdateTimeSeries | visualization/src/main/webapp/app/modules/visualizer/chart-ts.tsx:65-68 | Dispatches the selection and keeps it locally. `ChartTs.ChoosingSeriesNarrowsChart` proves what follows. |
| ChartTs.ChoosingSeriesNarrowsChart | visualization/src/main/webapp/app/modules/visualizer/chart-ts.tsx:65-68 | Choosing a series narrows the chart to that id. The dispatched selection leaves the store as it was. |
| ChartTs.HandleForecast | visualization/src/main/webapp/app/modules/visualizer/chart-ts.tsx:83-106 | The first series' last k points (3, 6 or 12, or all when fewer), moved k average months later and 10 up, replace all series. Without a series it throws. |
| ChartTs.ForecastClickAlwaysRequests | visualization/src/main/webapp/app/modules/visualizer/chart-ts.tsx:83-87 | Every click posts the fixed forecast request for "lsn_960696" with 30 predictions before the preview is built, and the store is left unchanged. This holds even with no series, where the preview then throws. |
| ChartTs.Search | visualization/src/main/webapp/app/modules/visualizer/chart-ts.tsx:124-135 | The results are exactly the entries whose non-null name contains the query, ignoring case. |
| ChartTs.Matches | visualization/src/main/webapp/app/modules/visualizer/chart-ts.tsx:128-131 | The search filter. `ChartTs.EmptyQueryMatchesNamed` and `ChartTs.SearchIgnoresQueryCase` prove its laws. |
| ChartTs.EmptyQueryMatchesNamed | visualization/src/main/webapp/app/modules/visualizer/chart-ts.tsx:128-131 | The empty query matches every named entry. |
| ChartTs.SearchIgnoresQueryCase | visualization/src/main/webapp/app/modules/visualizer/chart-ts.tsx:128-131 | Queries that differ only in case give the same results. |
| ChartTs.KeyDown | visualization/src/main/webapp/app/modules/visualizer/chart-ts.tsx:138-145 | Backspace clears the name and id and any other key keeps them. `ChartTs.BackspaceDisablesApply` and `ChartTs.ApplyFollowsSelection` prove the effect on APPLY. |
| ChartTs.BackspaceDisablesApply | visualization/src/main/webapp/app/modules/visualizer/chart-ts.tsx:138-145 | Backspace clears the name and id, after which APPLY is disabled. |
| ChartTs.ApplyDisabled | visualization/src/main/webapp/app/modules/visualizer/chart-ts.tsx:172-173 | APPLY is disabled exactly while no series id is selected. `ChartTs.ApplyFollowsSelection` shows how selections change that. |
| ChartTs.ApplyFollowsSelection | visualization/src/main/webapp/app/modules/visualizer/chart-ts.tsx:119-173 | APPLY starts disabled exactly when the store has no selected series. After fresh analysis results it is disabled. Picking a search result enables it with that result's id, and a backspace disables it again. |
| StatsPanel.FormatStat | visualization/src/main/webapp/app/modules/visualizer/stats-panel.tsx:23 | null shows "N/A" and a number shows that number. A missing key (`undefined`) throws. |
| StatsPanel.Lookup | visualization/src/main/webapp/app/modules/visualizer/stats-panel.tsx:65-81 | A key read gives a value exactly when the record has the key. |
| StatsPanel.ShownStat | visualization/src/main/webapp/app/modules/visualizer/stats-panel.tsx:64-83 | Measure 0 reads the single-measure statistic by name. Measure k reads the rectangle statistic named with suffix k-1. |
| StatsPanel.StatKeysDistinct | visualization/src/main/webapp/app/modules/visualizer/stats-panel.tsx:65-81 | Different measures read different rectangle keys. |
| StatsPanel.StatKeysOfMeasures | visualization/src/main/webapp/app/modules/visualizer/stats-panel.tsx:53-58 | The two measures of the drop-down read the keys ending in 0 and 1. |
| StatsPanel.MapTypeChange | visualization/src/main/webapp/app/modules/visualizer/stats-panel.tsx:26-31 | A map-type click dispatches exactly when it differs from the panel's type. The panel always takes the new value. |
| StatsPanel.MapTypeStaysInSync | visualization/src/main/webapp/app/modules/visualizer/stats-panel.tsx:26-31 | When store and panel agree before a click, they agree after it. |
| StatsPanel.MeasureChange | visualization/src/main/webapp/app/modules/visualizer/stats-panel.tsx:34-41 | A measure choice is always dispatched and stored locally. |
| StatsPanel.MeasureChoiceLeavesStore | visualization/src/main/webapp/app/modules/visualizer/stats-panel.tsx:34-41 | The dispatched choice leaves the store unchanged. |
| RawData.NewIndex | visualization/src/main/java/gr/archimedes/eidapp/tool/service/RawDataService.java:57-63 | A new index is not initialised, has indexed nothing and is not destroyed. |
| RawData.GetIndex | visualization/src/main/java/gr/archimedes/eidapp/tool/service/RawDataService.java:44-66 | The cached index when one exists, else a new one. Either way the registry afterwards maps the id to it. |
| RawData.GetIndexIdempotent | visualization/src/main/java/gr/archimedes/eidapp/tool/service/RawDataService.java:44-66 | A second lookup returns the same index and leaves the registry as the first lookup left it. |
| RawData.GetIndexKeepsOthers | visualization/src/main/java/gr/archimedes/eidapp/tool/service/RawDataService.java:44-66 | A lookup changes no other dataset's entry. |
| RawData.RemoveIndex | visualization/src/main/java/gr/archimedes/eidapp/tool/service/RawDataService.java:33-35 | Exactly that id's entry is removed. Every other entry is kept. |
| RawData.DestroyIndex | visualization/src/main/java/gr/archimedes/eidapp/tool/service/RawDataService.java:37-42 | A present index is marked destroyed and stays in the registry. Nothing else changes. |
| RawData.GetObjectsIndexed | visualization/src/main/java/gr/archimedes/eidapp/tool/service/RawDataService.java:68-71 | 0 for an absent id, else the index's count. |
| RawData.IsIndexInitialized | visualization/src/main/java/gr/archimedes/eidapp/tool/service/RawDataService.java:73-76 | True exactly when the id has an index and it is initialised. |
| RawData.RemovedIndexReportsDefaults | visualization/src/main/java/gr/archimedes/eidapp/tool/service/RawDataService.java:33-76 | After removal the status is not initialised with 0 objects, and the next lookup builds a new index. |
| RawData.DestroyedIndexStillServed | visualization/src/main/java/gr/archimedes/eidapp/tool/service/RawDataService.java:37-66 | After destruction, lookups still return the destroyed index rather than a new one. |
| RawData.GetObject | visualization/src/main/java/gr/archimedes/eidapp/tool/service/RawDataService.java:78-86 | The object is read from the looked-up index, and the registry is as the lookup leaves it. The row, or its absence (null), is passed on. An I/O failure of the read becomes a `RuntimeException`. |
| RawData.Tuples | visualization/src/main/java/gr/archimedes/eidapp/tool/service/RawDataService.java:121 | One tuple per engine point, in order. |
| RawData.TupleOrderAgreesWithClient | visualization/src/main/java/gr/archimedes/eidapp/tool/service/RawDataService.java:121 | The client's feature map reads back the point's `x` as longitude, `y` as latitude and its digital flag. |
| RawData.OtherSeries | visualization/src/main/java/gr/archimedes/eidapp/tool/service/RawDataService.java:106-108 | One series per single-measure group, aggregated with the query's function. |
| RawData.Series | visualization/src/main/java/gr/archimedes/eidapp/tool/service/RawDataService.java:110-112 | One series per group. It uses the x statistics exactly when the query's measure equals `measureCol0`, else the y statistics. A null measure throws. |
| RawData.Facets | visualization/src/main/java/gr/archimedes/eidapp/tool/service/RawDataService.java:122 | Facets map each column index to its values. Duplicate indexes throw. |
| RawData.Assemble | visualization/src/main/java/gr/archimedes/eidapp/tool/service/RawDataService.java:94-113 | The counters, total count and time series are copied. Statistics and series are set only when the engine returned statistics. |
| RawData.ExecuteQueryAsWritten | visualization/src/main/java/gr/archimedes/eidapp/tool/service/RawDataService.java:88-128 | As written, a null point list fails the query with a `NullPointerException`. A failing engine fails it with a `RuntimeException`. |
| RawData.MissingPointsFailQuery | visualization/src/main/java/gr/archimedes/eidapp/tool/service/RawDataService.java:97 | For any input whose engine returns no points, the as-written query fails while the guarded one succeeds. |
| RawData.ExecuteWith | visualization/src/main/java/gr/archimedes/eidapp/tool/service/RawDataService.java:94-122 | The points are the tuples of the engine's points, or none. `pointCount` is the given count. The facets are those of the schema. |
| RawData.ExecuteQuery | visualization/src/main/java/gr/archimedes/eidapp/tool/service/RawDataService.java:88-128 | A failing engine gives a `RuntimeException`, and a successful answer needs a successful engine. `pointCount` is the number of returned points. `totalPointCount` is the objects indexed. A null point list becomes empty. |
| RawData.ExecuteQueryAgreesWithPoints | visualization/src/main/java/gr/archimedes/eidapp/tool/service/RawDataService.java:114-121 | Whenever the engine fails or returns points, the guarded and as-written queries agree. |
| DatasetResource.CreateDataset | visualization/src/main/java/gr/archimedes/eidapp/tool/web/rest/DatasetResource.java:67-77 | A dataset whose id is set is rejected with "idexists" and nothing stored. Otherwise it is stored under a fresh id. The Location URI is built after the save, so a name `java.net.URI` rejects answers a server error with the dataset already stored. That is a name holding a character the URI accepts nowhere (an ASCII space or control, `" < > \ ^ ` { | }`, an ISO control up to U+009F or a Unicode space separator), or a square bracket before the first `?` or `#`. `SpacedNameSavedButFails` shows it for "my data". |
| DatasetResource.UpdateDataset | visualization/src/main/java/gr/archimedes/eidapp/tool/web/rest/DatasetResource.java:102-112 | A null id is rejected with "idnull". Otherwise the dataset replaces its entry. |
| DatasetResource.SpacedNameSavedButFails | visualization/src/main/java/gr/archimedes/eidapp/tool/web/rest/DatasetResource.java:72-74 | A new dataset named "my data" is stored under its fresh id, yet the answer is the `URISyntaxException` server error. |
| DatasetResource.NonAsciiSpaceAndBracketsFail | visualization/src/main/java/gr/archimedes/eidapp/tool/web/rest/DatasetResource.java:72-74 | "my", a no-break space and "data" fails, as does "x[1]". "x?[1]" is accepted, since the bracket is in the query. |
| DatasetResource.CreateAndUpdateComplementary | visualization/src/main/java/gr/archimedes/eidapp/tool/web/rest/DatasetResource.java:67-112 | Every dataset is rejected by exactly one of create and update. |
| DatasetResource.ColNames | visualization/src/main/java/gr/archimedes/eidapp/tool/web/rest/DatasetResource.java:284-286 | n names "col(0)" to "col(n-1)". |
| DatasetResource.ColNamesDistinct | visualization/src/main/java/gr/archimedes/eidapp/tool/web/rest/DatasetResource.java:284-286 | The synthetic names are pairwise distinct. |
| DatasetResource.FillHeaderAsWritten | visualization/src/main/java/gr/archimedes/eidapp/tool/web/rest/DatasetResource.java:267-291 | The parsed header when there is one. Otherwise, as written, synthetic names for one column more than parsed. Only the headers change. |
| DatasetResource.FillHeaderAsWrittenNamesOneTooMany | visualization/src/main/java/gr/archimedes/eidapp/tool/web/rest/DatasetResource.java:284-286 | Without a header row there is one name more than there are columns. |
| DatasetResource.FillHeader | visualization/src/main/java/gr/archimedes/eidapp/tool/web/rest/DatasetResource.java:267-291 | Without a header row, one synthetic name per parsed column. |
| DatasetResource.FillHeaderDropsExtraName | visualization/src/main/java/gr/archimedes/eidapp/tool/web/rest/DatasetResource.java:284-286 | The corrected names are the as-written ones without the last. |
| DatasetResource.Filled | visualization/src/main/java/gr/archimedes/eidapp/tool/web/rest/DatasetResource.java:125-132 | A failing header fill is logged and leaves the dataset as it was. |
| DatasetResource.GetAllDatasets | visualization/src/main/java/gr/archimedes/eidapp/tool/web/rest/DatasetResource.java:120-135 | Every stored dataset, in order, with its headers filled. |
| DatasetResource.GetDataset | visualization/src/main/java/gr/archimedes/eidapp/tool/web/rest/DatasetResource.java:150-164 | Not found exactly when the id is absent. Otherwise the dataset with its headers filled. |
| DatasetResource.IndexOf | visualization/src/main/java/gr/archimedes/eidapp/tool/web/rest/DatasetResource.java:175 | The first position of the character, or -1 exactly when it is absent. |
| DatasetResource.DeleteDataset | visualization/src/main/java/gr/archimedes/eidapp/tool/web/rest/DatasetResource.java:173-189 | Fails exactly when the id has no '.', changing nothing. Otherwise it deletes the entry stored under the full id and keeps the registry's keys. |
| DatasetResource.DeleteLeavesOwnIndex | visualization/src/main/java/gr/archimedes/eidapp/tool/web/rest/DatasetResource.java:175-184 | The index destroyed belongs to the prefix's dataset. The deleted dataset's own index entry is untouched. |
| DatasetResource.ExecuteQuery | visualization/src/main/java/gr/archimedes/eidapp/tool/web/rest/DatasetResource.java:195-201 | Not found for an absent dataset. A failing engine gives a server error carrying the `RuntimeException`. Otherwise the service's answer, with `pointCount` equal to the number of points. |
| DatasetResource.GetObject | visualization/src/main/java/gr/archimedes/eidapp/tool/web/rest/DatasetResource.java:204-208 | Not found for an absent dataset, and also for a null row. A failed read is a server error. Otherwise the row is returned, read through the index lookup. |
| DatasetResource.ResetIndex | visualization/src/main/java/gr/archimedes/eidapp/tool/web/rest/DatasetResource.java:211-214 | Removes the dataset's index when the dataset exists, else changes nothing. |
| DatasetResource.GetIndexStatus | visualization/src/main/java/gr/archimedes/eidapp/tool/web/rest/DatasetResource.java:217-219 | The status is the service's initialised flag and objects-indexed count. |
| DatasetResource.ResetReportsDefaultStatus | visualization/src/main/java/gr/archimedes/eidapp/tool/web/rest/DatasetResource.java:211-219 | After a reset, and for an id without an index, the status is the default (false, 0). |
| DatasetResource.QueryRegistersIndex | visualization/src/main/java/gr/archimedes/eidapp/tool/web/rest/DatasetResource.java:195-219 | The first query registers a fresh index, whose status is (false, 0) until it is built. |
| SingleRect.MinimumIsLeast | visualization/src/main/java/gr/archimedes/eidapp/tool/domain/SingleRectStats.java:17 | The minimum is one of the values and bounds them from below. |
| SingleRect.MaximumIsGreatest | visualization/src/main/java/gr/archimedes/eidapp/tool/domain/SingleRectStats.java:18 | The maximum is one of the values and bounds them from above. |
| SingleRect.MeanBetweenExtremes | visualization/src/main/java/gr/archimedes/eidapp/tool/domain/SingleRectStats.java:16-18 | The mean lies between minimum and maximum. |
| SingleRect.SumBounds | visualization/src/main/java/gr/archimedes/eidapp/tool/domain/SingleRectStats.java:16 | Bounds on every value bound the sum n times. |
| SingleRect.SquaredDeviationsNonNegative | visualization/src/main/java/gr/archimedes/eidapp/tool/domain/SingleRectStats.java:19 | The squared deviations are never negative. |
| SingleRect.FromStats | visualization/src/main/java/gr/archimedes/eidapp/tool/domain/SingleRectStats.java:13-22 | The count is always copied. With no values the five statistics stay null. Otherwise all five are set: min and max among the values, the mean between them with mean times n equal to the sum, a non-negative population variance, and the deviation its root. |
| SingleRect.Set | visualization/src/main/java/gr/archimedes/eidapp/tool/domain/SingleRectStats.java:36-70 | A setter changes its own field and no other. |
| SingleRect.SetCount | visualization/src/main/java/gr/archimedes/eidapp/tool/domain/SingleRectStats.java:28-30 | `setCount` changes the count and no statistic. |
| SingleRect.SetGetLaws | visualization/src/main/java/gr/archimedes/eidapp/tool/domain/SingleRectStats.java:32-70 | Setting a field to its own value changes nothing, and a second set overrides the first. |
| LoadDataset.ReplaceMonth | models/training/lstm/src/water_consumption_prediction/dataset/load_dataset.py:22-28 | January becomes December of the previous year. Other months decrement within the year. It raises when the day does not exist in the target month, or the year would fall below 1. |
| LoadDataset.ReplaceMonthInverse | models/training/lstm/src/water_consumption_prediction/dataset/load_dataset.py:22-28 | The next month of the result is the input. The first of a month always succeeds. |
| LoadDataset.NextMonth | models/training/lstm/src/water_consumption_prediction/dataset/load_dataset.py:22-28 | The inverse of `replace_month`. `LoadDataset.ReplaceMonthInverse` and `LoadDataset.MonthlyIntervalFitsEveryMonth` prove its laws. |
| LoadDataset.Ceil | models/training/lstm/src/water_consumption_prediction/dataset/load_dataset.py:108 | The least integer not below x. |
| LoadDataset.Samples | models/training/lstm/src/water_consumption_prediction/dataset/load_dataset.py:108-112 | The ceiling of the percentage times the series length. `LoadDataset.SplitPartitions` proves the parts it cuts. |
| LoadDataset.SplitCounts | models/training/lstm/src/water_consumption_prediction/dataset/load_dataset.py:108-117 | The train and validation parts never hold more items than the series. |
| LoadDataset.SplitCountsLengths | models/training/lstm/src/water_consumption_prediction/dataset/load_dataset.py:108-117 | The part sizes depend only on the series length. |
| LoadDataset.SplitPartitions | models/training/lstm/src/water_consumption_prediction/dataset/load_dataset.py:108-117 | With t >= 1 and v + t <= n, train ++ validation ++ test is the series, with t test and v validation items. |
| LoadDataset.SplitWithoutTestItems | models/training/lstm/src/water_consumption_prediction/dataset/load_dataset.py:109 | With t = 0, `[-0:]` makes every item a test item and the validation part empty. |
| LoadDataset.SplitOne | models/training/lstm/src/water_consumption_prediction/dataset/load_dataset.py:107-117 | For equal-length data and targets, each part has as many targets as items. |
| LoadDataset.CreateValidationTest | models/training/lstm/src/water_consumption_prediction/dataset/load_dataset.py:103-119 | The split over all series. `LoadDataset.SplitKeepsTargetsAligned` and `LoadDataset.SplitKeepsEverything` prove its alignment and its size. |
| LoadDataset.SplitKeepsTargetsAligned | models/training/lstm/src/water_consumption_prediction/dataset/load_dataset.py:103-119 | Across series, each part keeps data and targets aligned. The targets are exactly that part of the target lists. |
| LoadDataset.SplitKeepsEverything | models/training/lstm/src/water_consumption_prediction/dataset/load_dataset.py:103-119 | When each series has room for its held-out parts, the three parts together are as long as all series. |
| LoadDataset.Features | models/training/lstm/src/water_consumption_prediction/dataset/load_dataset.py:84-91 | The features drop the id column and start with the target column. |
| LoadDataset.Interval | models/training/lstm/src/water_consumption_prediction/dataset/load_dataset.py:48-53 | 31 days for monthly data and 1 day for daily data. |
| LoadDataset.MonthlyIntervalFitsEveryMonth | models/training/lstm/src/water_consumption_prediction/dataset/load_dataset.py:48-50 | Consecutive first-of-month dates are never further apart than the monthly interval. |
| LoadDataset.Dates | models/training/lstm/src/water_consumption_prediction/dataset/load_dataset.py:68 | The dates of the window's rows, in order. |
| LoadDataset.KeptPositions | models/training/lstm/src/water_consumption_prediction/dataset/load_dataset.py:64-82 | The rows kept are exactly those that have `num_timesteps` rows of their series before them and pass the gap test. |
| LoadDataset.WindowAt | models/training/lstm/src/water_consumption_prediction/dataset/load_dataset.py:67 | The window is the k rows before the target row, in order. |
| LoadDataset.SeriesWindowsOf | models/training/lstm/src/water_consumption_prediction/dataset/load_dataset.py:64-98 | One window and one target per kept row, in order. |
| LoadDataset.KeptWindowsAreContiguous | models/training/lstm/src/water_consumption_prediction/dataset/load_dataset.py:73-78 | With every in-window gap checked, a kept window has no gap above the interval, including the one before its last row. |
| LoadDataset.LastGapUncheckedAsWritten | models/training/lstm/src/water_consumption_prediction/dataset/load_dataset.py:74-76 | As written, a window with a 100-day gap before its last row is kept. |
| LoadDataset.Positions | models/training/lstm/src/water_consumption_prediction/dataset/load_dataset.py:62 | The rows of a series, in increasing order. |
| LoadDataset.Unique | models/training/lstm/src/water_consumption_prediction/dataset/load_dataset.py:56 | Every id exactly once. |
| LoadDataset.Ids | models/training/lstm/src/water_consumption_prediction/dataset/load_dataset.py:56 | The id column, row by row. |
| LoadDataset.SeriesOf | models/training/lstm/src/water_consumption_prediction/dataset/load_dataset.py:58-98 | A series has as many targets as windows. |
| LoadDataset.AllSeries | models/training/lstm/src/water_consumption_prediction/dataset/load_dataset.py:58-98 | One entry per series id, in order. |
| LoadDataset.WindowsOf | models/training/lstm/src/water_consumption_prediction/dataset/load_dataset.py:97 | The windows of each series, in order. |
| LoadDataset.TargetsOf | models/training/lstm/src/water_consumption_prediction/dataset/load_dataset.py:98 | The targets of each series, in order. |
| LoadDataset.CreateTimesteps | models/training/lstm/src/water_consumption_prediction/dataset/load_dataset.py:41-100 | One window list and one target list per distinct id, of equal lengths. The flat lists are their concatenations. A window length below 1 raises once there is a row. |
| LoadDataset.TimestepsFeedAlignedSplit | models/training/lstm/src/water_consumption_prediction/dataset/load_dataset.py:168-169 | The windows and targets fed to the split keep every part aligned. |
| LoadDataset.ClipLower | models/training/lstm/src/water_consumption_prediction/dataset/load_dataset.py:164 | Negative values become 0 and the others are kept. |
| LoadDataset.ClipIdempotent | models/training/lstm/src/water_consumption_prediction/dataset/load_dataset.py:164 | Clipping twice is clipping once. |
| Normalization.ZScore | models/training/lstm/src/water_consumption_prediction/dataset/normalization_utilites.py:5-7 | Defined exactly when s is non-zero. The result times s is x - m. |
| Normalization.ZScoreRoundTrip | models/training/lstm/src/water_consumption_prediction/dataset/normalization_utilites.py:5-15 | For s non-zero, the inverse undoes the forward map and the forward map undoes the inverse. |
| Normalization.MinMax | models/training/lstm/src/water_consumption_prediction/dataset/normalization_utilites.py:9-11 | Defined exactly when max and min differ. The result times (max - min) is (x - min) times the range width. |
| Normalization.InverseMinMax | models/training/lstm/src/water_consumption_prediction/dataset/normalization_utilites.py:17-19 | Defined exactly when the range ends differ. |
| Normalization.MinMaxRoundTrip | models/training/lstm/src/water_consumption_prediction/dataset/normalization_utilites.py:9-19 | For max ≠ min and maxr ≠ minr, the inverse undoes the forward map. |
| Normalization.MinMaxRange | models/training/lstm/src/water_consumption_prediction/dataset/normalization_utilites.py:9-11 | For x in [min, max] the output is in [0, maxr - minr], with min mapped to 0 and max to maxr - minr. `minrange` is never added. |
| Normalization.EntriesContain | models/training/lstm/src/water_consumption_prediction/dataset/normalization_utilites.py:25-26 | Every tensor element is among the entries the factors are computed from. |
| Normalization.EntryPosition | models/training/lstm/src/water_consumption_prediction/dataset/normalization_utilites.py:25-26 | Every entry is some tensor element. |
| Normalization.MapEntries | models/training/lstm/src/water_consumption_prediction/dataset/normalization_utilites.py:48-50 | The elementwise map succeeds exactly when every element maps. The shape is kept and each element is mapped in place. |
| Normalization.SetScalingFactors | models/training/lstm/src/water_consumption_prediction/dataset/normalization_utilites.py:21-33 | Min-max gives the global minimum and maximum, both among the entries and bounding them, and fails exactly on an empty tensor. Z-score succeeds exactly for a rectangular tensor of at least two rows and one column. Each column's mean times the row count is the column's sum, and its deviation is the root of the squared deviations over n - 1. Any other method fails. |
| Normalization.ColumnLength | models/training/lstm/src/water_consumption_prediction/dataset/normalization_utilites.py:28-29 | A column of a rectangular tensor has one entry per row, and its entry i is entry j of row i. |
| Normalization.ColumnFactors | models/training/lstm/src/water_consumption_prediction/dataset/normalization_utilites.py:28-29 | One mean and one deviation per column. The mean times the row count is the column sum, and the deviation is the root of the squared deviations over n - 1. |
| Normalization.Apply | models/training/lstm/src/water_consumption_prediction/dataset/normalization_utilites.py:46-50 | Min-max factors scale every element into the default range (0, 1). Z-score factors need one mean and one deviation per column. |
| Normalization.RescaleData | models/training/lstm/src/water_consumption_prediction/dataset/normalization_utilites.py:42-52 | Saved factors are used when present, otherwise they are computed from the tensor. The result is the tensor scaled with them. An unknown method or mismatched saved factors fail. |
| Normalization.MinMaxTrainingInUnitRange | models/training/lstm/src/water_consumption_prediction/dataset/normalization_utilites.py:42-52 | With freshly computed min-max factors, every scaled element lies in [0, 1]. |
| Normalization.LaterTensorsReuseFactors | models/training/lstm/src/water_consumption_prediction/dataset/normalization_utilites.py:42-52 | A later tensor rescaled with the saved factors uses the training tensor's factors. |
| Normalization.InverseNormalizedData | models/training/lstm/src/water_consumption_prediction/dataset/normalization_utilites.py:61-67 | Without saved factors, or for an unknown method, the inverse fails. |
| Normalization.InverseUndoesRescale | models/training/lstm/src/water_consumption_prediction/dataset/normalization_utilites.py:42-67 | Inverting a successful rescale with the factors it used gives back the tensor. |
| MaskedFlip.Reverse | models/training/lstm/src/water_consumption_prediction/model/create_model.py:23 | The flip along time: element i is element n-1-i. |
| MaskedFlip.Clamp | models/training/lstm/src/water_consumption_prediction/model/create_model.py:26-27 | A length above the maximum becomes the maximum. Others are kept. |
| MaskedFlip.Longest | models/training/lstm/src/water_consumption_prediction/model/create_model.py:29 | The length of the longest sequence, or 0 for none. |
| MaskedFlip.Ones | models/training/lstm/src/water_consumption_prediction/model/create_model.py:29 | n padding values. |
| MaskedFlip.PadSequence | models/training/lstm/src/water_consumption_prediction/model/create_model.py:29 | Fails exactly on an empty list. Otherwise every sequence is padded with 1 to the longest length, keeping its elements. |
| MaskedFlip.Flip | models/training/lstm/src/water_consumption_prediction/model/create_model.py:6-29 | A length list that does not match the batch size fails the assertion. Otherwise there is one row per input row. |
| MaskedFlip.PieceReversesPrefix | models/training/lstm/src/water_consumption_prediction/model/create_model.py:23-28 | For 0 <= L <= T the kept piece is the first L steps reversed. |
| MaskedFlip.PieceOfNonPositiveLength | models/training/lstm/src/water_consumption_prediction/model/create_model.py:28 | A length of zero or below keeps nothing. |
| MaskedFlip.FlipReversesUnmasked | models/training/lstm/src/water_consumption_prediction/model/create_model.py:23-29 | Row i starts with its first L_i steps reversed and is padded with 1 after that. |
| MaskedFlip.FlipWidth | models/training/lstm/src/water_consumption_prediction/model/create_model.py:29 | The output is as wide as the longest clamped length. |
| MaskedFlip.FlipTwiceRestores | models/training/lstm/src/water_consumption_prediction/model/create_model.py:6-29 | Flipping twice with the same lengths restores every unmasked step. |
| MaskedFlip.OverlongLengthKeepsTail | models/training/lstm/src/water_consumption_prediction/model/create_model.py:28 | A length above the time steps, when not clamped, slices from the end: three steps with length 4 keep one step. |
| TrainModel.Train | models/training/lstm/src/water_consumption_prediction/model/train_model.py:22-77 | The recorded losses are the batch means of the epochs that ran, at most `epochs` of them. The best epoch holds the least validation loss, and every later epoch is worse. A stop happens in the first epoch where `patience` worse epochs follow the best one, and that epoch is not recorded. No recorded epoch had such a streak: `NoEarlierStop` says that at every recorded epoch e, e minus the best epoch of the losses up to e is 0 or below `patience`. Zero epochs leave the best model unbound, and an empty loader divides by zero. |
| TrainModel.WorseEpochStopsAtPatienceOne | models/training/lstm/src/water_consumption_prediction/model/train_model.py:59-65 | With `patience` 1, the losses 5, 6, 4 break `NoEarlierStop`: the worse second epoch already stops training, so no run records that history. |
| ReadArguments.RemoveParens | models/training/lstm/src/water_consumption_prediction/utils/read_arguments.py:2 | No parenthesis is left. |
| ReadArguments.RemoveParensFree | models/training/lstm/src/water_consumption_prediction/utils/read_arguments.py:2 | Text without parentheses is unchanged. |
| ReadArguments.RemoveParensAppend | models/training/lstm/src/water_consumption_prediction/utils/read_arguments.py:2 | Removal distributes over concatenation. |
| ReadArguments.ParseAll | models/training/lstm/src/water_consumption_prediction/utils/read_arguments.py:3 | Succeeds exactly when every piece is an integer. Each piece is parsed in place. |
| ReadArguments.TupleType | models/training/lstm/src/water_consumption_prediction/utils/read_arguments.py:1-4 | Succeeds exactly when every comma-separated piece of the parenthesis-free text is an integer. The tuple has one element more than there are commas. |
| ReadArguments.EmptyPieceRejected | models/training/lstm/src/water_consumption_prediction/utils/read_arguments.py:3 | Any empty piece, as in "1,,2", is a parse error. |
| ReadArguments.EmptyTupleRejected | models/training/lstm/src/water_consumption_prediction/utils/read_arguments.py:3 | "()" is a parse error. |
| ReadArguments.IntTextPlain | models/training/lstm/src/water_consumption_prediction/utils/read_arguments.py:3 | An integer's text holds no comma and no parenthesis. |
| ReadArguments.JoinFreeOfParens | models/training/lstm/src/water_consumption_prediction/utils/read_arguments.py:2-3 | Pieces without parentheses join into text without them. |
| ReadArguments.TupleTypeRender | models/training/lstm/src/water_consumption_prediction/utils/read_arguments.py:1-4 | Every non-empty tuple of integers is read back from its text "(a,b,…)". |
| ReadArguments.CreateGroupDictionary | models/training/lstm/src/water_consumption_prediction/utils/read_arguments.py:6-10 | The group is exactly the arguments whose keys are not current, with their values, and its keys are disjoint from the current ones. The full arguments are returned too. |
| ReadArguments.GroupsPartition | models/training/lstm/src/water_consumption_prediction/utils/read_arguments.py:6-10 | Take the two calls the scripts make on a growing parser: first with no current keys, then with the first call's full arguments as current. The first group is all of the first arguments. The second group is exactly the options added since, with their values. The two groups are disjoint and together cover every key of the second parse. |
| FlaskFeatures.ValidRows | models/training/lstm/scripts/flask_api_xgb.py:23 | Exactly the valid rows are kept. |
| FlaskFeatures.Vols | models/training/lstm/scripts/flask_api_xgb.py:26 | One volume per row. `FlaskFeatures.VolsTelescope` proves that they add up to the net volumes. |
| FlaskFeatures.VolsTelescope | models/training/lstm/scripts/flask_api_xgb.py:26 | The volumes up to row i add up to the net volume of row i: the first volume is the first net volume, and each later one is the difference. |
| FlaskFeatures.LastNonZero | models/training/lstm/scripts/flask_api_xgb.py:30-32 | None exactly when every volume is zero. Otherwise a non-zero position with only zeros after it. |
| FlaskFeatures.LastNonZeroAt | models/training/lstm/scripts/flask_api_xgb.py:30-32 | A non-zero volume followed only by zeros is the last non-zero one. |
| FlaskFeatures.TrimTrailingZeros | models/training/lstm/scripts/flask_api_xgb.py:29-33 | A prefix of the rows. When all volumes are zero it is all rows. Otherwise it ends at the last non-zero volume. |
| FlaskFeatures.WithConsumption | models/training/lstm/scripts/flask_api_xgb.py:38-39 | The rows with a consumption value, as `Value`, and no others. |
| FlaskFeatures.NetVolumes | models/training/lstm/scripts/flask_api_xgb.py:26 | The net volume column. |
| FlaskFeatures.Kept | models/training/lstm/scripts/flask_api_xgb.py:27-33 | The kept rows are valid rows, at least two fewer than the valid rows, or none. |
| FlaskFeatures.KeptEndsAtLastChange | models/training/lstm/scripts/flask_api_xgb.py:26-33 | After the first two, the rows kept run up to the one with the last change of the net volume. |
| FlaskFeatures.TrimKeepsLastChange | models/training/lstm/scripts/flask_api_xgb.py:22-41 | The row with the last change of the net volume survives `fixData` when it has a consumption value. |
| FlaskFeatures.FixData | models/training/lstm/scripts/flask_api_xgb.py:22-41 | Every output row comes from a valid input row with that date and consumption. At least the first two valid rows are gone. |
| FlaskFeatures.YearMonth | models/training/lstm/scripts/flask_api_xgb.py:47 | "%Y-%m" text has seven characters. |
| FlaskFeatures.YearMonthInjective | models/training/lstm/scripts/flask_api_xgb.py:47 | Distinct year-month pairs have distinct "%Y-%m" texts. |
| FlaskFeatures.IsCovid | models/training/lstm/scripts/flask_api_xgb.py:46-48 | The lockdown test on "%Y-%m" text. `FlaskFeatures.IsCovidMonths` proves the months it holds for. |
| FlaskFeatures.IsCovidMonths | models/training/lstm/scripts/flask_api_xgb.py:46-48 | The lockdown flag holds exactly for March-May, November and December 2020, and February-April 2021. |
| FlaskFeatures.IsChristmasAsWritten | models/training/lstm/scripts/flask_api_xgb.py:49 | The flag as written. `FlaskFeatures.ChristmasAsWrittenCoversDecember` proves that it covers every December day. |
| FlaskFeatures.IsChristmas | models/training/lstm/scripts/flask_api_xgb.py:49 | The corrected flag. `FlaskFeatures.ChristmasPeriod` proves its period. |
| FlaskFeatures.ChristmasAsWrittenCoversDecember | models/training/lstm/scripts/flask_api_xgb.py:49 | As written, every December day is flagged, though 1-23 December are outside the period. |
| FlaskFeatures.ChristmasPeriod | models/training/lstm/scripts/flask_api_xgb.py:49 | The corrected flag holds exactly from 24 December to 7 January. |
| FlaskFeatures.WeekdayAnchor | models/training/lstm/scripts/flask_api_xgb.py:50 | The weekday numbering is Python's: 2 March 2020 was a Monday (0). |
| FlaskFeatures.IsWeekday | models/training/lstm/scripts/flask_api_xgb.py:50 | Python weekday below 5. `FlaskFeatures.WeekdayAnchor` and `FlaskFeatures.WeekendAfterFriday` prove its numbering. |
| FlaskFeatures.WeekendAfterFriday | models/training/lstm/scripts/flask_api_xgb.py:50 | After a Friday come two non-weekdays and then a weekday. |
| FlaskFeatures.IsSummer | models/training/lstm/scripts/flask_api_xgb.py:53 | `FlaskFeatures.SummerIsInterval` proves the interval it holds for. |
| FlaskFeatures.SummerIsInterval | models/training/lstm/scripts/flask_api_xgb.py:53 | The summer flag is the interval 16 June to 10 September, both ends included. |
| FlaskFeatures.CreateFeatures | models/training/lstm/scripts/flask_api_xgb.py:43-58 | Value clipped with `LoadDataset.ClipLower`: a negative value becomes 0 and any other is kept. The covid, holiday, weekday and summer flags hold exactly when their date predicates do. The Christmas flag is `IsChristmasAsWritten` for the code as written and `IsChristmas` when corrected. |
| FlaskFeatures.FeaturesAsWrittenFlagEarlyDecember | models/training/lstm/scripts/flask_api_xgb.py:49 | As written, 1-23 December rows are flagged as Christmas. The corrected flag leaves them out. |
| Calendar.DaysIn | models/training/lstm/scripts/flask_api_xgb.py:50 | Every month has 28 to 31 days. |
| Calendar.Weekday | models/training/lstm/scripts/flask_api_xgb.py:50 | The weekday is 0 to 6. |
| Calendar.DaysBeforeDecember | models/training/lstm/scripts/flask_api_xgb.py:50 | The months add up to a 365- or 366-day year. |
| Calendar.DaysBeforeNextYear | models/training/lstm/scripts/flask_api_xgb.py:50 | Year ordinals advance by the year's length. |
| Calendar.OrdinalNextDay | models/training/lstm/scripts/flask_api_xgb.py:50 | The next day is valid and one ordinal later. |
| Calendar.WeekdayNextDay | models/training/lstm/scripts/flask_api_xgb.py:50 | The next day's weekday is one later, modulo 7. |
| Text.JoinSplit | visualization/src/main/webapp/app/modules/visualizer/vis-control.tsx:61 | Joining the pieces of a split gives back the text. |
| Text.SplitJoin | visualization/src/main/webapp/app/modules/visualizer/vis-control.tsx:61-64 | Pieces without the separator are split back out of their join. |
| Text.SplitCount | models/training/lstm/src/water_consumption_prediction/utils/read_arguments.py:3 | Splitting on a character gives one piece more than it occurs. |
| Text.SplitPiecesFree | models/training/lstm/src/water_consumption_prediction/utils/read_arguments.py:3 | No piece contains the separator. |
| Text.ParseIntToString | models/training/lstm/src/water_consumption_prediction/utils/read_arguments.py:3 | `int` reads back the decimal text of every integer. |
| Text.IntToStringInjective | visualization/src/main/webapp/app/modules/visualizer/stats-panel.tsx:65 | Distinct integers have distinct decimal texts. |
| Text.DigitsValueOfNat | models/training/lstm/src/water_consumption_prediction/utils/read_arguments.py:3 | The value of a natural number's digits is that number. |
| PySlice.Resolve | models/training/lstm/src/water_consumption_prediction/dataset/load_dataset.py:109-117 | A slice bound counts from the end when negative and is clamped into 0..n. |

## Left out

- HTTP, axios, the Redux promise middleware, Flask routes, the forecast proxy and the request script are network I/O. Requests appear as `Sent(request)` effects, and server answers are parameters.
- `setTimeout`, `Date.now()`, the JavaScript `Date` constructor, `toFixed` and Leaflet/Highcharts rendering are foreign. The clock is a parameter, and date fields are passed on as text.
- The clustering library's spatial index and `getClusters` are a library. Only the feature map and the `reduce` callback are modelled, and `MAX_ZOOM` is a parameter.
- The index engine (query execution, object reads, index building) is called but not visible. Its answers, failures included for queries and object reads, are parameters of `RawData`.
- `Dataset.java`, `DatasetRepository.java`, `VisQuery.java` and `VisQueryResults.java` are not part of this model beyond the fields the model reads. The repository is a map from id to dataset.
- CSV parsing of the header row is left out. The parsed header, or its absence, is an input of `DatasetResource.FillHeader`.
- Java `synchronized` and asynchronous interleavings are left out. Only the post-await order of actions is modelled.
- PyTorch networks, gradients, the optimiser, model saving and copying, plots, prints, pickle and CSV I/O, and `main.py` wiring are left out. `evaluate_model.py` is not part of this model.
- Pandas date parsing is left out. Dates are `Calendar.Date` values or timestamps in seconds.
- The single-dispatch action creators `updateMapType`, `getIndexStatus`, `getRow`, `updateExpandedClusterIndex`, `toggleTimeSeriesData`, `updateTimeSeriesDataToggle`, `updateSelectedMeasure` and `updateSelectedTimeSeries` have no proof of their own. Each dispatches one action, and the reducer lemmas cover what that action does.
- MapView.SpiderLegs: leg positions use `cos`/`sin` placement, which is not modelled. Only the one-marker-one-leg correspondence is stated.
- StatsPanel.FormatStat: the two-decimal `toFixed` text is not modelled. The number itself is shown.
- Normalization.SetScalingFactors: a z-score over fewer than two rows, or over rows of zero width, is an error in the model. In the source, torch yields NaN or infinite factors there. Float32 rounding is not modelled.
- RawData.GetIndex: building a new index can fail with an `IOException` in the source. The model's lookup always succeeds, so only the read of an object, and not the lookup before it, can fail in RawData.GetObject.
- DatasetResource.CreateDataset: the model fails a name for the characters `java.net.URI` rejects everywhere and for a bracket in the path. A malformed percent escape or a second `#` in the name also makes the source throw, and the model answers Created there.
- Normalization.RescaleData: the saved-factor file is taken as already read. Factors of the wrong kind for the method are an error, where the source would misuse them. A zero divisor is an error too: a column whose deviation is 0 (a constant feature over two or more rows) under z-score, or a tensor whose entries are all equal under min-max. In the source, torch divides by zero there and carries on with infinite or NaN entries. Normalization.Apply reports the same case as an error.
- Normalization.InverseNormalizedData: the source reads `scale_range` from the default `(0, 1)` only. The model uses the same constant range.
- MaskedFlip.Flip: the feature dimension of a time step is elided into one real, so the batch is a sequence of rows of reals.
- TrainModel.Train: the network's batch losses are the input `run(e)`. Training and saving the model are left out, and the best model is identified by its epoch.
- FlaskFeatures.CreateFeatures: the public holidays come from the `holidays` library and are an input set.
- FlaskFeatures.FixData: a missing net volume, which would make `diff` produce NaN, is not modelled. Every row has a net volume.
- FlaskFeatures.YearMonth: covers years 0 to 9999 written with four digits. The platform-dependent `strftime` padding of years below 1000 is not modelled.
- Text.ParseInt: accepts surrounding ASCII white space, an optional sign and ASCII digits. Python's `int` also accepts underscores between digits and non-ASCII digits.
- VisControl.HandleChange: the `Date` built from the fields and its `getTime` are not modelled. The fields are passed on as text, and only the month index is read from them.
- DatasetResource.Filled: composes the corrected `DatasetResource.FillHeader`, one name per column, and not the n+1 names the code writes (Findings row 1). `DatasetResource.FillHeaderAsWritten` models the code.
- DatasetResource.GetAllDatasets: built on `DatasetResource.Filled`, so it lists the corrected headers of Findings row 1.
- DatasetResource.GetDataset: built on `DatasetResource.Filled`, so it returns the corrected headers of Findings row 1.
- DatasetResource.ExecuteQuery: composes the guarded `RawData.ExecuteQuery`, so a missing point list gives zero points where the code throws a `NullPointerException` (Findings row 2). `RawData.ExecuteQueryAsWritten` models the code.
- Floating point is modelled as exact reals and unbounded integers. Rounding can differ: in LoadDataset.Samples, `math.ceil(0.07*100)` is 8 over IEEE doubles but 7 over reals. The same applies to SingleRect.FromStats, ChartTs.Shifted, the batch means of TrainModel.Train and all of `Normalization`.
- ChartTs.Search: `toLowerCase` folds every Unicode letter, but `Text.Lower` folds only ASCII. Names and queries with other letters may match differently. ChartTs.SearchIgnoresQueryCase holds for this ASCII folding.
- VisControl.MonthIndexAsWritten: `new Date` converts each field with JavaScript's `ToNumber`, so "" gives 0, "1e1" gives 10 and "0x1" gives 1. A missing field gives NaN and an Invalid Date, not an exception. The model reads only decimal integer text and returns `Err("NaN")` for anything else.

## Findings

| source | as written | input that shows it | evidently intended | confidence | as-written member | corrected member |
|---|---|---|---|---|---|---|
| visualization/src/main/java/gr/archimedes/eidapp/tool/web/rest/DatasetResource.java:284-286 | the header loop runs `i <= n`, giving n+1 names | a headerless file with 2 columns gets "col(0)", "col(1)", "col(2)" | one name per column, "col(0)" … "col(n-1)" | high, not executed | DatasetResource.FillHeaderAsWrittenNamesOneTooMany | DatasetResource.FillHeaderDropsExtraName |
| visualization/src/main/java/gr/archimedes/eidapp/tool/service/RawDataService.java:97 | `getPoints().size()` is read before the null check of lines 114-120 | any query whose engine result has no point list fails instead of returning zero points | count the points after the null check | high, not executed | RawData.MissingPointsFailQuery | RawData.ExecuteQueryAgreesWithPoints |
| visualization/src/main/webapp/app/modules/visualizer/visualizer.reducer.ts:559-565 | `updateTimeRange` dispatches the bare range, but the reducer stores `payload.data` | any range: the store's `timeRange` becomes undefined, so the next `updateAnalysisResults` throws and later `updateClusters` calls send no `from`/`to` | store the range and query with it | medium, not executed | VisThunks.TimeRangeAsWrittenLosesRange | VisThunks.TimeRangeStored |
| visualization/src/main/webapp/app/modules/visualizer/visualizer.reducer.ts:306-310 | `digital` is computed from the accumulated points before the new points are concatenated | a plain point merged with a digital point gives a cluster with `digital` false | the cluster is digital when any of its points is | high, not executed | ClusterFeatures.MergeMissesLastDigital | ClusterFeatures.MergeAllFixedFlagAgrees |
| visualization/src/main/webapp/app/modules/visualizer/vis-control.tsx:65-66 | the typed month is passed as the zero-based month index of `new Date` | "1-3-2021 - 31-12-2021" gives 1 April 2021 to 31 January 2022 | pass month - 1 | high, not executed | VisControl.MonthShiftedAsWritten | VisControl.MonthIndexKeepsMonth |
| models/training/lstm/src/water_consumption_prediction/dataset/load_dataset.py:74-76 | `range(1, len(dates) - 1)` skips the gap before the window's last row | a 2-step daily window at days 0, 100 with target day 100 is kept | check every in-window gap | medium, not executed | LoadDataset.LastGapUncheckedAsWritten | LoadDataset.KeptWindowsAreContiguous |
| models/training/lstm/scripts/flask_api_xgb.py:49 | `(day >= 24) \| (day <= 31)` holds for every December day | 1 December is flagged as Christmas | 24 to 31 December and 1 to 7 January | high, not executed | FlaskFeatures.FeaturesAsWrittenFlagEarlyDecember | FlaskFeatures.ChristmasPeriod |

=== FILE: calendar.dfy ===
/** Proleptic Gregorian calendar dates as Python's `datetime.date` and
    pandas' timestamps represent them: validity, day ordinals and the
    day of the week. */
module Calendar {

  datatype Date = Date(year: int, month: int, day: int)

  predicate IsLeap(y: int) {
    y % 4 == 0 && (y % 100 != 0 || y % 400 == 0)
  }

  function DaysIn(y: int, m: int): (n: int)
    requires 1 <= m <= 12
    ensures 28 <= n <= 31
  {
    if m == 2 then (if IsLeap(y) then 29 else 28)
    else if m == 4 || m == 6 || m == 9 || m == 11 then 30
    else 31
  }

  /** Python's years run from 1 to 9999. */
  predicate Valid(d: Date) {
    1 <= d.year <= 9999 && 1 <= d.month <= 12 && 1 <= d.day <= DaysIn(d.year, d.month)
  }

  /** Days in the months before `m` of year `y`. */
  function DaysBeforeMonth(y: int, m: int): int
    requires 1 <= m <= 12
  {
    if m == 1 then 0 else DaysBeforeMonth(y, m - 1) + DaysIn(y, m - 1)
  }

  /** Days in the years before `y` (for `y >= 1`). */
  function DaysBeforeYear(y: int): int
    requires y >= 1
  {
    var p := y - 1;
    p * 365 + p / 4 - p / 100 + p / 400
  }

  /** The proleptic Gregorian ordinal: 1 January of year 1 is day 1. */
  function Ordinal(d: Date): int
    requires Valid(d)
  {
    DaysBeforeYear(d.year) + DaysBeforeMonth(d.year, d.month) + d.day
  }

  /** Day of the week, Monday = 0 … Sunday = 6; day 1 was a Monday. */
  function Weekday(d: Date): (w: int)
    requires Valid(d)
    ensures 0 <= w < 7
  {
    (Ordinal(d) + 6) % 7
  }

  /** The following calendar day. */
  function NextDay(d: Date): (e: Date)
    requires Valid(d)
  {
    if d.day < DaysIn(d.year, d.month) then d.(day := d.day + 1)
    else if d.month < 12 then Date(d.year, d.month + 1, 1)
    else Date(d.year + 1, 1, 1)
  }

  lemma DaysBeforeDecember(y: int)
    ensures DaysBeforeMonth(y, 12) + 31 == if IsLeap(y) then 366 else 365
  {
    assert DaysBeforeMonth(y, 2) == 31;
    assert DaysBeforeMonth(y, 3) == 31 + DaysIn(y, 2);
    assert DaysBeforeMonth(y, 4) == DaysBeforeMonth(y, 3) + 31;
    assert DaysBeforeMonth(y, 5) == DaysBeforeMonth(y, 4) + 30;
    assert DaysBeforeMonth(y, 6) == DaysBeforeMonth(y, 5) + 31;
    assert DaysBeforeMonth(y, 7) == DaysBeforeMonth(y, 6) + 30;
    assert DaysBeforeMonth(y, 8) == DaysBeforeMonth(y, 7) + 31;
    assert DaysBeforeMonth(y, 9) == DaysBeforeMonth(y, 8) + 31;
    assert DaysBeforeMonth(y, 10) == DaysBeforeMonth(y, 9) + 30;
    assert DaysBeforeMonth(y, 11) == DaysBeforeMonth(y, 10) + 31;
    assert DaysBeforeMonth(y, 12) == DaysBeforeMonth(y, 11) + 30;
  }

  /** A year has one day more than 365 exactly when it is a leap year. */
  lemma DaysBeforeNextYear(y: int)
    requires y >= 1
    ensures DaysBeforeYear(y + 1) == DaysBeforeYear(y) + (if IsLeap(y) then 366 else 365)
  {
    var p := y - 1;
    DivStep4(p);
    DivStep100(p);
    DivStep400(p);
    CenturiesDivide(y);
    assert DaysBeforeYear(y + 1) == y * 365 + y / 4 - y / 100 + y / 400;
    assert DaysBeforeYear(y) == p * 365 + p / 4 - p / 100 + p / 400;
  }

  /** A multiple of 400 is a multiple of 100, and that of 4. */
  lemma CenturiesDivide(y: int)
    ensures y % 100 == 0 ==> y % 4 == 0
    ensures y % 400 == 0 ==> y % 100 == 0
  {
    if y % 100 == 0 {
      CenturyDivides(y);
    }
    if y % 400 == 0 {
      QuadricentennialDivides(y);
    }
  }

  lemma CenturyDivides(y: int)
    requires y % 100 == 0
    ensures y % 4 == 0
  {
    var k := y / 100;
    assert y == 4 * (25 * k);
  }

  lemma QuadricentennialDivides(y: int)
    requires y % 400 == 0
    ensures y % 100 == 0
  {
    var k := y / 400;
    assert y == 100 * (4 * k);
  }

  /** Stepping past a multiple of the divisor adds one to the quotient. */
  lemma DivStep4(p: int)
    ensures (p + 1) / 4 == p / 4 + (if (p + 1) % 4 == 0 then 1 else 0)
  {
  }

  lemma DivStep100(p: int)
    ensures (p + 1) / 100 == p / 100 + (if (p + 1) % 100 == 0 then 1 else 0)
  {
  }

  lemma DivStep400(p: int)
    ensures (p + 1) / 400 == p / 400 + (if (p + 1) % 400 == 0 then 1 else 0)
  {
  }

  /** Ordinals count days: the next day has the next ordinal. */
  lemma OrdinalNextDay(d: Date)
    requires Valid(d) && d.year < 9999
    ensures Valid(NextDay(d))
    ensures Ordinal(NextDay(d)) == Ordinal(d) + 1
  {
    if d.day == DaysIn(d.year, d.month) && d.month == 12 {
      DaysBeforeDecember(d.year);
      DaysBeforeNextYear(d.year);
    }
  }

  /** Consecutive days fall on consecutive weekdays, Sunday wrapping to
      Monday. */
  lemma WeekdayNextDay(d: Date)
    requires Valid(d) && d.year < 9999
    ensures Valid(NextDay(d)) && NextDay(d).year <= d.year + 1
    ensures Weekday(NextDay(d)) == (Weekday(d) + 1) % 7
  {
    OrdinalNextDay(d);
    var o := Ordinal(d) + 6;
    var n := NextDay(d);
    assert Ordinal(n) + 6 == o + 1;
    SuccMod7(o);
  }

  /** Taking the remainder before or after a step of one agrees. */
  lemma SuccMod7(o: int)
    ensures (o + 1) % 7 == (o % 7 + 1) % 7
  {
    var q := o / 7;
    assert o == 7 * q + o % 7;
    if o % 7 == 6 {
      assert o + 1 == 7 * (q + 1);
    } else {
      assert o + 1 == 7 * q + (o % 7 + 1);
    }
  }
}

=== FILE: chart_ts.dfy ===
/** The time-series chart's data handling: conversion of the store's series,
    selection by id, the forecast preview, the name search and the keyboard
    and button rules. */
module ChartTs {
  import opened Wrappers
  import opened Text
  import opened PySlice
  import opened VisState
  import opened VisReducer
  import VisThunks

  datatype ChartPoint = ChartPoint(x: int, y: real)

  /** A chart series; `digital` is `undefined` (None) for converted series. */
  datatype ChartSeries = ChartSeries(name: Option<string>, data: seq<ChartPoint>, id: int, digital: Option<bool>)

  /** A data point on the chart: milliseconds from the point's seconds. */
  function ChartPointOf(p: DataPoint): ChartPoint {
    ChartPoint(p.timestamp * 1000, p.value)
  }

  function ChartPoints(ps: seq<DataPoint>): (cs: seq<ChartPoint>)
    ensures |cs| == |ps|
    ensures forall j :: 0 <= j < |ps| ==> cs[j] == ChartPointOf(ps[j])
  {
    seq(|ps|, j requires 0 <= j < |ps| => ChartPointOf(ps[j]))
  }

  /** The series that have data points, in order. */
  function WithPoints(ts: seq<TimeSeries>): (us: seq<TimeSeries>)
    ensures |us| <= |ts|
    ensures forall i :: 0 <= i < |us| ==> us[i].dataPoints.Some?
    ensures forall t :: t in us <==> t in ts && t.dataPoints.Some?
  {
    if ts == [] then []
    else (if ts[0].dataPoints.Some? then [ts[0]] else []) + WithPoints(ts[1..])
  }

  /** The chart data and the names list the conversion effect builds: a
      series without data points (`null`) is skipped. */
  function Convert(ts: seq<TimeSeries>): (r: (seq<ChartSeries>, seq<Option<string>>))
    ensures |r.0| == |r.1|
    ensures forall i :: 0 <= i < |r.0| ==> r.1[i] == r.0[i].name
  {
    if ts == [] then ([], [])
    else
      var rest := Convert(ts[1..]);
      if ts[0].dataPoints.Some? then
        ([ChartSeries(ts[0].name, ChartPoints(ts[0].dataPoints.value), ts[0].id, None)] + rest.0,
         [ts[0].name] + rest.1)
      else rest
  }

  /** Converting keeps exactly the series with data points, in order, with
      their name and id, and every point's time in milliseconds. */
  lemma {:induction false} ConvertKeepsSeriesWithPoints(ts: seq<TimeSeries>)
    ensures var out := Convert(ts).0; var kept := WithPoints(ts);
      && |out| == |kept|
      && forall i :: 0 <= i < |out| ==>
           out[i] == ChartSeries(kept[i].name, ChartPoints(kept[i].dataPoints.value), kept[i].id, None)
  {
    if ts != [] {
      ConvertKeepsSeriesWithPoints(ts[1..]);
      if ts[0].dataPoints.Some? {
        assert WithPoints(ts) == [ts[0]] + WithPoints(ts[1..]);
      } else {
        assert WithPoints(ts) == WithPoints(ts[1..]);
        assert Convert(ts) == Convert(ts[1..]);
      }
    }
  }

  /** Changing the selected id keeps only the series with that id. */
  function SelectById(data: seq<ChartSeries>, sel: Option<int>): (r: seq<ChartSeries>)
    ensures |r| <= |data|
    ensures forall s :: s in r <==> s in data && sel == Some(s.id)
  {
    if data == [] then []
    else (if sel == Some(data[0].id) then [data[0]] else []) + SelectById(data[1..], sel)
  }

  /** Choosing a series dispatches the selection and stores the id locally. */
  function HandleUpdateTimeSeries(sel: Option<int>): (r: (Action, Option<int>))
    ensures r.0 == UpdateSelectedTimeSeries(sel) && r.1 == sel
  {
    (UpdateSelectedTimeSeries(sel), sel)
  }

  /** Choosing series `id` narrows the chart to the series with that id;
      the store handles only the fulfilled form of the selection, so the
      dispatched action leaves it as it was. */
  lemma ChoosingSeriesNarrowsChart(data: seq<ChartSeries>, id: int, s: VisualizerState, clk: Clock)
    ensures var (a, sel) := HandleUpdateTimeSeries(Some(id));
      && Reduce(s, a, clk) == Ok(s)
      && forall x :: x in SelectById(data, sel) <==> x in data && x.id == id
  {
    UnnamedActionsKeepState(s, UpdateSelectedTimeSeries(Some(id)), clk);
  }

  /** The forecast horizons of the drop-down. */
  datatype Horizon = ThreeMonths | SixMonths | Year

  function Months(h: Horizon): (k: int)
    ensures k == 3 || k == 6 || k == 12
  {
    match h
    case ThreeMonths => 3
    case SixMonths => 6
    case Year => 12
  }

  /** An average month in milliseconds. */
  const MonthMillis: int := 2629800000

  /** The forecast request the button sends, with fixed arguments. */
  const ForecastTarget: (string, int) := ("lsn_960696", 30)

  function Shifted(p: ChartPoint, k: int): ChartPoint {
    ChartPoint(p.x + k * MonthMillis, p.y + 10.0)
  }

  /** The forecast preview: the last k points of the first series, moved k
      months ahead and 10 up, replace all series. Without a series the
      handler throws. */
  function HandleForecast(data: seq<ChartSeries>, h: Horizon): (r: Result<seq<ChartSeries>>)
    ensures r.Err? <==> data == []
    ensures r.Ok? ==> |r.value| == 1 && r.value[0].name == data[0].name && r.value[0].id == data[0].id
    ensures r.Ok? ==> var d := data[0].data; var k := Months(h);
      var m := if |d| < k then |d| else k;
      && |r.value[0].data| == m
      && forall i :: 0 <= i < m ==> r.value[0].data[i] == Shifted(d[|d| - m + i], k)
  {
    if data == [] then Err("TypeError")
    else
      var d := data[0];
      var k := Months(h);
      var tail := Slice(d.data, Some(-k), None);
      assert tail == d.data[(if |d.data| < k then 0 else |d.data| - k)..];
      Ok([ChartSeries(d.name, seq(|tail|, i requires 0 <= i < |tail| => Shifted(tail[i], k)), d.id, d.digital)])
  }

  /** The forecast button: the fixed forecast request goes out first, then
      the preview is built. With no series the request has already been
      sent when the preview throws. */
  function ForecastClick(r: VisThunks.Run, data: seq<ChartSeries>, h: Horizon, clk: Clock)
    : (out: (VisThunks.Run, Result<seq<ChartSeries>>))
  {
    (VisThunks.Forecast(r, ForecastTarget.0, ForecastTarget.1, clk), HandleForecast(data, h))
  }

  /** Every click sends the same request, whatever the chart holds and
      whether or not the preview throws, and leaves the store as it was. */
  lemma ForecastClickAlwaysRequests(r: VisThunks.Run, data: seq<ChartSeries>, h: Horizon, clk: Clock)
    requires !r.threw
    ensures var (r', preview) := ForecastClick(r, data, h, clk);
      && r'.state == r.state && !r'.threw
      && r'.effects == r.effects + [VisThunks.Sent(VisThunks.PostPredict("lsn_960696", 30)),
                                    VisThunks.Dispatched(Pending(ForecastKind, None))]
      && (preview.Err? <==> data == [])
  {
    VisThunks.ForecastStep(r, "lsn_960696", 30, clk);
  }

  /** The search: entries with a name that contains the query, ignoring
      ASCII case; entries without a name never match. */
  predicate Matches(s: ChartSeries, query: string) {
    s.name.Some? && Contains(Lower(s.name.value), Lower(query))
  }

  function Search(data: seq<ChartSeries>, query: string): (r: seq<ChartSeries>)
    ensures |r| <= |data|
    ensures forall s :: s in r <==> s in data && Matches(s, query)
  {
    if data == [] then []
    else (if Matches(data[0], query) then [data[0]] else []) + Search(data[1..], query)
  }

  /** The empty query matches every named entry. */
  lemma EmptyQueryMatchesNamed(s: ChartSeries)
    requires s.name.Some?
    ensures Matches(s, "")
  {
    assert OccursAt(Lower(s.name.value), Lower(""), 0);
  }

  /** The search does not depend on the case of the query. */
  lemma SearchIgnoresQueryCase(data: seq<ChartSeries>, q1: string, q2: string)
    requires Lower(q1) == Lower(q2)
    ensures Search(data, q1) == Search(data, q2)
  {
  }

  /** The selection the search box holds: the chosen name and id. */
  datatype Selection = Selection(result: Option<string>, id: Option<int>)

  /** Backspace (key code 8) clears both the chosen name and the id. */
  function KeyDown(sel: Selection, keyCode: int): (r: Selection)
    ensures keyCode == 8 ==> r == Selection(None, None)
    ensures keyCode != 8 ==> r == sel
  {
    if keyCode == 8 then Selection(None, None) else sel
  }

  /** APPLY is disabled exactly while no series is selected. */
  function ApplyDisabled(sel: Selection): (b: bool)
    ensures b <==> sel.id.None?
  {
    sel.id == None
  }

  /** After a backspace the forecast cannot be applied. */
  lemma BackspaceDisablesApply(sel: Selection)
    ensures ApplyDisabled(KeyDown(sel, 8))
  {
  }

  /** The chart starts with no chosen name and the store's selected series
      as its id. */
  function InitialSelection(selected: Option<int>): Selection {
    Selection(None, selected)
  }

  /** Choosing a search result holds its name and id. */
  function ResultSelect(sel: Selection, r: ChartSeries): Selection {
    Selection(r.name, Some(r.id))
  }

  /** APPLY follows the selection: a chart opened with a selected series
      starts enabled, one opened after fresh analysis results starts
      disabled (they clear the selection), choosing any search result
      enables it and a backspace disables it again. */
  lemma ApplyFollowsSelection(s: VisualizerState, resp: QueryResponse, sel: Selection,
                              data: seq<ChartSeries>, query: string, r: ChartSeries, clk: Clock)
    requires r in Search(data, query)
    ensures ApplyDisabled(InitialSelection(s.selectedTimeSeries)) <==> s.selectedTimeSeries.None?
    ensures Reduce(s, AnalysisFetched(resp), clk).Ok?
    ensures ApplyDisabled(InitialSelection(Reduce(s, AnalysisFetched(resp), clk).value.selectedTimeSeries))
    ensures !ApplyDisabled(ResultSelect(sel, r)) && ResultSelect(sel, r).id == Some(r.id)
    ensures ApplyDisabled(KeyDown(ResultSelect(sel, r), 8))
  {
    AnalysisFetchedForm(s, resp, clk);
  }
}

=== FILE: dataset_resource.dfy ===
/** The REST endpoints for datasets (`DatasetResource`): id checks on create
    and update, the id prefix used on delete, synthetic header names,
    not-found wrapping and the index-status report. The repository is a
    map from id to dataset; reading a file's first row is a parameter. */
module DatasetResource {
  import opened Wrappers
  import Text
  import VisState
  import SingleRect
  import RawData

  /** What an endpoint answers: the HTTP outcome with its body. A thrown
      bad-request alert becomes `BadRequest`; any other uncaught exception
      becomes `ServerError`. */
  datatype Response<T> =
    | Created(location: string, body: T)
    | Okay(body: T)
    | NoContent
    | NotFound
    | BadRequest(message: string, errorKey: string)
    | ServerError(exception: string)

  type Repository = map<string, RawData.Dataset>

  /** Every stored dataset carries the id it is stored under. */
  predicate WellKeyed(repo: Repository) {
    forall k :: k in repo ==> repo[k].id == Some(k)
  }

  /** Characters that `java.net.URI` accepts in no component of a URI: the
      space, the ASCII control characters, the double quote, the angle
      brackets, the backslash, the caret, the backtick and the braces and
      bar; and, beyond ASCII, U+0080 and the other ISO control characters
      up to U+009F together with the Unicode space separators (U+00A0,
      U+1680, U+2000 to U+200A, U+2028, U+2029, U+202F, U+205F, U+3000). */
  predicate UriForbidden(c: char) {
    || c <= ' ' || c == '\U{7F}' || c == '"' || c == '<' || c == '>' || c == '\\' || c == '^'
    || c == '`' || c == '{' || c == '|' || c == '}'
    || ('\U{80}' <= c <= '\U{A0}') || c == '\U{1680}' || ('\U{2000}' <= c <= '\U{200A}')
    || c == '\U{2028}' || c == '\U{2029}' || c == '\U{202F}' || c == '\U{205F}' || c == '\U{3000}'
  }

  /** A square bracket in the path part of the name, i.e. before the first
      `?` or `#`; the query and the fragment may hold brackets, the path
      may not. */
  predicate BracketInPath(name: string) {
    exists i :: 0 <= i < |name| && (name[i] == '[' || name[i] == ']') &&
      forall k :: 0 <= k < i ==> name[k] != '?' && name[k] != '#'
  }

  /** `new URI("/api/datasets/" + name)` throws for this name. */
  predicate UriRejects(name: string) {
    (exists i :: 0 <= i < |name| && UriForbidden(name[i])) || BracketInPath(name)
  }

  /** `POST /datasets`: a new dataset must not carry an id; the repository
      assigns `newId`. The Location header is built from the name after
      the save, so a name `java.net.URI` rejects is stored and still
      answers a server error. */
  function CreateDataset(repo: Repository, d: RawData.Dataset, newId: string)
    : (r: (Response<RawData.Dataset>, Repository))
    ensures r.0.BadRequest? <==> d.id.Some?
    ensures r.0.BadRequest? ==> r.0.errorKey == "idexists" && r.1 == repo
    ensures !r.0.BadRequest? ==> r.1 == repo[newId := d.(id := Some(newId))]
    ensures !r.0.BadRequest? ==> (r.0.ServerError? <==> UriRejects(d.name))
    ensures r.0.ServerError? ==> r.0.exception == "URISyntaxException"
    ensures r.0.Created? ==>
      r.0.body.id == Some(newId) && r.1[newId] == r.0.body && r.0.location == "/api/datasets/" + d.name
    ensures WellKeyed(repo) ==> WellKeyed(r.1)
  {
    if d.id.Some? then (BadRequest("A new dataset cannot already have an ID", "idexists"), repo)
    else
      var saved := d.(id := Some(newId));
      var location := "/api/datasets/" + saved.name;
      if UriRejects(saved.name) then (ServerError("URISyntaxException"), repo[newId := saved])
      else (Created(location, saved), repo[newId := saved])
  }

  /** A name with a space is saved, yet the client is answered with a
      server error. */
  lemma SpacedNameSavedButFails(repo: Repository, d: RawData.Dataset, newId: string)
    requires d.id.None? && d.name == "my data"
    ensures CreateDataset(repo, d, newId).0 == ServerError("URISyntaxException")
    ensures newId in CreateDataset(repo, d, newId).1
  {
    assert UriForbidden(d.name[2]);
  }

  /** A no-break space and a bracket in the path fail the same way; a
      bracket after a `?` is part of the query and is accepted. */
  lemma NonAsciiSpaceAndBracketsFail(repo: Repository, d: RawData.Dataset, newId: string)
    requires d.id.None?
    ensures d.name == "my\U{A0}data" ==> CreateDataset(repo, d, newId).0 == ServerError("URISyntaxException")
    ensures d.name == "x[1]" ==> CreateDataset(repo, d, newId).0 == ServerError("URISyntaxException")
    ensures d.name == "x?[1]" ==> CreateDataset(repo, d, newId).0.Created?
  {
    if d.name == "my\U{A0}data" {
      assert UriForbidden(d.name[2]);
    } else if d.name == "x[1]" {
      assert d.name[1] == '[';
      assert BracketInPath(d.name);
    } else if d.name == "x?[1]" {
      assert !BracketInPath(d.name) by {
        forall i | 0 <= i < |d.name| && (d.name[i] == '[' || d.name[i] == ']')
          ensures exists k :: 0 <= k < i && (d.name[k] == '?' || d.name[k] == '#')
        {
          assert d.name[1] == '?';
        }
      }
    }
  }

  /** `PUT /datasets`: an update must carry an id. */
  function UpdateDataset(repo: Repository, d: RawData.Dataset)
    : (r: (Response<RawData.Dataset>, Repository))
    ensures r.0.BadRequest? <==> d.id.None?
    ensures r.0.BadRequest? ==> r.0.errorKey == "idnull" && r.1 == repo
    ensures d.id.Some? ==> r.0 == Okay(d) && r.1 == repo[d.id.value := d]
    ensures WellKeyed(repo) ==> WellKeyed(r.1)
  {
    if d.id.None? then (BadRequest("Invalid id", "idnull"), repo)
    else (Okay(d), repo[d.id.value := d])
  }

  /** The two id checks are complementary: every body is rejected by
      exactly one of create and update, and whatever create stores is
      accepted by update. */
  lemma CreateAndUpdateComplementary(repo: Repository, d: RawData.Dataset, newId: string)
    ensures CreateDataset(repo, d, newId).0.BadRequest? != UpdateDataset(repo, d).0.BadRequest?
    ensures var c := CreateDataset(repo, d, newId);
      c.0.Created? ==> UpdateDataset(c.1, c.0.body).0.Okay?
  {
  }

  // ---------------------------------------------------------------------
  // Header names

  /** The synthetic name of column `i`. */
  function ColName(i: int): string {
    "col(" + Text.IntToString(i) + ")"
  }

  /** `col(0)`, …, `col(n-1)`. */
  function ColNames(n: nat): (names: seq<string>)
    ensures |names| == n
    ensures forall i :: 0 <= i < n ==> names[i] == ColName(i)
  {
    seq(n, i requires 0 <= i < n => ColName(i))
  }

  /** Different columns get different names. */
  lemma ColNamesDistinct(n: nat)
    ensures forall i, j :: 0 <= i < j < n ==> ColNames(n)[i] != ColNames(n)[j]
  {
    forall i, j | 0 <= i < j < n
      ensures ColNames(n)[i] != ColNames(n)[j]
    {
      Text.IntToStringInjective(i, j);
      assert ColName(i)[4..|ColName(i)| - 1] == Text.IntToString(i);
      assert ColName(j)[4..|ColName(j)| - 1] == Text.IntToString(j);
    }
  }

  /** `fillHeader` as written. With a header row the parsed header names
      are stored (`null` when the parser has none). Without one, the loop
      runs `i` from 0 up to and including the number of parsed columns,
      and reading that number from a `null` header array throws. */
  function FillHeaderAsWritten(d: RawData.Dataset, parsed: Option<seq<string>>)
    : (r: Result<RawData.Dataset>)
    ensures r.Err? <==> !d.hasHeader && parsed.None?
    ensures r.Ok? ==> r.value == d.(headers := r.value.headers)
    ensures d.hasHeader ==> r == Ok(d.(headers := parsed))
    ensures !d.hasHeader && parsed.Some? ==>
      (r.Ok? && r.value.headers.Some? && |r.value.headers.value| == |parsed.value| + 1)
  {
    if d.hasHeader then Ok(d.(headers := parsed))
    else if parsed.None? then Err("NullPointerException")
    else Ok(d.(headers := Some(ColNames(|parsed.value| + 1))))
  }

  /** Without a header row, one name too many: the last name, `col(n)`,
      names no column. */
  lemma FillHeaderAsWrittenNamesOneTooMany(d: RawData.Dataset, parsed: seq<string>)
    requires !d.hasHeader
    ensures var r := FillHeaderAsWritten(d, Some(parsed));
      r.Ok? && r.value.headers.Some? &&
      |r.value.headers.value| == |parsed| + 1 &&
      r.value.headers.value[|parsed|] == ColName(|parsed|)
  {
  }

  /** `fillHeader` with one synthetic name per parsed column. */
  function FillHeader(d: RawData.Dataset, parsed: Option<seq<string>>)
    : (r: Result<RawData.Dataset>)
    ensures r.Err? <==> !d.hasHeader && parsed.None?
    ensures r.Ok? ==> r.value == d.(headers := r.value.headers)
    ensures d.hasHeader ==> r == Ok(d.(headers := parsed))
    ensures !d.hasHeader && parsed.Some? ==>
      (r.Ok? && r.value.headers.Some? && |r.value.headers.value| == |parsed.value| &&
       forall i :: 0 <= i < |parsed.value| ==> r.value.headers.value[i] == ColName(i))
  {
    if d.hasHeader then Ok(d.(headers := parsed))
    else if parsed.None? then Err("NullPointerException")
    else Ok(d.(headers := Some(ColNames(|parsed.value|))))
  }

  /** The corrected names are the as-written names without the extra last one. */
  lemma FillHeaderDropsExtraName(d: RawData.Dataset, parsed: seq<string>)
    requires !d.hasHeader
    ensures FillHeader(d, Some(parsed)).value.headers.value ==
            FillHeaderAsWritten(d, Some(parsed)).value.headers.value[..|parsed|]
  {
  }

  /** The endpoints catch and log a failure of `fillHeader` and go on with
      the dataset as it was. */
  function Filled(d: RawData.Dataset, parsed: Option<seq<string>>): (e: RawData.Dataset)
    ensures e.id == d.id && e == d.(headers := e.headers)
    ensures FillHeader(d, parsed).Err? ==> e == d
  {
    var r := FillHeader(d, parsed);
    if r.Ok? then r.value else d
  }

  /** `GET /datasets`: every dataset, in repository order, with its headers
      filled from the first row of its file. */
  function GetAllDatasets(ds: seq<RawData.Dataset>,
                          firstRow: RawData.Dataset -> Option<seq<string>>)
    : (r: seq<RawData.Dataset>)
    ensures |r| == |ds|
    ensures forall i :: 0 <= i < |ds| ==> r[i] == Filled(ds[i], firstRow(ds[i]))
  {
    seq(|ds|, i requires 0 <= i < |ds| => Filled(ds[i], firstRow(ds[i])))
  }

  /** `GET /datasets/{id}`: not found, or the dataset with its headers filled. */
  function GetDataset(repo: Repository, id: string,
                      firstRow: RawData.Dataset -> Option<seq<string>>)
    : (r: Response<RawData.Dataset>)
    ensures r.NotFound? <==> id !in repo
    ensures id in repo ==> r == Okay(Filled(repo[id], firstRow(repo[id])))
  {
    if id in repo then Okay(Filled(repo[id], firstRow(repo[id]))) else NotFound
  }

  // ---------------------------------------------------------------------
  // Delete

  /** Java's `indexOf`: the first position of `c`, or -1. */
  function IndexOf(s: string, c: char): (k: int)
    ensures -1 <= k < |s|
    ensures k == -1 <==> c !in s
    ensures k >= 0 ==> s[k] == c && c !in s[..k]
    decreases |s|
  {
    if |s| == 0 then -1
    else if s[0] == c then 0
    else
      var k := IndexOf(s[1..], c);
      if k == -1 then -1
      else
        assert s[..k + 1] == [s[0]] + s[1..][..k];
        k + 1
  }

  /** `DELETE /datasets/{id}`: destroys the index of the dataset stored
      under the part of `id` before its first '.', then deletes the entry
      stored under the full `id`. Without a '.' the prefix cannot be cut
      and nothing happens. */
  function DeleteDataset(repo: Repository, reg: RawData.Registry, id: string)
    : (r: (Response<()>, Repository, RawData.Registry))
    ensures r.0.ServerError? <==> '.' !in id
    ensures r.0.ServerError? ==> r.1 == repo && r.2 == reg
    ensures r.0.NoContent? ==> r.1 == repo - {id} && r.2.Keys == reg.Keys
    ensures r.0.ServerError? || r.0.NoContent?
  {
    var k := IndexOf(id, '.');
    if k < 0 then (ServerError("StringIndexOutOfBoundsException"), repo, reg)
    else
      var prefix := id[..k];
      var reg' := if prefix in repo then RawData.DestroyIndex(reg, repo[prefix]) else reg;
      (NoContent, repo - {id}, reg')
  }

  /** The index destroyed belongs to the prefix, which never equals the
      full id: the deleted dataset's own index entry, if any, is left as it
      was, and the prefix's dataset stays in the repository. */
  lemma DeleteLeavesOwnIndex(repo: Repository, reg: RawData.Registry, id: string)
    requires WellKeyed(repo) && '.' in id
    ensures var r := DeleteDataset(repo, reg, id);
      Some(id) in reg ==> r.2[Some(id)] == reg[Some(id)]
    ensures var prefix := id[..IndexOf(id, '.')];
      prefix in repo ==> prefix in DeleteDataset(repo, reg, id).1
  {
    var k := IndexOf(id, '.');
    var prefix := id[..k];
    assert prefix != id by { assert '.' !in prefix; }
  }

  // ---------------------------------------------------------------------
  // Queries and status

  /** `POST /datasets/{id}/query`: not found when the dataset is absent,
      otherwise the service's answer; a failing engine is a server error. */
  function ExecuteQuery(repo: Repository, reg: RawData.Registry, id: string,
                        q: RawData.VisQuery, engine: RawData.Index -> Result<RawData.QueryResults>,
                        sqrt: real -> real)
    : (r: (Response<RawData.VisResults>, RawData.Registry))
    ensures id !in repo ==> r == (NotFound, reg)
    ensures id in repo ==> (!r.0.NotFound? && r.1 == RawData.GetIndex(reg, repo[id]).1)
    ensures id in repo && engine(RawData.GetIndex(reg, repo[id]).0).Err? ==>
              r.0 == ServerError("RuntimeException")
    ensures r.0.Okay? ==> r.0.body.pointCount == |r.0.body.points|
  {
    if id !in repo then (NotFound, reg)
    else
      var (res, reg') := RawData.ExecuteQuery(reg, repo[id], q, engine, sqrt);
      (if res.Ok? then Okay(res.value) else ServerError(res.error), reg')
  }

  /** `GET /datasets/{datasetId}/objects/{objectId}`: an absent dataset and
      a null row are both not found; an engine I/O failure escapes as a
      server error. */
  function GetObject(repo: Repository, reg: RawData.Registry, id: string, objectId: int,
                     read: (RawData.Index, int) -> Result<Option<seq<string>>>)
    : (r: (Response<seq<string>>, RawData.Registry))
    ensures id !in repo ==> r == (NotFound, reg)
    ensures id in repo ==> r.1 == RawData.GetIndex(reg, repo[id]).1
    ensures id in repo ==> var row := read(RawData.GetIndex(reg, repo[id]).0, objectId);
      && (row.Err? <==> r.0 == ServerError("RuntimeException"))
      && (row == Ok(None) <==> r.0.NotFound?)
      && (forall cells :: row == Ok(Some(cells)) <==> r.0 == Okay(cells))
  {
    if id !in repo then (NotFound, reg)
    else
      var (row, reg') := RawData.GetObject(reg, repo[id], objectId, read);
      match row
      case Err(e) => (ServerError(e), reg')
      case Ok(None) => (NotFound, reg')
      case Ok(Some(cells)) => (Okay(cells), reg')
  }

  /** `POST /datasets/{id}/reset-index`: forgets the index of a stored dataset. */
  function ResetIndex(repo: Repository, reg: RawData.Registry, id: string)
    : (r: RawData.Registry)
    ensures id !in repo ==> r == reg
    ensures id in repo ==> r == RawData.RemoveIndex(reg, repo[id])
  {
    if id in repo then RawData.RemoveIndex(reg, repo[id]) else reg
  }

  /** `GET /datasets/{id}/status`: the service's two answers, unchanged. */
  function GetIndexStatus(reg: RawData.Registry, id: string): (st: VisState.IndexStatus)
    ensures st.isInitialized == RawData.IsIndexInitialized(reg, id)
    ensures st.objectsIndexed == RawData.GetObjectsIndexed(reg, id)
  {
    VisState.IndexStatus(RawData.IsIndexInitialized(reg, id), RawData.GetObjectsIndexed(reg, id))
  }

  /** After a reset the status endpoint reports exactly the status the
      client store starts from, and an unknown dataset reports it too. */
  lemma ResetReportsDefaultStatus(repo: Repository, reg: RawData.Registry, id: string)
    requires WellKeyed(repo)
    ensures id in repo ==> GetIndexStatus(ResetIndex(repo, reg, id), id) == VisState.DefaultIndexStatus
    ensures Some(id) !in reg ==> GetIndexStatus(reg, id) == VisState.DefaultIndexStatus
  {
  }

  /** A query makes the dataset's index known to the status endpoint; until
      the engine reports progress it shows nothing indexed. */
  lemma QueryRegistersIndex(repo: Repository, reg: RawData.Registry, id: string,
                            q: RawData.VisQuery, engine: RawData.Index -> Result<RawData.QueryResults>,
                            sqrt: real -> real)
    requires WellKeyed(repo) && id in repo && Some(id) !in reg
    ensures GetIndexStatus(ExecuteQuery(repo, reg, id, q, engine, sqrt).1, id) ==
            VisState.DefaultIndexStatus
    ensures Some(id) in ExecuteQuery(repo, reg, id, q, engine, sqrt).1
  {
  }
}

=== FILE: flask_features.dfy ===
/** The data preparation of the prediction service (`flask_api_xgb.py`):
    `fixData` cleans an uploaded meter export, `create_features` derives the
    calendar flags the model is fed with. Parsing the CSV and the dates is
    left out: rows arrive with their dates already parsed. */
module FlaskFeatures {
  import opened Wrappers
  import Calendar
  import LoadDataset

  // ---------------------------------------------------------------------
  // fixData

  /** One row of the meter export. */
  datatype RawRow = RawRow(
    date: Calendar.Date,
    valid: bool,
    netVolume: real,
    consumption: Option<real>,
    flags: Flags)

  datatype Flags = Flags(isCovid: bool, isHoliday: bool, isChristmas: bool, isWeekday: bool, isSummer: bool)

  /** A cleaned row: the date, the daily consumption as `Value`, the flags. */
  datatype Row = Row(date: Calendar.Date, value: real, flags: Flags)

  /** `df[df['Valid'] == True]`. */
  function ValidRows(rows: seq<RawRow>): (r: seq<RawRow>)
    ensures forall i :: 0 <= i < |r| ==> r[i].valid && r[i] in rows
    ensures forall x :: x in rows && x.valid ==> x in r
    ensures |r| <= |rows|
    decreases |rows|
  {
    if |rows| == 0 then []
    else (if rows[0].valid then [rows[0]] else []) + ValidRows(rows[1..])
  }

  /** `Vol`: the first row keeps its net volume (the `fillna` of the missing
      first difference), every later row the difference to its predecessor. */
  function Vols(net: seq<real>): (v: seq<real>)
    ensures |v| == |net|
  {
    seq(|net|, i requires 0 <= i < |net| => if i == 0 then net[0] else net[i] - net[i - 1])
  }

  function Total(xs: seq<real>): real
    decreases |xs|
  {
    if |xs| == 0 then 0.0 else Total(xs[..|xs| - 1]) + xs[|xs| - 1]
  }

  /** The volumes telescope: the first `i + 1` of them add up to the net
      volume of row `i`. */
  lemma {:induction false} VolsTelescope(net: seq<real>, i: int)
    requires 0 <= i < |net|
    ensures Total(Vols(net)[..i + 1]) == net[i]
  {
    if i > 0 {
      VolsTelescope(net, i - 1);
      assert Vols(net)[..i + 1][..i] == Vols(net)[..i];
    }
  }

  /** Position of the last non-zero volume, if any. */
  function LastNonZero(v: seq<real>): (r: Option<nat>)
    ensures r.None? <==> forall i :: 0 <= i < |v| ==> v[i] == 0.0
    ensures r.Some? ==> (
      r.value < |v| && v[r.value] != 0.0 &&
      forall i :: r.value < i < |v| ==> v[i] == 0.0)
    decreases |v|
  {
    if |v| == 0 then None
    else if v[|v| - 1] != 0.0 then Some(|v| - 1)
    else LastNonZero(v[..|v| - 1])
  }

  /** Drops the rows after the last non-zero volume; when every volume is
      zero nothing is dropped. */
  function TrimTrailingZeros<T>(rows: seq<T>, v: seq<real>): (r: seq<T>)
    requires |v| == |rows|
    ensures r <= rows
    ensures (forall i :: 0 <= i < |v| ==> v[i] == 0.0) ==> r == rows
    ensures (exists i :: 0 <= i < |v| && v[i] != 0.0) ==> (
      |r| > 0 && v[|r| - 1] != 0.0 && forall i :: |r| <= i < |v| ==> v[i] == 0.0)
  {
    match LastNonZero(v)
    case None => rows
    case Some(k) => rows[..k + 1]
  }

  /** Keeps the rows with a consumption value, as `Value`. */
  function WithConsumption(rows: seq<RawRow>): (r: seq<Row>)
    ensures |r| <= |rows|
    ensures forall i :: 0 <= i < |r| ==> exists j :: (
      0 <= j < |rows| &&
      rows[j].consumption == Some(r[i].value) && rows[j].date == r[i].date && rows[j].flags == r[i].flags)
    ensures forall j :: 0 <= j < |rows| && rows[j].consumption.Some? ==>
      Row(rows[j].date, rows[j].consumption.value, rows[j].flags) in r
    decreases |rows|
  {
    if |rows| == 0 then []
    else
      var rest := WithConsumption(rows[1..]);
      assert forall j :: 1 <= j < |rows| ==> rows[j] == rows[1..][j - 1];
      if rows[0].consumption.Some? then [Row(rows[0].date, rows[0].consumption.value, rows[0].flags)] + rest
      else rest
  }

  /** The net volume of every row. */
  function NetVolumes(rows: seq<RawRow>): (n: seq<real>)
    ensures |n| == |rows| && forall i :: 0 <= i < |rows| ==> n[i] == rows[i].netVolume
  {
    seq(|rows|, i requires 0 <= i < |rows| => rows[i].netVolume)
  }

  /** The valid rows that survive dropping the first two and trimming the
      trailing rows without a volume change. */
  function Kept(valid: seq<RawRow>): (r: seq<RawRow>)
    ensures |r| + 2 <= |valid| || |r| == 0
    ensures forall x :: x in r ==> x in valid
  {
    if |valid| <= 2 then []
    else
      var r := TrimTrailingZeros(valid[2..], Vols(NetVolumes(valid))[2..]);
      assert forall x :: x in r ==> x in valid[2..];
      r
  }

  /** `fixData`: valid rows only; volumes computed over them; the first two
      rows dropped; the trailing rows without a volume change trimmed; rows
      without a consumption value dropped. */
  function FixData(rows: seq<RawRow>): (r: seq<Row>)
    ensures forall i :: 0 <= i < |r| ==> exists x :: (
      x in rows && x.valid &&
      x.consumption == Some(r[i].value) && x.date == r[i].date)
    ensures |r| + 2 <= |ValidRows(rows)| || |r| == 0
  {
    WithConsumption(Kept(ValidRows(rows)))
  }

  /** A non-zero volume followed only by zeros is the last non-zero one. */
  lemma LastNonZeroAt(v: seq<real>, k: int)
    requires 0 <= k < |v| && v[k] != 0.0 && forall i :: k < i < |v| ==> v[i] == 0.0
    ensures LastNonZero(v) == Some(k)
  {
  }

  /** After the first two, the valid row with the last change of the net
      volume is kept, and no row after it. */
  lemma KeptEndsAtLastChange(valid: seq<RawRow>, k: int)
    requires 2 <= k < |valid| && valid[k].netVolume != valid[k - 1].netVolume
    requires forall i :: k < i < |valid| ==> valid[i].netVolume == valid[i - 1].netVolume
    ensures Kept(valid) == valid[2..k + 1]
  {
    var v := Vols(NetVolumes(valid));
    var vt := v[2..];
    forall i | k - 2 < i < |vt|
      ensures vt[i] == 0.0
    {
      assert vt[i] == v[i + 2];
    }
    LastNonZeroAt(vt, k - 2);
  }

  /** The row of the last change of the net volume survives the trim, when
      it has a consumption value. */
  lemma TrimKeepsLastChange(rows: seq<RawRow>, k: int)
    requires var valid := ValidRows(rows);
      2 <= k < |valid| && valid[k].netVolume != valid[k - 1].netVolume &&
      valid[k].consumption.Some? &&
      forall i :: k < i < |valid| ==> valid[i].netVolume == valid[i - 1].netVolume
    ensures var valid := ValidRows(rows);
      Row(valid[k].date, valid[k].consumption.value, valid[k].flags) in FixData(rows)
  {
    var valid := ValidRows(rows);
    KeptEndsAtLastChange(valid, k);
    assert Kept(valid)[k - 2] == valid[k];
  }

  // ---------------------------------------------------------------------
  // create_features

  function Digit(d: int): char
    requires 0 <= d < 10
  {
    "0123456789"[d]
  }

  lemma DigitInjective(a: int, b: int)
    requires 0 <= a < 10 && 0 <= b < 10 && Digit(a) == Digit(b)
    ensures a == b
  {
  }

  /** `strftime('%Y-%m')` of a date whose year has four digits. */
  function YearMonth(y: int, m: int): (s: string)
    requires 0 <= y <= 9999 && 1 <= m <= 12
    ensures |s| == 7
  {
    [Digit(y / 10 / 10 / 10), Digit(y / 10 / 10 % 10), Digit(y / 10 % 10), Digit(y % 10), '-',
     Digit(m / 10), Digit(m % 10)]
  }

  /** Different months of different years print differently. */
  lemma YearMonthInjective(y1: int, m1: int, y2: int, m2: int)
    requires 0 <= y1 <= 9999 && 1 <= m1 <= 12 && 0 <= y2 <= 9999 && 1 <= m2 <= 12
    requires YearMonth(y1, m1) == YearMonth(y2, m2)
    ensures y1 == y2 && m1 == m2
  {
    var s1, s2 := YearMonth(y1, m1), YearMonth(y2, m2);
    assert s1[0] == s2[0] && s1[1] == s2[1] && s1[2] == s2[2] && s1[3] == s2[3];
    assert s1[5] == s2[5] && s1[6] == s2[6];
    DigitInjective(y1 / 10 / 10 / 10, y2 / 10 / 10 / 10);
    DigitInjective(y1 / 10 / 10 % 10, y2 / 10 / 10 % 10);
    DigitInjective(y1 / 10 % 10, y2 / 10 % 10);
    DigitInjective(y1 % 10, y2 % 10);
    DigitInjective(m1 / 10, m2 / 10);
    DigitInjective(m1 % 10, m2 % 10);
    assert y1 / 10 / 10 == y2 / 10 / 10;
    assert y1 / 10 == y2 / 10;
  }

  /** The months the service treats as lockdown months. */
  const CovidMonths: seq<string> :=
    ["2020-03", "2020-04", "2020-05", "2020-11", "2020-12", "2021-02", "2021-03", "2021-04"]

  predicate IsCovid(d: Calendar.Date)
    requires Calendar.Valid(d)
  {
    YearMonth(d.year, d.month) in CovidMonths
  }

  /** The year and month of every lockdown month, in the order above. */
  const CovidPairs: seq<(int, int)> :=
    [(2020, 3), (2020, 4), (2020, 5), (2020, 11), (2020, 12), (2021, 2), (2021, 3), (2021, 4)]

  lemma CovidMonthsPrinted()
    ensures forall i :: 0 <= i < 8 ==> CovidMonths[i] == YearMonth(CovidPairs[i].0, CovidPairs[i].1)
  {
    assert YearMonth(2020, 3) == CovidMonths[0];
    assert YearMonth(2020, 4) == CovidMonths[1];
    assert YearMonth(2020, 5) == CovidMonths[2];
    assert YearMonth(2020, 11) == CovidMonths[3];
    assert YearMonth(2020, 12) == CovidMonths[4];
    assert YearMonth(2021, 2) == CovidMonths[5];
    assert YearMonth(2021, 3) == CovidMonths[6];
    assert YearMonth(2021, 4) == CovidMonths[7];
  }

  /** Only the listed months are flagged. */
  lemma CovidOnlyListed(d: Calendar.Date)
    requires Calendar.Valid(d) && IsCovid(d)
    ensures (d.year, d.month) in CovidPairs
  {
    CovidMonthsPrinted();
    var i :| 0 <= i < 8 && CovidMonths[i] == YearMonth(d.year, d.month);
    PrintedPairAt(d.year, d.month, i);
  }

  /** A printed month that matches the `k`-th entry is the `k`-th pair. */
  lemma PrintedPairAt(y: int, m: int, k: int)
    requires 0 <= y <= 9999 && 1 <= m <= 12 && 0 <= k < 8
    requires YearMonth(y, m) == YearMonth(CovidPairs[k].0, CovidPairs[k].1)
    ensures CovidPairs[k] == (y, m)
  {
    var (y2, m2) := CovidPairs[k];
    YearMonthInjective(y, m, y2, m2);
  }

  /** Every listed month is flagged. */
  lemma ListedAreCovid(d: Calendar.Date)
    requires Calendar.Valid(d) && (d.year, d.month) in CovidPairs
    ensures IsCovid(d)
  {
    CovidMonthsPrinted();
    var i :| 0 <= i < 8 && CovidPairs[i] == (d.year, d.month);
    assert CovidMonths[i] == YearMonth(d.year, d.month);
  }

  /** The lockdown flag holds exactly for March to May, November and
      December 2020, and February to April 2021. */
  lemma IsCovidMonths(d: Calendar.Date)
    requires Calendar.Valid(d)
    ensures IsCovid(d) <==> (
      (d.year == 2020 && d.month in {3, 4, 5, 11, 12}) ||
      (d.year == 2021 && d.month in {2, 3, 4}))
  {
    if IsCovid(d) {
      CovidOnlyListed(d);
    }
    if (d.year, d.month) in CovidPairs {
      ListedAreCovid(d);
    }
  }

  /** The Christmas flag as written: `(day >= 24) | (day <= 31)` holds on
      every day of December. */
  predicate IsChristmasAsWritten(d: Calendar.Date) {
    (d.month == 12 && (d.day >= 24 || d.day <= 31)) || (d.month == 1 && d.day >= 1 && d.day <= 7)
  }

  /** The Christmas flag with the December bound applied: 24 December to
      7 January. */
  predicate IsChristmas(d: Calendar.Date) {
    (d.month == 12 && d.day >= 24 && d.day <= 31) || (d.month == 1 && d.day >= 1 && d.day <= 7)
  }

  lemma ChristmasAsWrittenCoversDecember(d: Calendar.Date)
    requires Calendar.Valid(d) && d.month == 12
    ensures IsChristmasAsWritten(d)
    ensures d.day < 24 ==> !IsChristmas(d)
  {
  }

  /** The corrected flag covers fifteen days around the turn of the year:
      it holds on a valid date exactly when the date is one of them. */
  lemma ChristmasPeriod(d: Calendar.Date)
    requires Calendar.Valid(d)
    ensures IsChristmas(d) <==> (d.month == 12 && 24 <= d.day) || (d.month == 1 && d.day <= 7)
  {
  }

  /** Monday to Friday. */
  predicate IsWeekday(d: Calendar.Date)
    requires Calendar.Valid(d)
  {
    Calendar.Weekday(d) < 5
  }

  /** The weekday numbering agrees with the calendar: 2 March 2020 was a
      Monday. */
  lemma WeekdayAnchor()
    ensures Calendar.Valid(Calendar.Date(2020, 3, 2))
    ensures Calendar.Weekday(Calendar.Date(2020, 3, 2)) == 0
  {
    var d := Calendar.Date(2020, 3, 2);
    assert Calendar.DaysBeforeYear(2020) == 737424;
    assert Calendar.DaysBeforeMonth(2020, 3) == 60;
  }

  /** A Friday is followed by a weekend and then a weekday again. */
  lemma WeekendAfterFriday(d: Calendar.Date)
    requires Calendar.Valid(d) && d.year < 9998 && Calendar.Weekday(d) == 4
    ensures var sat := Calendar.NextDay(d);
      Calendar.Valid(sat) && !IsWeekday(sat) &&
      var sun := Calendar.NextDay(sat);
      Calendar.Valid(sun) && !IsWeekday(sun) &&
      var mon := Calendar.NextDay(sun);
      Calendar.Valid(mon) && IsWeekday(mon)
  {
    var sat := Calendar.NextDay(d);
    Calendar.WeekdayNextDay(d);
    assert Calendar.Weekday(sat) == 5;
    var sun := Calendar.NextDay(sat);
    Calendar.WeekdayNextDay(sat);
    assert Calendar.Weekday(sun) == 6;
    var mon := Calendar.NextDay(sun);
    Calendar.WeekdayNextDay(sun);
    assert Calendar.Weekday(mon) == 0;
  }

  /** 16 June to 10 September. */
  predicate IsSummer(d: Calendar.Date) {
    (d.month == 6 && d.day >= 16) || (d.month > 6 && d.month < 9) || (d.month == 9 && d.day <= 10)
  }

  /** Month and day compared in calendar order. */
  predicate NotBefore(m1: int, d1: int, m2: int, d2: int) {
    m1 > m2 || (m1 == m2 && d1 >= d2)
  }

  /** The summer flag is the calendar interval from 16 June to 10 September,
      both ends included. */
  lemma SummerIsInterval(d: Calendar.Date)
    requires Calendar.Valid(d)
    ensures IsSummer(d) <==> NotBefore(d.month, d.day, 6, 16) && NotBefore(9, 10, d.month, d.day)
  {
  }

  /** `create_features`: consumption clipped at zero (the same column clip
      the training loader applies) and the five flags recomputed from the
      date. The public holidays come from a calendar library and are an
      input. `asWritten` selects the Christmas flag of the code as written. */
  function CreateFeatures(rows: seq<Row>, holidays: set<Calendar.Date>, asWritten: bool): (r: seq<Row>)
    requires forall i :: 0 <= i < |rows| ==> Calendar.Valid(rows[i].date)
    ensures |r| == |rows|
    ensures forall i :: 0 <= i < |r| ==> (
      r[i].date == rows[i].date && r[i].value >= 0.0 &&
      (rows[i].value >= 0.0 ==> r[i].value == rows[i].value) &&
      (rows[i].value < 0.0 ==> r[i].value == 0.0) &&
      (r[i].flags.isHoliday <==> rows[i].date in holidays) &&
      (r[i].flags.isWeekday <==> IsWeekday(rows[i].date)) &&
      (r[i].flags.isSummer <==> IsSummer(rows[i].date)) &&
      (r[i].flags.isCovid <==> IsCovid(rows[i].date)) &&
      (asWritten ==> (r[i].flags.isChristmas <==> IsChristmasAsWritten(rows[i].date))) &&
      (!asWritten ==> (r[i].flags.isChristmas <==> IsChristmas(rows[i].date))))
  {
    var values := LoadDataset.ClipLower(seq(|rows|, i requires 0 <= i < |rows| => rows[i].value));
    seq(|rows|, i requires 0 <= i < |rows| =>
      var d := rows[i].date;
      Row(d, values[i],
        Flags(IsCovid(d), d in holidays,
          if asWritten then IsChristmasAsWritten(d) else IsChristmas(d),
          IsWeekday(d), IsSummer(d))))
  }

  /** Every December row is flagged as Christmas by the code as written,
      while the corrected flag leaves out 1 to 23 December. */
  lemma FeaturesAsWrittenFlagEarlyDecember(rows: seq<Row>, holidays: set<Calendar.Date>, i: int)
    requires forall j :: 0 <= j < |rows| ==> Calendar.Valid(rows[j].date)
    requires 0 <= i < |rows| && rows[i].date.month == 12 && rows[i].date.day < 24
    ensures CreateFeatures(rows, holidays, true)[i].flags.isChristmas
    ensures !CreateFeatures(rows, holidays, false)[i].flags.isChristmas
  {
  }
}

=== FILE: load_dataset.dfy ===
/** Preparation of the training data for the consumption forecaster
    (`load_dataset.py`): the month shift used to join daily rows with the
    previous month's total, the sliding windows over each series with
    their gap filter, the per-series train/validation/test split, and the
    clipping of daily values. Data frames are sequences of rows; a row's
    position is its frame index. */
module LoadDataset {
  import opened Wrappers
  import Calendar
  import PySlice

  // ---------------------------------------------------------------------
  // Month shift

  /** `replace_month`: the same day one month earlier. January goes to
      December of the previous year. Python refuses a day the target month
      does not have and a year before 1. */
  function ReplaceMonth(d: Calendar.Date): (r: Result<Calendar.Date>)
    requires Calendar.Valid(d)
    ensures d.month == 1 ==> (r.Ok? <==> d.year > 1)
    ensures d.month == 1 && r.Ok? ==> r.value == Calendar.Date(d.year - 1, 12, d.day)
    ensures d.month != 1 ==> (r.Ok? <==> d.day <= Calendar.DaysIn(d.year, d.month - 1))
    ensures d.month != 1 && r.Ok? ==> r.value == Calendar.Date(d.year, d.month - 1, d.day)
    ensures r.Ok? ==> Calendar.Valid(r.value)
  {
    if d.month == 1 then
      var x := d.(month := 12);
      if x.year - 1 < 1 then Err("ValueError") else Ok(x.(year := x.year - 1))
    else if d.day > Calendar.DaysIn(d.year, d.month - 1) then Err("ValueError")
    else Ok(d.(month := d.month - 1))
  }

  /** The same day one month later, without validity checks. */
  function NextMonth(d: Calendar.Date): Calendar.Date {
    if d.month == 12 then Calendar.Date(d.year + 1, 1, d.day)
    else Calendar.Date(d.year, d.month + 1, d.day)
  }

  /** Moving a month forward undoes the shift, and a first-of-month date
      (the only kind the monthly join parses) always shifts, except in
      January of year 1. */
  lemma ReplaceMonthInverse(d: Calendar.Date)
    requires Calendar.Valid(d)
    ensures ReplaceMonth(d).Ok? ==> NextMonth(ReplaceMonth(d).value) == d
    ensures d.day == 1 && (d.month != 1 || d.year > 1) ==> ReplaceMonth(d).Ok?
  {
  }

  // ---------------------------------------------------------------------
  // Train / validation / test split

  /** `math.ceil`. */
  function Ceil(x: real): (c: int)
    ensures c as real >= x && (c - 1) as real < x
  {
    var f := x.Floor;
    if f as real == x then f else f + 1
  }

  /** `math.ceil(ptg * n)`: the number of items a percentage selects. */
  function Samples(ptg: real, n: nat): int {
    Ceil(ptg * n as real)
  }

  datatype Parts<T> = Parts(train: seq<T>, validation: seq<T>, test: seq<T>)

  /** The split of a series with `t` test and `v` validation items, taken
      with Python's negative-index slicing: `s[-t:]`, `s[-v-t:-t]` and
      `s[:-v-t]`. */
  function SplitCounts<T>(s: seq<T>, v: int, t: int): (p: Parts<T>)
    ensures |p.train| + |p.validation| <= |s| && |p.test| <= |s|
  {
    var test := PySlice.Slice(s, Some(-t), None);
    var validation := PySlice.Slice(s, Some(-v - t), Some(-t));
    var train := PySlice.Slice(s, None, Some(-v - t));
    assert |train| + |validation| <= |s| by {
      var b := PySlice.Resolve(-v - t, |s|);
      assert |train| == b;
      assert |validation| <= |s| - b;
    }
    Parts(train, validation, test)
  }

  /** The part sizes depend only on the length of the series. */
  lemma SplitCountsLengths<T, U>(s: seq<T>, u: seq<U>, v: int, t: int)
    requires |s| == |u|
    ensures |SplitCounts(s, v, t).train| == |SplitCounts(u, v, t).train|
    ensures |SplitCounts(s, v, t).validation| == |SplitCounts(u, v, t).validation|
    ensures |SplitCounts(s, v, t).test| == |SplitCounts(u, v, t).test|
  {
  }

  /** With at least one test item and room for both held-out parts, the
      three parts are consecutive pieces that give back the series. */
  lemma SplitPartitions<T>(s: seq<T>, v: int, t: int)
    requires t >= 1 && v >= 0 && v + t <= |s|
    ensures var p := SplitCounts(s, v, t);
      p.train + p.validation + p.test == s && |p.test| == t && |p.validation| == v
  {
    var n := |s|;
    var p := SplitCounts(s, v, t);
    assert PySlice.Resolve(-t, n) == n - t;
    assert PySlice.Resolve(-v - t, n) == n - v - t;
    assert p.test == s[n - t..];
    assert p.validation == s[n - v - t..n - t];
    assert p.train == s[..n - v - t];
    assert s == s[..n - v - t] + s[n - v - t..n - t] + s[n - t..];
  }

  /** With no test items `[-0:]` is the whole series, so every item is
      also a test item, and the validation part is empty. */
  lemma SplitWithoutTestItems<T>(s: seq<T>, v: int)
    ensures SplitCounts(s, v, 0).test == s
    ensures SplitCounts(s, v, 0).validation == []
  {
  }

  datatype Splits<D, T> = Splits(
    trainData: seq<D>, trainTargets: seq<T>,
    testData: seq<D>, testTargets: seq<T>,
    validationData: seq<D>, validationTargets: seq<T>)

  /** Part by part concatenation. */
  function Append<D, T>(a: Splits<D, T>, b: Splits<D, T>): Splits<D, T> {
    Splits(a.trainData + b.trainData, a.trainTargets + b.trainTargets,
           a.testData + b.testData, a.testTargets + b.testTargets,
           a.validationData + b.validationData, a.validationTargets + b.validationTargets)
  }

  /** One series and its targets, both split with the counts computed from
      the number of data items. */
  function SplitOne<D, T>(d: seq<D>, ts: seq<T>, valPtg: real, testPtg: real): (r: Splits<D, T>)
    ensures |d| == |ts| ==>
      |r.trainData| == |r.trainTargets| && |r.validationData| == |r.validationTargets| &&
      |r.testData| == |r.testTargets|
  {
    var v := Samples(valPtg, |d|);
    var t := Samples(testPtg, |d|);
    var p := SplitCounts(d, v, t);
    var q := SplitCounts(ts, v, t);
    assert |d| == |ts| ==>
      |p.train| == |q.train| && |p.validation| == |q.validation| && |p.test| == |q.test| by {
      if |d| == |ts| { SplitCountsLengths(d, ts, v, t); }
    }
    Splits(p.train, q.train, p.test, q.test, p.validation, q.validation)
  }

  /** `create_validation_test`: every series (paired with its targets, as
      `zip` pairs them, so extra series on either side are ignored) is
      split, and the parts are concatenated across series in input order. */
  function CreateValidationTest<D, T>(data: seq<seq<D>>, targets: seq<seq<T>>,
                                      valPtg: real, testPtg: real): (r: Splits<D, T>)
    decreases |data|
  {
    if |data| == 0 || |targets| == 0 then Splits([], [], [], [], [], [])
    else Append(SplitOne(data[0], targets[0], valPtg, testPtg),
                CreateValidationTest(data[1..], targets[1..], valPtg, testPtg))
  }

  /** When every series has as many targets as windows, each part keeps
      windows and targets aligned: equal lengths, and the targets of a part
      are exactly that part of the target lists. */
  lemma {:induction false} SplitKeepsTargetsAligned<D, T>(data: seq<seq<D>>, targets: seq<seq<T>>,
                                                         valPtg: real, testPtg: real)
    requires |data| == |targets|
    requires forall i :: 0 <= i < |data| ==> |data[i]| == |targets[i]|
    ensures var r := CreateValidationTest(data, targets, valPtg, testPtg);
      |r.trainData| == |r.trainTargets| &&
      |r.validationData| == |r.validationTargets| &&
      |r.testData| == |r.testTargets|
    ensures var r := CreateValidationTest(data, targets, valPtg, testPtg);
      var u := CreateValidationTest(targets, targets, valPtg, testPtg);
      r.trainTargets == u.trainData && r.validationTargets == u.validationData &&
      r.testTargets == u.testData
    decreases |data|
  {
    if |data| > 0 {
      SplitKeepsTargetsAligned(data[1..], targets[1..], valPtg, testPtg);
      var a := SplitOne(data[0], targets[0], valPtg, testPtg);
      var b := SplitOne(targets[0], targets[0], valPtg, testPtg);
      assert a.trainTargets == b.trainData && a.validationTargets == b.validationData &&
             a.testTargets == b.testData;
    }
  }

  /** Total size of a list of series. */
  function TotalLength<D>(data: seq<seq<D>>): nat {
    if |data| == 0 then 0 else |data[0]| + TotalLength(data[1..])
  }

  /** When every series leaves room for its held-out parts, the split loses
      and duplicates nothing: the three parts together are as long as all
      the series together, and each series contributes the test and
      validation counts its percentages ask for. */
  lemma {:induction false} SplitKeepsEverything<D>(data: seq<seq<D>>, valPtg: real, testPtg: real)
    requires forall i :: 0 <= i < |data| ==>
      var n := |data[i]|;
      Samples(testPtg, n) >= 1 && Samples(valPtg, n) >= 0 && Samples(valPtg, n) + Samples(testPtg, n) <= n
    ensures var r := CreateValidationTest(data, data, valPtg, testPtg);
      |r.trainData| + |r.validationData| + |r.testData| == TotalLength(data)
    decreases |data|
  {
    if |data| > 0 {
      var n := |data[0]|;
      SplitPartitions(data[0], Samples(valPtg, n), Samples(testPtg, n));
      SplitKeepsEverything(data[1..], valPtg, testPtg);
      var p := SplitCounts(data[0], Samples(valPtg, n), Samples(testPtg, n));
      assert |p.train + p.validation + p.test| == n;
    }
  }

  // ---------------------------------------------------------------------
  // Sliding windows

  /** One data-frame row: series id, timestamp in seconds, the target
      column's value, then the other feature columns. */
  datatype Row = Row(id: int, date: int, value: real, extra: seq<real>)

  /** The feature columns of a row without the id column; the first one is
      the target column. */
  function Features(r: Row): (f: seq<real>)
    ensures |f| == |r.extra| + 1 && f[0] == r.value
  {
    [r.value] + r.extra
  }

  datatype DataType = Monthly | Daily

  const Day: int := 86400

  /** The largest gap between consecutive rows that still counts as
      contiguous: 31 days for monthly data, one day for daily data. */
  function Interval(k: DataType): (i: int)
    ensures k.Monthly? ==> i == 31 * Day
    ensures k.Daily? ==> i == Day
  {
    match k
    case Monthly => 31 * Day
    case Daily => Day
  }

  /** Consecutive month starts are always within the monthly interval, so
      a complete monthly series is never mistaken for one with a gap. */
  lemma MonthlyIntervalFitsEveryMonth(d: Calendar.Date)
    requires Calendar.Valid(d) && d.day == 1 && d.year < 9999
    ensures Calendar.Valid(NextMonth(d))
    ensures (Calendar.Ordinal(NextMonth(d)) - Calendar.Ordinal(d)) * Day <= Interval(Monthly)
  {
    var e := NextMonth(d);
    if d.month == 12 {
      Calendar.DaysBeforeDecember(d.year);
      Calendar.DaysBeforeNextYear(d.year);
    }
  }

  /** The consecutive gaps `dates[i] - dates[i-1]` for `1 <= i < upto` are
      all within the interval. */
  predicate GapsWithin(dates: seq<int>, upto: int, interval: int)
    requires upto <= |dates|
  {
    forall i :: 1 <= i < upto ==> dates[i] - dates[i - 1] <= interval
  }

  /** The gap test of a window with at least one row. As written it checks
      the gaps for `i` in `range(1, len(dates) - 1)`, which leaves out the
      gap before the window's last row; `checkLastGap` includes it. */
  predicate Missing(dates: seq<int>, target: int, interval: int, checkLastGap: bool)
    requires |dates| >= 1
  {
    !GapsWithin(dates, if checkLastGap then |dates| else |dates| - 1, interval) ||
    target - dates[|dates| - 1] > interval
  }

  function Dates(rows: seq<Row>): (ds: seq<int>)
    ensures |ds| == |rows| && forall i :: 0 <= i < |rows| ==> ds[i] == rows[i].date
  {
    seq(|rows|, i requires 0 <= i < |rows| => rows[i].date)
  }

  /** Whether row `ind` of a series starting at row `start` yields a
      window of the `k` rows before it. */
  predicate Kept(rows: seq<Row>, start: int, k: int, interval: int, checkLastGap: bool, ind: int)
    requires 0 <= start <= ind < |rows| && k >= 1
  {
    ind - start - k >= 0 &&
    !Missing(Dates(rows[ind - k..ind]), rows[ind].date, interval, checkLastGap)
  }

  /** The rows of `ps` that yield a window, in order. */
  function KeptPositions(rows: seq<Row>, ps: seq<int>, start: int, k: int, interval: int,
                         checkLastGap: bool): (ks: seq<int>)
    requires k >= 1 && 0 <= start
    requires forall j :: 0 <= j < |ps| ==> start <= ps[j] < |rows|
    ensures forall j :: 0 <= j < |ks| ==>
      (ks[j] in ps && start <= ks[j] < |rows| && Kept(rows, start, k, interval, checkLastGap, ks[j]))
    ensures forall j :: 0 <= j < |ps| && Kept(rows, start, k, interval, checkLastGap, ps[j]) ==>
      (ps[j] in ks)
    ensures |ks| <= |ps|
    decreases |ps|
  {
    if |ps| == 0 then []
    else
      var rest := KeptPositions(rows, ps[1..], start, k, interval, checkLastGap);
      assert forall j :: 1 <= j < |ps| ==> ps[j] == ps[1..][j - 1];
      if Kept(rows, start, k, interval, checkLastGap, ps[0]) then [ps[0]] + rest else rest
  }

  /** The feature rows of the `k` rows before row `ind`. */
  function WindowAt(rows: seq<Row>, ind: int, k: int): (w: seq<seq<real>>)
    requires 0 <= k <= ind <= |rows|
    ensures |w| == k
    ensures forall i :: 0 <= i < k ==> w[i] == Features(rows[ind - k + i])
  {
    seq(k, i requires 0 <= i < k => Features(rows[ind - k + i]))
  }

  /** The windows and targets of one series. */
  datatype SeriesWindows = SeriesWindows(windows: seq<seq<seq<real>>>, targets: seq<real>)

  function SeriesWindowsOf(rows: seq<Row>, ps: seq<int>, start: int, k: int, interval: int,
                           checkLastGap: bool): (r: SeriesWindows)
    requires k >= 1 && 0 <= start
    requires forall j :: 0 <= j < |ps| ==> start <= ps[j] < |rows|
    ensures var ks := KeptPositions(rows, ps, start, k, interval, checkLastGap);
      |r.windows| == |r.targets| == |ks| &&
      forall j :: 0 <= j < |ks| ==>
        r.windows[j] == WindowAt(rows, ks[j], k) && r.targets[j] == rows[ks[j]].value
  {
    var ks := KeptPositions(rows, ps, start, k, interval, checkLastGap);
    SeriesWindows(seq(|ks|, j requires 0 <= j < |ks| => WindowAt(rows, ks[j], k)),
                  seq(|ks|, j requires 0 <= j < |ks| => rows[ks[j]].value))
  }

  /** Every window the filter lets through is a run of `k` rows right
      before its target row, with every consecutive gap within the
      interval when the last gap is checked. */
  lemma KeptWindowsAreContiguous(rows: seq<Row>, start: int, k: int, interval: int, ind: int)
    requires 0 <= start <= ind < |rows| && k >= 1
    requires Kept(rows, start, k, interval, true, ind)
    ensures forall i :: ind - k < i < ind ==> rows[i].date - rows[i - 1].date <= interval
    ensures rows[ind].date - rows[ind - 1].date <= interval
  {
    var ds := Dates(rows[ind - k..ind]);
    forall i | ind - k < i < ind
      ensures rows[i].date - rows[i - 1].date <= interval
    {
      assert ds[i - (ind - k)] == rows[i].date;
      assert ds[i - (ind - k) - 1] == rows[i - 1].date;
    }
    assert ds[k - 1] == rows[ind - 1].date;
  }

  /** As written, a window with a gap of any size just before its last row
      passes the filter. */
  lemma LastGapUncheckedAsWritten()
    ensures var rows := [Row(1, 0, 1.0, []), Row(1, 100 * Day, 2.0, []), Row(1, 100 * Day, 3.0, [])];
      Kept(rows, 0, 2, Interval(Daily), false, 2) &&
      !Kept(rows, 0, 2, Interval(Daily), true, 2)
  {
    var rows := [Row(1, 0, 1.0, []), Row(1, 100 * Day, 2.0, []), Row(1, 100 * Day, 3.0, [])];
    assert Dates(rows[0..2]) == [0, 100 * Day];
    assert Dates(rows[0..2])[1] - Dates(rows[0..2])[0] > Interval(Daily);
  }

  /** The positions of the rows of series `sid`, in order. */
  function Positions(rows: seq<Row>, sid: int, from: nat): (ps: seq<int>)
    requires from <= |rows|
    ensures forall j :: 0 <= j < |ps| ==> from <= ps[j] < |rows| && rows[ps[j]].id == sid
    ensures forall p :: from <= p < |rows| && rows[p].id == sid ==> p in ps
    ensures forall i, j :: 0 <= i < j < |ps| ==> ps[i] < ps[j]
    decreases |rows| - from
  {
    if from == |rows| then []
    else
      var rest := Positions(rows, sid, from + 1);
      if rows[from].id == sid then [from] + rest else rest
  }

  /** `unique()`: the distinct values in order of first appearance. */
  function Unique(xs: seq<int>): (us: seq<int>)
    ensures forall i, j :: 0 <= i < j < |us| ==> us[i] != us[j]
    ensures forall x :: x in us <==> x in xs
    decreases |xs|
  {
    if |xs| == 0 then []
    else
      var init := Unique(xs[..|xs| - 1]);
      assert forall x :: x in xs <==> x in xs[..|xs| - 1] || x == xs[|xs| - 1];
      if xs[|xs| - 1] in init then init else init + [xs[|xs| - 1]]
  }

  function Ids(rows: seq<Row>): (ids: seq<int>)
    ensures |ids| == |rows| && forall i :: 0 <= i < |rows| ==> ids[i] == rows[i].id
  {
    seq(|rows|, i requires 0 <= i < |rows| => rows[i].id)
  }

  function Concat<T>(xss: seq<seq<T>>): seq<T> {
    if |xss| == 0 then [] else xss[0] + Concat(xss[1..])
  }

  datatype Timesteps = Timesteps(
    windows: seq<seq<seq<real>>>,
    targets: seq<real>,
    seriesWindows: seq<seq<seq<seq<real>>>>,
    seriesTargets: seq<seq<real>>)

  /** The windows of series `sid`, which starts at its first row. */
  function SeriesOf(rows: seq<Row>, sid: int, k: int, interval: int, checkLastGap: bool)
    : (r: SeriesWindows)
    requires k >= 1 && sid in Ids(rows)
    ensures |r.windows| == |r.targets|
  {
    var ps := Positions(rows, sid, 0);
    var p :| 0 <= p < |rows| && Ids(rows)[p] == sid;
    assert p in ps;
    assert forall j :: 0 <= j < |ps| ==> ps[0] <= ps[j];
    SeriesWindowsOf(rows, ps, ps[0], k, interval, checkLastGap)
  }

  /** The windows of each series in `sids`. */
  function AllSeries(rows: seq<Row>, sids: seq<int>, k: int, interval: int, checkLastGap: bool)
    : (r: seq<SeriesWindows>)
    requires k >= 1
    requires forall j :: 0 <= j < |sids| ==> sids[j] in Ids(rows)
    ensures |r| == |sids|
    ensures forall j :: 0 <= j < |sids| ==> r[j] == SeriesOf(rows, sids[j], k, interval, checkLastGap)
  {
    seq(|sids|, j requires 0 <= j < |sids| => SeriesOf(rows, sids[j], k, interval, checkLastGap))
  }

  function WindowsOf(ss: seq<SeriesWindows>): (r: seq<seq<seq<seq<real>>>>)
    ensures |r| == |ss| && forall j :: 0 <= j < |ss| ==> r[j] == ss[j].windows
  {
    seq(|ss|, j requires 0 <= j < |ss| => ss[j].windows)
  }

  function TargetsOf(ss: seq<SeriesWindows>): (r: seq<seq<real>>)
    ensures |r| == |ss| && forall j :: 0 <= j < |ss| ==> r[j] == ss[j].targets
  {
    seq(|ss|, j requires 0 <= j < |ss| => ss[j].targets)
  }

  /** `create_timesteps_data` with the gap test selected by `checkLastGap`.
      Series are visited in order of first appearance. A window length
      below 1 reads the last date of an empty window, which raises as soon
      as there is a row. */
  function CreateTimesteps(rows: seq<Row>, k: int, kind: DataType, checkLastGap: bool)
    : (r: Result<Timesteps>)
    ensures r.Err? <==> k < 1 && |rows| > 0
    ensures r.Ok? ==> |r.value.seriesWindows| == |r.value.seriesTargets| == |Unique(Ids(rows))|
    ensures r.Ok? ==> forall j :: 0 <= j < |r.value.seriesWindows| ==>
      |r.value.seriesWindows[j]| == |r.value.seriesTargets[j]|
    ensures r.Ok? ==> r.value.windows == Concat(r.value.seriesWindows)
    ensures r.Ok? ==> r.value.targets == Concat(r.value.seriesTargets)
  {
    if k < 1 then
      if |rows| > 0 then Err("KeyError") else Ok(Timesteps([], [], [], []))
    else
      var sids := Unique(Ids(rows));
      var ss := AllSeries(rows, sids, k, Interval(kind), checkLastGap);
      Ok(Timesteps(Concat(WindowsOf(ss)), Concat(TargetsOf(ss)), WindowsOf(ss), TargetsOf(ss)))
  }

  /** The windows of a series feed the split with their targets aligned. */
  lemma TimestepsFeedAlignedSplit(rows: seq<Row>, k: int, kind: DataType, valPtg: real, testPtg: real)
    requires CreateTimesteps(rows, k, kind, true).Ok?
    ensures var ts := CreateTimesteps(rows, k, kind, true).value;
      var r := CreateValidationTest(ts.seriesWindows, ts.seriesTargets, valPtg, testPtg);
      |r.trainData| == |r.trainTargets| && |r.validationData| == |r.validationTargets| &&
      |r.testData| == |r.testTargets|
  {
    var ts := CreateTimesteps(rows, k, kind, true).value;
    SplitKeepsTargetsAligned(ts.seriesWindows, ts.seriesTargets, valPtg, testPtg);
  }

  // ---------------------------------------------------------------------
  // Clipping

  /** `clip(lower=0)`. */
  function ClipLower(xs: seq<real>): (ys: seq<real>)
    ensures |ys| == |xs|
    ensures forall i :: 0 <= i < |xs| ==> ys[i] >= 0.0
    ensures forall i :: 0 <= i < |xs| ==> (xs[i] >= 0.0 ==> ys[i] == xs[i]) && (xs[i] < 0.0 ==> ys[i] == 0.0)
  {
    seq(|xs|, i requires 0 <= i < |xs| => if xs[i] < 0.0 then 0.0 else xs[i])
  }

  /** Clipping twice is clipping once. */
  lemma ClipIdempotent(xs: seq<real>)
    ensures ClipLower(ClipLower(xs)) == ClipLower(xs)
  {
  }
}

=== FILE: map_view.dfy ===
/** The decision logic of the map view: marker icons, how each cluster is
    drawn, the click and draw handlers, and the heat-map point list. */
module MapView {
  import opened Wrappers
  import opened VisState
  import opened VisReducer
  import opened VisThunks
  import opened ClusterFeatures

  /** An RGBA colour; `alpha10` is the alpha channel in tenths. */
  datatype Rgba = Rgba(r: int, g: int, b: int, alpha10: int)

  /** The marker icons `fetchIcon` builds. */
  datatype Icon =
    | PlainMarker(clickable: bool)
    | StarMarker(clickable: bool)
    | CountMarker(count: int, background: Rgba, border: Rgba, badge: bool, clickable: bool)

  /** The three size buckets of cluster markers: under 100, under 1000, and
      the rest. */
  function Bucket(count: int): (b: nat)
    ensures b < 3
  {
    if count < 100 then 0 else if count < 1000 then 1 else 2
  }

  /** The colour of each bucket, lightest first. */
  function Shade(b: nat, alpha10: int): Rgba
    requires b < 3
  {
    if b == 0 then Rgba(102, 194, 164, alpha10)
    else if b == 1 then Rgba(44, 162, 95, alpha10)
    else Rgba(0, 109, 44, alpha10)
  }

  function FetchIcon(count: int, clickable: bool, digital: bool): (i: Icon)
    ensures count == 1 ==> i == (if digital then StarMarker(clickable) else PlainMarker(clickable))
    ensures count != 1 ==> i.CountMarker? && i.count == count && i.badge == digital
    ensures count != 1 ==> i.background == Shade(Bucket(count), 8) && i.border == Shade(Bucket(count), 5)
    ensures i.clickable == clickable
  {
    if count == 1 then
      if !digital then PlainMarker(clickable) else StarMarker(clickable)
    else
      var bg := if count < 100 then Rgba(102, 194, 164, 8)
                else if count < 1000 then Rgba(44, 162, 95, 8) else Rgba(0, 109, 44, 8);
      var bd := if count < 100 then Rgba(102, 194, 164, 5)
                else if count < 1000 then Rgba(44, 162, 95, 5) else Rgba(0, 109, 44, 5);
      CountMarker(count, bg, bd, digital, clickable)
  }

  /** Larger clusters never get a lighter bucket. */
  lemma BucketMonotone(a: int, b: int)
    requires a <= b
    ensures Bucket(a) <= Bucket(b)
  {
  }

  /** A spiderfied cluster draws, for every member, one marker and one leg
      from the cluster's centre; `index` fixes the leg's angle. */
  datatype SpiderLeg = SpiderLeg(point: PointTuple, index: nat)

  function SpiderLegs(points: seq<PointTuple>): (legs: seq<SpiderLeg>)
    ensures |legs| == |points|
    ensures forall i :: 0 <= i < |points| ==> legs[i] == SpiderLeg(points[i], i)
  {
    seq(|points|, i requires 0 <= i < |points| => SpiderLeg(points[i], i))
  }

  /** How one cluster is drawn. A one-point cluster shows its first point
      (`undefined` if it has none). */
  datatype Render =
    | SinglePoint(point: Option<PointTuple>)
    | Spiderfy(legs: seq<SpiderLeg>)
    | Counted(icon: Icon)

  function RenderCluster(f: Feature, index: int, expanded: Option<int>, zoom: int, maxZoom: int): (v: Render)
    ensures v.SinglePoint? <==> f.props.totalCount == 1
    ensures v.Spiderfy? <==> f.props.totalCount != 1 && expanded == Some(index)
    ensures v.Spiderfy? ==> |v.legs| == |f.props.points|
    ensures v.Counted? ==> v.icon == FetchIcon(f.props.totalCount, zoom == maxZoom, f.props.digital)
  {
    if f.props.totalCount == 1 then
      SinglePoint(if |f.props.points| > 0 then Some(f.props.points[0]) else None)
    else if expanded == Some(index) then Spiderfy(SpiderLegs(f.props.points))
    else Counted(FetchIcon(f.props.totalCount, zoom == maxZoom, f.props.digital))
  }

  /** A cluster marker click expands the cluster only at the maximum zoom. */
  function ClusterClick(zoom: int, maxZoom: int, index: int): (a: Option<Action>)
    ensures a.Some? <==> zoom == maxZoom
    ensures a.Some? ==> a.value == UpdateExpandedClusterIndex(Some(index))
  {
    if zoom == maxZoom then Some(UpdateExpandedClusterIndex(Some(index))) else None
  }

  /** A click on the map background collapses any expanded cluster. */
  const MapClick: Action := UpdateExpandedClusterIndex(None)

  /** After a click on a cluster at the maximum zoom, that cluster is drawn
      spiderfied (unless it is a single point), and after a background
      click no cluster is. */
  lemma {:induction false} ClickExpandsThenBackgroundCollapses(
    s: VisualizerState, f: Feature, index: int, other: int, maxZoom: int, clk: Clock)
    requires f.props.totalCount != 1
    ensures var a := ClusterClick(maxZoom, maxZoom, index).value;
      var t := Reduce(s, a, clk).value;
      RenderCluster(f, index, t.expandedClusterIndex, maxZoom, maxZoom).Spiderfy?
    ensures var t := Reduce(s, MapClick, clk).value;
      !RenderCluster(f, other, t.expandedClusterIndex, s.zoom, maxZoom).Spiderfy?
  {
    var a := ClusterClick(maxZoom, maxZoom, index).value;
    assert Reduce(s, a, clk) == Ok(s.(expandedClusterIndex := Some(index)));
    assert Reduce(s, MapClick, clk) == Ok(s.(expandedClusterIndex := None));
  }

  /** The draw tool's events. */
  datatype DrawEvent = Created(bounds: Bounds) | Deleted

  function DrawnBounds(e: DrawEvent): (b: Option<Bounds>)
    ensures b.Some? <==> e.Created?
    ensures e.Created? ==> b.value == e.bounds
  {
    match e
    case Created(bounds) => Some(bounds)
    case Deleted => None
  }

  /** Drawing a rectangle stores it as the drawn rectangle; deleting it
      clears the drawn rectangle. */
  lemma DrawEventsSetDrawnRect(r: Run, id: string, e: DrawEvent, clk: Clock)
    requires !r.threw
    ensures VisThunks.UpdateDrawnRect(r, id, DrawnBounds(e), clk).state.drawnRect
         == (if e.Created? then Some(RectOf(e.bounds)) else None)
  {
    var rect := if e.Created? then Some(RectOf(e.bounds)) else None;
    var r1 := Dispatch(r, Action.UpdateDrawnRect(rect), clk);
    assert r1.state.drawnRect == rect;
    AnalysisStep(r1, id, clk);
  }

  /** A heat-map point: latitude, longitude and the measure values. */
  datatype HeatPoint = HeatPoint(lat: real, lon: real, values: seq<real>)

  function HeatOf(p: PointTuple): HeatPoint {
    HeatPoint(p.lat, p.lon, p.values)
  }

  function HeatPoints(ps: seq<PointTuple>): (hs: seq<HeatPoint>)
    ensures |hs| == |ps|
    ensures forall i :: 0 <= i < |ps| ==> hs[i] == HeatOf(ps[i])
  {
    seq(|ps|, i requires 0 <= i < |ps| => HeatOf(ps[i]))
  }

  /** `getPoints`: every cluster's points, in order, as heat points. */
  function GetPoints(cs: seq<Feature>): seq<HeatPoint> {
    if cs == [] then [] else HeatPoints(cs[0].props.points) + GetPoints(cs[1..])
  }

  /** The heat points are exactly the clusters' points, in order. */
  lemma {:induction false} GetPointsFlattens(cs: seq<Feature>)
    ensures GetPoints(cs) == HeatPoints(AllPoints(Props(cs)))
    ensures |GetPoints(cs)| == |AllPoints(Props(cs))|
  {
    if cs != [] {
      GetPointsFlattens(cs[1..]);
      assert Props(cs)[1..] == Props(cs[1..]);
      var a := cs[0].props.points;
      var b := AllPoints(Props(cs[1..]));
      assert AllPoints(Props(cs)) == a + b;
      assert HeatPoints(a + b) == HeatPoints(a) + HeatPoints(b);
    }
  }
}

=== FILE: masked_flip.dfy ===
/** `masked_flip` of the recurrent forecaster (`create_model.py`): reverses
    each sequence of a padded batch along time, keeping only the unpadded
    part, and pads the batch again with ones. A batch is a sequence of rows,
    one per sequence, each holding `steps` time steps; the features of a
    time step are elided into one real. */
module MaskedFlip {
  import opened Wrappers
  import PySlice

  function Reverse<T>(s: seq<T>): (r: seq<T>)
    ensures |r| == |s|
    ensures forall i :: 0 <= i < |s| ==> r[i] == s[|s| - 1 - i]
    decreases |s|
  {
    if |s| == 0 then [] else Reverse(s[1..]) + [s[0]]
  }

  /** The value `pad_sequence` fills with. */
  const Padding: real := 1.0

  /** A batch tensor of `steps` time steps. */
  predicate Shaped(batch: seq<seq<real>>, steps: nat) {
    forall i :: 0 <= i < |batch| ==> |batch[i]| == steps
  }

  /** A length above the maximum is cut down to it. */
  function Clamp(length: int, maxLength: int): (l: int)
    ensures l <= maxLength && l <= length
    ensures l == length || l == maxLength
  {
    if length > maxLength then maxLength else length
  }

  /** `flipped[i, steps - length:]`, with Python's slice bounds. */
  function Piece(row: seq<real>, length: int): seq<real> {
    PySlice.Slice(Reverse(row), Some(|row| - length), None)
  }

  /** Length of the longest sequence. */
  function Longest(pieces: seq<seq<real>>): (w: nat)
    ensures forall i :: 0 <= i < |pieces| ==> |pieces[i]| <= w
    ensures |pieces| > 0 ==> exists i :: 0 <= i < |pieces| && |pieces[i]| == w
    ensures |pieces| == 0 ==> w == 0
    decreases |pieces|
  {
    if |pieces| == 0 then 0
    else
      var w := Longest(pieces[1..]);
      assert forall i :: 1 <= i < |pieces| ==> pieces[i] == pieces[1..][i - 1];
      if |pieces[0]| >= w then |pieces[0]| else w
  }

  function Ones(n: nat): (r: seq<real>)
    ensures |r| == n && forall k :: 0 <= k < n ==> r[k] == Padding
  {
    seq(n, _ => Padding)
  }

  /** `pad_sequence(..., batch_first=True, padding_value=1)`: every
      sequence extended with the padding value to the longest one. An
      empty list of sequences is rejected. */
  function PadSequence(pieces: seq<seq<real>>): (r: Result<seq<seq<real>>>)
    ensures r.Err? <==> |pieces| == 0
    ensures r.Ok? ==> |r.value| == |pieces| && Shaped(r.value, Longest(pieces))
    ensures r.Ok? ==> forall i, k :: 0 <= i < |pieces| && 0 <= k < Longest(pieces) ==>
      r.value[i][k] == if k < |pieces[i]| then pieces[i][k] else Padding
  {
    if |pieces| == 0 then Err("RuntimeError")
    else
      var w := Longest(pieces);
      Ok(seq(|pieces|, i requires 0 <= i < |pieces| => pieces[i] + Ones(w - |pieces[i]|)))
  }

  /** `masked_flip(padded, lengths, maxLength)`. */
  function Flip(batch: seq<seq<real>>, steps: nat, lengths: seq<int>, maxLength: int)
    : (r: Result<seq<seq<real>>>)
    requires Shaped(batch, steps)
    ensures |batch| != |lengths| ==> r == Err("AssertionError")
    ensures r.Ok? ==> |r.value| == |batch|
  {
    if |batch| != |lengths| then Err("AssertionError")
    else PadSequence(seq(|batch|, i requires 0 <= i < |batch| => Piece(batch[i], Clamp(lengths[i], maxLength))))
  }

  /** For a length within the time steps, the kept piece is the first
      `length` steps in reverse order. */
  lemma PieceReversesPrefix(row: seq<real>, length: int)
    requires 0 <= length <= |row|
    ensures Piece(row, length) == Reverse(row[..length])
  {
    var p := Piece(row, length);
    assert p == Reverse(row)[|row| - length..];
    forall k | 0 <= k < length
      ensures p[k] == Reverse(row[..length])[k]
    {
      assert p[k] == Reverse(row)[|row| - length + k];
    }
  }

  /** A length of zero or below keeps nothing of the sequence. */
  lemma PieceOfNonPositiveLength(row: seq<real>, length: int)
    requires length <= 0
    ensures Piece(row, length) == []
  {
  }

  /** Lengths that are valid for the batch: within the time steps once
      clamped. */
  predicate LengthsFit(steps: nat, lengths: seq<int>, maxLength: int) {
    forall i :: 0 <= i < |lengths| ==> 0 <= Clamp(lengths[i], maxLength) <= steps
  }

  /** `out` starts with the first `l` steps of `src` in reverse order and
      holds padding after them. */
  predicate RowReversed(src: seq<real>, out: seq<real>, l: int) {
    0 <= l <= |src| && l <= |out| &&
    forall k :: 0 <= k < |out| ==> out[k] == if k < l then src[l - 1 - k] else Padding
  }

  /** Row by row, `out` reverses the first `L` steps of `src`, `L` the
      clamped length. */
  predicate ReversedRows(src: seq<seq<real>>, out: seq<seq<real>>, lengths: seq<int>, maxLength: int) {
    |out| == |src| == |lengths| &&
    forall i :: 0 <= i < |src| ==> RowReversed(src[i], out[i], Clamp(lengths[i], maxLength))
  }

  /** Each output row starts with its sequence's first `L` steps in
      reverse order, `L` the clamped length, and is padded with ones
      after that. */
  lemma FlipReversesUnmasked(batch: seq<seq<real>>, steps: nat, lengths: seq<int>, maxLength: int)
    requires Shaped(batch, steps) && |batch| == |lengths| && |batch| > 0
    requires LengthsFit(steps, lengths, maxLength)
    ensures var r := Flip(batch, steps, lengths, maxLength);
      r.Ok? && ReversedRows(batch, r.value, lengths, maxLength)
  {
    var pieces := seq(|batch|, i requires 0 <= i < |batch| => Piece(batch[i], Clamp(lengths[i], maxLength)));
    forall i | 0 <= i < |batch|
      ensures pieces[i] == Reverse(batch[i][..Clamp(lengths[i], maxLength)])
    {
      PieceReversesPrefix(batch[i], Clamp(lengths[i], maxLength));
    }
  }

  /** Reversing the reversed prefix gives the prefix back. */
  lemma RowReversedTwice(src: seq<real>, once: seq<real>, twice: seq<real>, l: int)
    requires RowReversed(src, once, l) && RowReversed(once, twice, l)
    ensures forall k :: 0 <= k < l ==> twice[k] == src[k]
  {
    forall k | 0 <= k < l
      ensures twice[k] == src[k]
    {
      assert twice[k] == once[l - 1 - k];
    }
  }

  /** The output is as wide as the longest clamped length. */
  lemma FlipWidth(batch: seq<seq<real>>, steps: nat, lengths: seq<int>, maxLength: int)
    requires Shaped(batch, steps) && |batch| == |lengths| && |batch| > 0
    requires LengthsFit(steps, lengths, maxLength)
    ensures var r := Flip(batch, steps, lengths, maxLength);
      r.Ok? && exists w: nat :: (
        Shaped(r.value, w) && w <= steps &&
        (forall i :: 0 <= i < |lengths| ==> Clamp(lengths[i], maxLength) <= w) &&
        (exists i :: 0 <= i < |lengths| && Clamp(lengths[i], maxLength) == w))
  {
    var pieces := seq(|batch|, i requires 0 <= i < |batch| => Piece(batch[i], Clamp(lengths[i], maxLength)));
    forall i | 0 <= i < |batch|
      ensures |pieces[i]| == Clamp(lengths[i], maxLength)
    {
      PieceReversesPrefix(batch[i], Clamp(lengths[i], maxLength));
    }
    var w := Longest(pieces);
    var j :| 0 <= j < |pieces| && |pieces[j]| == w;
    assert Clamp(lengths[j], maxLength) == w;
  }

  /** Flipping the flipped batch with the same lengths restores every
      unmasked step. */
  lemma FlipTwiceRestores(batch: seq<seq<real>>, steps: nat, lengths: seq<int>, maxLength: int)
    requires Shaped(batch, steps) && |batch| == |lengths| && |batch| > 0
    requires LengthsFit(steps, lengths, maxLength)
    ensures var once := Flip(batch, steps, lengths, maxLength);
      && once.Ok? && |once.value| > 0 && Shaped(once.value, |once.value[0]|)
      && var twice := Flip(once.value, |once.value[0]|, lengths, maxLength);
      && twice.Ok? && ReversedRows(once.value, twice.value, lengths, maxLength)
      && forall i, k :: 0 <= i < |batch| && 0 <= k < Clamp(lengths[i], maxLength) ==>
           twice.value[i][k] == batch[i][k]
  {
    FlipFirstRowWidth(batch, steps, lengths, maxLength);
    var once := Flip(batch, steps, lengths, maxLength).value;
    FlipTwiceAt(batch, steps, lengths, maxLength, once, |once[0]|);
  }

  /** The once-flipped batch is as wide as its first row, and every clamped
      length fits in that width. */
  lemma FlipFirstRowWidth(batch: seq<seq<real>>, steps: nat, lengths: seq<int>, maxLength: int)
    requires Shaped(batch, steps) && |batch| == |lengths| && |batch| > 0
    requires LengthsFit(steps, lengths, maxLength)
    ensures var once := Flip(batch, steps, lengths, maxLength);
      && once.Ok? && |once.value| > 0
      && Shaped(once.value, |once.value[0]|) && LengthsFit(|once.value[0]|, lengths, maxLength)
  {
    FlipWidth(batch, steps, lengths, maxLength);
    var once := Flip(batch, steps, lengths, maxLength).value;
    assert Shaped(once, |once[0]|);
  }

  /** The pointwise step of `FlipTwiceRestores`, for the width `w` of the
      once-flipped batch. */
  lemma FlipTwiceAt(batch: seq<seq<real>>, steps: nat, lengths: seq<int>, maxLength: int,
                    once: seq<seq<real>>, w: nat)
    requires Shaped(batch, steps) && |batch| == |lengths| && |batch| > 0
    requires LengthsFit(steps, lengths, maxLength) && LengthsFit(w, lengths, maxLength)
    requires Flip(batch, steps, lengths, maxLength) == Ok(once) && Shaped(once, w)
    ensures var twice := Flip(once, w, lengths, maxLength);
      twice.Ok? && ReversedRows(once, twice.value, lengths, maxLength) && forall i, k :: 0 <= i < |batch| && 0 <= k < Clamp(lengths[i], maxLength) ==>
        twice.value[i][k] == batch[i][k]
  {
    FlipReversesUnmasked(batch, steps, lengths, maxLength);
    FlipReversesUnmasked(once, w, lengths, maxLength);
    var twice := Flip(once, w, lengths, maxLength).value;
    forall i | 0 <= i < |batch|
      ensures forall k :: 0 <= k < Clamp(lengths[i], maxLength) ==> twice[i][k] == batch[i][k]
    {
      RowReversedTwice(batch[i], once[i], twice[i], Clamp(lengths[i], maxLength));
    }
  }

  /** A length above the time steps (and not clamped) does not index from
      the start: the negative slice start counts from the end, so a batch of
      three steps with length 4 keeps a single step. */
  lemma OverlongLengthKeepsTail()
    ensures var r := Flip([[1.0, 2.0, 3.0]], 3, [4], 10);
      r == Ok([[1.0]])
  {
    var row := [1.0, 2.0, 3.0];
    assert Reverse(row) == [3.0, 2.0, 1.0];
    assert Piece(row, 4) == [1.0];
    var pieces := seq(1, i requires 0 <= i < 1 => Piece([[1.0, 2.0, 3.0]][i], Clamp([4][i], 10)));
    assert pieces == [[1.0]];
    assert Longest(pieces) == 1;
    var r := PadSequence(pieces);
    assert r.Ok? && |r.value| == 1 && |r.value[0]| == 1 && r.value[0][0] == 1.0;
    assert r.value[0] == [1.0];
    assert r.value == [[1.0]];
    assert Flip([[1.0, 2.0, 3.0]], 3, [4], 10) == r;
  }
}

=== FILE: normalization.dfy ===
/** Input and target scaling for the forecaster
    (`normalization_utilites.py`), over real numbers. A tensor is a
    sequence of rows (higher-rank inputs are flattened to rows first, as
    the scaler does). A division by zero, which yields infinities or NaNs
    in floating point, is reported as an error. */
module Normalization {
  import opened Wrappers
  import SingleRect

  /** `z_score_normalization` on one value: `(x - m) / s`. */
  function ZScore(x: real, m: real, s: real): (r: Option<real>)
    ensures r.Some? <==> s != 0.0
    ensures r.Some? ==> r.value * s == x - m
  {
    if s == 0.0 then None else Some((x - m) / s)
  }

  /** `inverse_z_score`: `y * s + m`. */
  function InverseZScore(y: real, m: real, s: real): real {
    y * s + m
  }

  /** The inverse undoes the forward map, and the forward map undoes the
      inverse, whenever the deviation is non-zero. */
  lemma ZScoreRoundTrip(x: real, y: real, m: real, s: real)
    requires s != 0.0
    ensures InverseZScore(ZScore(x, m, s).value, m, s) == x
    ensures ZScore(InverseZScore(y, m, s), m, s) == Some(y)
  {
    assert InverseZScore(y, m, s) - m == y * s;
    assert (y * s) / s == y;
  }

  /** `minmax_normalization` with `scale_range = (minr, maxr)`:
      `((x - lo) / (hi - lo)) * (maxr - minr)`. The lower end of the range
      is never added back. */
  function MinMax(x: real, lo: real, hi: real, minr: real, maxr: real): (r: Option<real>)
    ensures r.Some? <==> hi != lo
    ensures r.Some? ==> r.value * (hi - lo) == (x - lo) * (maxr - minr)
  {
    if hi == lo then None else Some(((x - lo) / (hi - lo)) * (maxr - minr))
  }

  /** `inverse_minmax`: `(y / (maxr - minr)) * (hi - lo) + lo`. */
  function InverseMinMax(y: real, lo: real, hi: real, minr: real, maxr: real): (r: Option<real>)
    ensures r.Some? <==> maxr != minr
  {
    if maxr == minr then None else Some((y / (maxr - minr)) * (hi - lo) + lo)
  }

  lemma MinMaxRoundTrip(x: real, lo: real, hi: real, minr: real, maxr: real)
    requires hi != lo && maxr != minr
    ensures InverseMinMax(MinMax(x, lo, hi, minr, maxr).value, lo, hi, minr, maxr) == Some(x)
  {
    var w := maxr - minr;
    var q := (x - lo) / (hi - lo);
    assert MinMax(x, lo, hi, minr, maxr).value == q * w;
    assert (q * w) / w == q;
    assert q * (hi - lo) == x - lo;
    calc {
      InverseMinMax(q * w, lo, hi, minr, maxr).value;
      ((q * w) / w) * (hi - lo) + lo;
      q * (hi - lo) + lo;
      x;
    }
  }

  /** Values between the factors land between 0 and `maxr - minr`: the low
      factor maps to 0 (not to `minr`) and the high factor to the width of
      the range. */
  lemma MinMaxRange(x: real, lo: real, hi: real, minr: real, maxr: real)
    requires lo < hi && minr <= maxr && lo <= x <= hi
    ensures 0.0 <= MinMax(x, lo, hi, minr, maxr).value <= maxr - minr
    ensures MinMax(lo, lo, hi, minr, maxr) == Some(0.0)
    ensures MinMax(hi, lo, hi, minr, maxr) == Some(maxr - minr)
  {
    var d, w := hi - lo, maxr - minr;
    var f := (x - lo) / d;
    SingleRect.DivideBounds(d, 0.0, x - lo, 1.0);
    NonNegativeProduct(f, w);
    NonNegativeProduct(1.0 - f, w);
    assert w - f * w == (1.0 - f) * w;
    assert (hi - lo) / d == 1.0;
  }

  lemma NonNegativeProduct(a: real, b: real)
    requires a >= 0.0 && b >= 0.0
    ensures a * b >= 0.0
  {
  }

  // ---------------------------------------------------------------------
  // Tensors

  type Tensor = seq<seq<real>>

  /** All entries, row after row. */
  function Entries(t: Tensor): (es: seq<real>)
    ensures |t| == 0 ==> es == []
    decreases |t|
  {
    if |t| == 0 then [] else t[0] + Entries(t[1..])
  }

  /** Every entry of a row is an entry of the tensor. */
  lemma {:induction false} EntriesContain(t: Tensor, i: int, j: int)
    requires 0 <= i < |t| && 0 <= j < |t[i]|
    ensures t[i][j] in Entries(t)
    decreases i
  {
    if i > 0 {
      EntriesContain(t[1..], i - 1, j);
      assert t[1..][i - 1] == t[i];
    }
  }

  /** Applies `f` to every entry; fails if `f` fails on any entry. */
  function MapEntries(t: Tensor, f: (int, real) -> Option<real>): (r: Result<Tensor>)
    ensures r.Ok? <==> forall i, j :: 0 <= i < |t| && 0 <= j < |t[i]| ==> f(j, t[i][j]).Some?
    ensures r.Ok? ==> |r.value| == |t| && forall i :: 0 <= i < |t| ==>
      |r.value[i]| == |t[i]| && forall j :: 0 <= j < |t[i]| ==> r.value[i][j] == f(j, t[i][j]).value
  {
    if forall i, j :: 0 <= i < |t| && 0 <= j < |t[i]| ==> f(j, t[i][j]).Some? then
      Ok(seq(|t|, i requires 0 <= i < |t| =>
        seq(|t[i]|, j requires 0 <= j < |t[i]| => f(j, t[i][j]).value)))
    else Err("non-finite value")
  }

  datatype Method = MinMaxMethod | ZScoreMethod | OtherMethod(name: string)

  /** The saved factors: global minimum and maximum, or per-column means
      and standard deviations. */
  datatype Factors = MinMaxFactors(lo: real, hi: real) | ZScoreFactors(means: seq<real>, stds: seq<real>)

  /** Column `j` of the rows wide enough to have one. */
  function Column(t: Tensor, j: int): seq<real>
    decreases |t|
  {
    if |t| == 0 then []
    else (if 0 <= j < |t[0]| then [t[0][j]] else []) + Column(t[1..], j)
  }

  /** Every row as wide as `w`. */
  predicate Rectangular(t: Tensor, w: int) {
    forall i :: 0 <= i < |t| ==> |t[i]| == w
  }

  /** `set_scaling_factors`. Min-max takes the minimum and maximum over all
      entries, which fails on an empty tensor. Z-score takes each column's
      mean and its standard deviation with divisor `n - 1`, which is not a
      finite number for fewer than two rows. Any other method name leaves
      the factors undefined. */
  function SetScalingFactors(t: Tensor, m: Method, sqrt: real -> real): (r: Result<Factors>)
    ensures m.MinMaxMethod? ==> (r.Ok? <==> |Entries(t)| > 0)
    ensures m.MinMaxMethod? && r.Ok? ==> (
      r.value.MinMaxFactors? &&
      r.value.lo in Entries(t) && r.value.hi in Entries(t) &&
      forall e :: e in Entries(t) ==> r.value.lo <= e <= r.value.hi)
    ensures m.ZScoreMethod? ==> (r.Ok? <==> |t| >= 2 && |t[0]| > 0 && Rectangular(t, |t[0]|))
    ensures m.ZScoreMethod? && r.Ok? ==> (
      r.value.ZScoreFactors? && |r.value.means| == |r.value.stds| == |t[0]| &&
      forall j :: 0 <= j < |t[0]| ==>
        |Column(t, j)| == |t| &&
        r.value.means[j] * (|t| as real) == SingleRect.Sum(Column(t, j)) &&
        r.value.stds[j] == sqrt(SingleRect.SquaredDeviations(Column(t, j), r.value.means[j]) / ((|t| - 1) as real)))
    ensures m.OtherMethod? ==> r.Err?
  {
    match m
    case MinMaxMethod =>
      var es := Entries(t);
      if |es| == 0 then Err("RuntimeError")
      else
        SingleRect.MinimumIsLeast(es);
        SingleRect.MaximumIsGreatest(es);
        Ok(MinMaxFactors(SingleRect.Minimum(es), SingleRect.Maximum(es)))
    case ZScoreMethod =>
      if |t| < 2 || |t[0]| == 0 then Err("non-finite value")
      else if !Rectangular(t, |t[0]|) then Err("ValueError")
      else Ok(ColumnFactors(t, sqrt))
    case OtherMethod(_) => Err("UnboundLocalError")
  }

  /** Per-column mean and sample standard deviation (divisor `n - 1`) of a
      rectangular tensor of at least two rows. */
  function ColumnFactors(t: Tensor, sqrt: real -> real): (f: Factors)
    requires |t| >= 2 && |t[0]| > 0 && Rectangular(t, |t[0]|)
    ensures f.ZScoreFactors? && |f.means| == |f.stds| == |t[0]|
    ensures forall j :: 0 <= j < |t[0]| ==>
      |Column(t, j)| == |t| &&
      f.means[j] * (|t| as real) == SingleRect.Sum(Column(t, j)) &&
      f.stds[j] == sqrt(SingleRect.SquaredDeviations(Column(t, j), f.means[j]) / ((|t| - 1) as real))
  {
    var w := |t[0]|;
    var means := seq(w, j requires 0 <= j < w => ColumnMean(t, j));
    var stds := seq(w, j requires 0 <= j < w => ColumnStd(t, j, ColumnMean(t, j), sqrt));
    forall j | 0 <= j < w
      ensures |Column(t, j)| == |t| && ColumnMean(t, j) * (|t| as real) == SingleRect.Sum(Column(t, j))
    {
      ColumnMeanTimesCount(t, w, j);
    }
    ZScoreFactors(means, stds)
  }

  /** Square root of the squared deviations from `m` over `n - 1`. */
  function ColumnStd(t: Tensor, j: int, m: real, sqrt: real -> real): real
    requires |t| >= 2
  {
    sqrt(SingleRect.SquaredDeviations(Column(t, j), m) / ((|t| - 1) as real))
  }

  /** A full column is as long as the tensor, and its mean times that length
      is its sum. */
  lemma ColumnMeanTimesCount(t: Tensor, w: int, j: int)
    requires |t| > 0 && Rectangular(t, w) && 0 <= j < w
    ensures |Column(t, j)| == |t| && ColumnMean(t, j) * (|t| as real) == SingleRect.Sum(Column(t, j))
  {
    ColumnLength(t, w, j);
    var c := Column(t, j);
    assert SingleRect.Mean(c) * (|c| as real) == SingleRect.Sum(c);
  }

  /** In a rectangular tensor, column `j` holds entry `j` of every row, in
      row order. */
  lemma {:induction false} ColumnLength(t: Tensor, w: int, j: int)
    requires Rectangular(t, w) && 0 <= j < w
    ensures |Column(t, j)| == |t|
    ensures forall i :: 0 <= i < |t| ==> Column(t, j)[i] == t[i][j]
    decreases |t|
  {
    if |t| > 0 {
      ColumnLength(t[1..], w, j);
      forall i | 1 <= i < |t|
        ensures Column(t, j)[i] == t[i][j]
      {
        assert Column(t, j)[i] == Column(t[1..], j)[i - 1];
        assert t[1..][i - 1] == t[i];
      }
    }
  }

  /** Mean of column `j`, 0 when no row has one. */
  function ColumnMean(t: Tensor, j: int): real {
    var c := Column(t, j);
    if |c| == 0 then 0.0 else SingleRect.Mean(c)
  }

  /** Scales a tensor with given factors, broadcasting per-column factors
      along the rows; rows of another width do not broadcast. */
  function Apply(t: Tensor, f: Factors): (r: Result<Tensor>)
    ensures f.MinMaxFactors? ==> r == MapEntries(t, (j, x) => MinMax(x, f.lo, f.hi, 0.0, 1.0))
    ensures f.ZScoreFactors? && r.Ok? ==> Rectangular(t, |f.means|) && |f.stds| == |f.means|
  {
    match f
    case MinMaxFactors(lo, hi) => MapEntries(t, (j, x) => MinMax(x, lo, hi, 0.0, 1.0))
    case ZScoreFactors(means, stds) =>
      if |stds| != |means| || !Rectangular(t, |means|) then Err("RuntimeError")
      else MapEntries(t, (j, x) => if 0 <= j < |means| then ZScore(x, means[j], stds[j]) else None)
  }

  /** Factors of the kind the method saves. */
  predicate Matches(m: Method, f: Factors) {
    (m.MinMaxMethod? && f.MinMaxFactors?) || (m.ZScoreMethod? && f.ZScoreFactors?)
  }

  /** `rescale_data`: uses the saved factors when there are any, otherwise
      computes them from this tensor and saves them. Returns the scaled
      tensor and the factors now saved. */
  function RescaleData(t: Tensor, m: Method, saved: Option<Factors>, sqrt: real -> real)
    : (r: Result<(Tensor, Factors)>)
    ensures m.OtherMethod? ==> r.Err?
    ensures saved.Some? && !Matches(m, saved.value) ==> r.Err?
    ensures saved.Some? && r.Ok? ==> r.value.1 == saved.value
    ensures saved.None? && r.Ok? ==> SetScalingFactors(t, m, sqrt) == Ok(r.value.1)
    ensures r.Ok? ==> Apply(t, r.value.1) == Ok(r.value.0)
  {
    if m.OtherMethod? then Err("KeyError")
    else if saved.Some? && !Matches(m, saved.value) then Err("saved factors of another method")
    else
      var f := if saved.Some? then Ok(saved.value) else SetScalingFactors(t, m, sqrt);
      if f.Err? then Err(f.error)
      else
        var y := Apply(t, f.value);
        if y.Err? then Err(y.error) else Ok((y.value, f.value))
  }

  /** Scaled with its own min-max factors, every entry of a tensor lies in
      [0, 1], and the smallest entry becomes 0. */
  lemma MinMaxTrainingInUnitRange(t: Tensor, sqrt: real -> real)
    requires RescaleData(t, MinMaxMethod, None, sqrt).Ok?
    ensures var (y, f) := RescaleData(t, MinMaxMethod, None, sqrt).value;
      f.MinMaxFactors? && f.lo < f.hi &&
      forall i, j :: 0 <= i < |y| && 0 <= j < |y[i]| ==> 0.0 <= y[i][j] <= 1.0
  {
    var (y, f) := RescaleData(t, MinMaxMethod, None, sqrt).value;
    assert f == SetScalingFactors(t, MinMaxMethod, sqrt).value;
    forall i, j | 0 <= i < |y| && 0 <= j < |y[i]|
      ensures 0.0 <= y[i][j] <= 1.0
    {
      EntriesContain(t, i, j);
      MinMaxRange(t[i][j], f.lo, f.hi, 0.0, 1.0);
    }
    assert f.lo != f.hi by {
      var e :| e in Entries(t);
      assert MinMax(e, f.lo, f.hi, 0.0, 1.0).Some? by {
        var i, j := EntryPosition(t, e);
      }
    }
  }

  /** Every entry sits in some row. */
  lemma {:induction false} EntryPosition(t: Tensor, e: real) returns (i: int, j: int)
    requires e in Entries(t)
    ensures 0 <= i < |t| && 0 <= j < |t[i]| && t[i][j] == e
    decreases |t|
  {
    if e in t[0] {
      i := 0;
      j :| 0 <= j < |t[0]| && t[0][j] == e;
    } else {
      var i', j' := EntryPosition(t[1..], e);
      i, j := i' + 1, j';
    }
  }

  /** A later tensor (validation or test) is scaled with the factors saved
      for the first (training) tensor, not with its own. */
  lemma LaterTensorsReuseFactors(train: Tensor, later: Tensor, m: Method, sqrt: real -> real)
    requires RescaleData(train, m, None, sqrt).Ok?
    ensures var f := RescaleData(train, m, None, sqrt).value.1;
      RescaleData(later, m, Some(f), sqrt).Ok? ==> RescaleData(later, m, Some(f), sqrt).value.1 == f
    ensures var f := RescaleData(train, m, None, sqrt).value.1;
      RescaleData(later, m, Some(f), sqrt) == (var y := Apply(later, f); if y.Ok? then Ok((y.value, f)) else Err(y.error))
  {
  }

  /** `inverse_normalized_data`: needs the saved factors. */
  function InverseNormalizedData(t: Tensor, m: Method, saved: Option<Factors>): (r: Result<Tensor>)
    ensures saved.None? || m.OtherMethod? ==> r.Err?
  {
    if saved.None? || m.OtherMethod? then Err("TypeError")
    else
      match saved.value
      case MinMaxFactors(lo, hi) =>
        if m.MinMaxMethod? then MapEntries(t, (j, y) => InverseMinMax(y, lo, hi, 0.0, 1.0))
        else Err("TypeError")
      case ZScoreFactors(means, stds) =>
        if m.ZScoreMethod? && |stds| == |means| && Rectangular(t, |means|) then
          MapEntries(t, (j, y) => if 0 <= j < |means| then Some(InverseZScore(y, means[j], stds[j])) else None)
        else Err("TypeError")
  }

  /** Scaling and then inverting with the same saved factors gives the
      tensor back. */
  lemma InverseUndoesRescale(t: Tensor, m: Method, saved: Option<Factors>, sqrt: real -> real)
    requires RescaleData(t, m, saved, sqrt).Ok?
    ensures var (y, f) := RescaleData(t, m, saved, sqrt).value;
      InverseNormalizedData(y, m, Some(f)) == Ok(t)
  {
    var (y, f) := RescaleData(t, m, saved, sqrt).value;
    assert Matches(m, f);
    assert Apply(t, f) == Ok(y);
    var back := InverseNormalizedData(y, m, Some(f));
    match f
    case MinMaxFactors(lo, hi) =>
      var g := (j: int, v: real) => InverseMinMax(v, lo, hi, 0.0, 1.0);
      assert back == MapEntries(y, g);
      forall i, j | 0 <= i < |t| && 0 <= j < |t[i]|
        ensures g(j, y[i][j]) == Some(t[i][j])
      {
        MinMaxRoundTrip(t[i][j], lo, hi, 0.0, 1.0);
      }
      SameTensor(t, back.value);
    case ZScoreFactors(means, stds) =>
      var g := (j: int, v: real) => if 0 <= j < |means| then Some(InverseZScore(v, means[j], stds[j])) else None;
      assert Rectangular(y, |means|);
      assert back == MapEntries(y, g);
      forall i, j | 0 <= i < |t| && 0 <= j < |t[i]|
        ensures g(j, y[i][j]) == Some(t[i][j])
      {
        ZScoreRoundTrip(t[i][j], 0.0, means[j], stds[j]);
      }
      SameTensor(t, back.value);
  }

  /** Tensors with the same rows entry by entry are equal. */
  lemma SameTensor(a: Tensor, b: Tensor)
    requires |a| == |b| && forall i :: 0 <= i < |a| ==> |a[i]| == |b[i]|
    requires forall i, j :: 0 <= i < |a| && 0 <= j < |a[i]| ==> a[i][j] == b[i][j]
    ensures a == b
  {
    forall i | 0 <= i < |a|
      ensures a[i] == b[i]
    {
    }
  }
}

=== FILE: pyslice.dfy ===
/** Python's slice `s[start:stop]` with omitted or negative bounds. */
module PySlice {
  import opened Wrappers

  /** A slice bound resolved against a sequence of length `n`: negative
      bounds count from the end, and every bound is clamped into 0..n. */
  function Resolve(i: int, n: nat): (k: nat)
    ensures k <= n
    ensures 0 <= i <= n ==> k == i
    ensures -(n as int) <= i < 0 ==> k == n + i
    ensures i < -(n as int) ==> k == 0
    ensures i > n ==> k == n
  {
    if i < 0 then (if n + i < 0 then 0 else n + i) else (if i > n then n else i)
  }

  /** `s[start:stop]`; `None` is an omitted bound. */
  function Slice<T>(s: seq<T>, start: Option<int>, stop: Option<int>): (r: seq<T>)
    ensures |r| <= |s|
  {
    var a := if start.None? then 0 else Resolve(start.value, |s|);
    var b := if stop.None? then |s| else Resolve(stop.value, |s|);
    if a <= b then s[a..b] else []
  }
}

=== FILE: raw_data_service.dfy ===
/** The server's per-dataset index registry (`RawDataService`) and the
    assembly of a query response from the index engine's raw results. The
    index engine is a library: its query answer, its object lookup and the
    effect of destroying an index are parameters or recorded as flags. */
module RawData {
  import opened Wrappers
  import VisState
  import SingleRect
  import ClusterFeatures

  /** A dataset as the repository stores it; `None` is a Java `null`. */
  datatype Dataset = Dataset(
    id: Option<string>,
    name: string,
    measure0: Option<int>,
    measure1: Option<int>,
    dimensions: seq<int>,
    objectCount: int,
    hasHeader: bool,
    headers: Option<seq<string>>)

  /** A categorical column of the index schema with the non-null values
      the engine has seen in it while indexing. */
  datatype CategoricalColumn = CategoricalColumn(index: int, nonNullValues: seq<string>)

  datatype Schema = Schema(
    file: string,
    measureCol0: Option<int>,
    measureCol1: Option<int>,
    categoricalColumns: seq<CategoricalColumn>,
    hasHeader: bool,
    objectCount: int)

  /** The state of one index that the service reads. */
  datatype Index = Index(
    schema: Schema,
    initialized: bool,
    objectsIndexed: int,
    leafTileCount: int,
    destroyed: bool)

  /** The registry, keyed by dataset id (a Java `HashMap`, which admits a
      `null` key). */
  type Registry = map<Option<string>, Index>

  /** The schema built for a dataset the first time it is queried. */
  function SchemaOf(d: Dataset): Schema {
    Schema(d.name, d.measure0, d.measure1,
           seq(|d.dimensions|, i requires 0 <= i < |d.dimensions| => CategoricalColumn(d.dimensions[i], [])),
           d.hasHeader, d.objectCount)
  }

  /** A freshly created index: nothing indexed yet. */
  function NewIndex(d: Dataset): (x: Index)
    ensures !x.initialized && x.objectsIndexed == 0 && !x.destroyed
  {
    Index(SchemaOf(d), false, 0, 0, false)
  }

  /** The cached index of the dataset, or a new one that is stored under
      the dataset's id. */
  function GetIndex(reg: Registry, d: Dataset): (r: (Index, Registry))
    ensures d.id in reg ==> r == (reg[d.id], reg)
    ensures d.id !in reg ==> r.0 == NewIndex(d)
    ensures r.1 == reg[d.id := r.0]
  {
    if d.id in reg then (reg[d.id], reg)
    else
      var x := NewIndex(d);
      (x, reg[d.id := x])
  }

  /** A second lookup finds the index the first one returned and leaves
      the registry as the first one left it. */
  lemma GetIndexIdempotent(reg: Registry, d: Dataset)
    ensures GetIndex(GetIndex(reg, d).1, d) == GetIndex(reg, d)
  {
  }

  /** Lookup-or-create never drops or replaces another dataset's index. */
  lemma GetIndexKeepsOthers(reg: Registry, d: Dataset, k: Option<string>)
    requires k in reg
    ensures k in GetIndex(reg, d).1 && GetIndex(reg, d).1[k] == reg[k]
  {
  }

  /** Forgets the dataset's index; the next query builds a new one. */
  function RemoveIndex(reg: Registry, d: Dataset): (r: Registry)
    ensures r.Keys == reg.Keys - {d.id}
    ensures forall k :: k in r ==> r[k] == reg[k]
  {
    reg - {d.id}
  }

  /** Destroys the dataset's index if there is one, but keeps it in the
      registry. */
  function DestroyIndex(reg: Registry, d: Dataset): (r: Registry)
    ensures r.Keys == reg.Keys
    ensures d.id in reg ==> r[d.id] == reg[d.id].(destroyed := true)
    ensures forall k :: k in r && k != d.id ==> r[k] == reg[k]
  {
    if d.id in reg then reg[d.id := reg[d.id].(destroyed := true)] else reg
  }

  /** Objects indexed so far; 0 when the dataset has no index. */
  function GetObjectsIndexed(reg: Registry, id: string): (n: int)
    ensures Some(id) !in reg ==> n == 0
    ensures Some(id) in reg ==> n == reg[Some(id)].objectsIndexed
  {
    if Some(id) in reg then reg[Some(id)].objectsIndexed else 0
  }

  /** Whether the dataset's index exists and is initialised. */
  function IsIndexInitialized(reg: Registry, id: string): (b: bool)
    ensures b <==> Some(id) in reg && reg[Some(id)].initialized
  {
    Some(id) in reg && reg[Some(id)].initialized
  }

  /** After a removal the status queries report the defaults, and the next
      lookup creates a fresh index. */
  lemma RemovedIndexReportsDefaults(reg: Registry, d: Dataset, id: string)
    requires d.id == Some(id)
    ensures !IsIndexInitialized(RemoveIndex(reg, d), id)
    ensures GetObjectsIndexed(RemoveIndex(reg, d), id) == 0
    ensures GetIndex(RemoveIndex(reg, d), d).0 == NewIndex(d)
  {
  }

  /** A destroyed index stays cached: the next lookup returns it, destroyed,
      instead of building a new one. */
  lemma DestroyedIndexStillServed(reg: Registry, d: Dataset)
    requires d.id in reg
    ensures GetIndex(DestroyIndex(reg, d), d).0.destroyed
    ensures GetIndex(DestroyIndex(reg, d), d).0 != NewIndex(d)
  {
  }

  /** `getObject`: the raw row of one object, read by the engine from the
      dataset's (possibly just created) index. The engine answers the row,
      no row (null), or an I/O failure, which the service rethrows as a
      `RuntimeException`. The lookup has registered the index either way. */
  function GetObject(reg: Registry, d: Dataset, objectId: int,
                     read: (Index, int) -> Result<Option<seq<string>>>)
    : (r: (Result<Option<seq<string>>>, Registry))
    ensures r.1 == GetIndex(reg, d).1
    ensures r.0.Err? <==> read(GetIndex(reg, d).0, objectId).Err?
    ensures r.0.Err? ==> r.0.error == "RuntimeException"
    ensures r.0.Ok? ==> r.0.value == read(GetIndex(reg, d).0, objectId).value
  {
    var (x, reg') := GetIndex(reg, d);
    match read(x, objectId)
    case Err(_) => (Err("RuntimeException"), reg')
    case Ok(row) => (Ok(row), reg')
  }

  // ---------------------------------------------------------------------
  // Query responses

  /** A point as the engine returns it. */
  datatype EnginePoint = EnginePoint(x: real, y: real, measureCols: seq<int>,
                                     values: seq<real>, fileOffset: int, digital: bool)

  /** Paired samples of the two measures over one group. */
  datatype Paired = Paired(xs: seq<real>, ys: seq<real>)

  /** The engine's statistics: the paired samples over the rectangle, the
      sample of the first measure, and per-group samples. Entry lists keep
      the engine's iteration order. */
  datatype EngineStats = EngineStats(
    rectStats: seq<(real, real)>,
    singleRectStats: seq<real>,
    singleStats: seq<(string, seq<real>)>,
    groupStats: seq<(string, Paired)>)

  datatype QueryResults = QueryResults(
    fullyContainedTileCount: int,
    ioCount: int,
    tileCount: int,
    points: Option<seq<EnginePoint>>,
    timeSeries: Option<seq<VisState.TimeSeries>>,
    stats: Option<EngineStats>)

  datatype VisQuery = VisQuery(measureCol: Option<int>, aggType: string)

  /** One entry of a grouped series: the group key and the aggregate of
      type `aggType` over `sample`. */
  datatype Grouped = Grouped(key: string, aggType: string, sample: seq<real>)

  /** The response body. `rectStats` carries the paired samples its
      summary is computed from. */
  datatype VisResults = VisResults(
    fullyContainedTileCount: int,
    ioCount: int,
    pointCount: int,
    tileCount: int,
    totalPointCount: int,
    totalTileCount: int,
    timeSeries: Option<seq<VisState.TimeSeries>>,
    rectStats: Option<seq<(real, real)>>,
    singleStats: Option<SingleRect.SingleRectStats>,
    otherSeries: Option<seq<Grouped>>,
    series: Option<seq<Grouped>>,
    points: seq<VisState.PointTuple>,
    facets: map<int, seq<string>>)

  /** The tuple `[y, x, measureCols, values, fileOffset, isDigital]`. */
  function TupleOf(p: EnginePoint): VisState.PointTuple {
    VisState.PointTuple(p.y, p.x, p.measureCols, p.values, p.fileOffset, p.digital)
  }

  function Tuples(ps: seq<EnginePoint>): (ts: seq<VisState.PointTuple>)
    ensures |ts| == |ps|
    ensures forall i :: 0 <= i < |ps| ==> ts[i] == TupleOf(ps[i])
  {
    seq(|ps|, i requires 0 <= i < |ps| => TupleOf(ps[i]))
  }

  /** The tuple order the server writes is the order the client reads: the
      map feature of a point sits at the engine's `(x, y)` and keeps every
      other component. */
  lemma TupleOrderAgreesWithClient(p: EnginePoint)
    ensures ClusterFeatures.PointFeature(TupleOf(p)).lon == p.x
    ensures ClusterFeatures.PointFeature(TupleOf(p)).lat == p.y
    ensures ClusterFeatures.PointFeature(TupleOf(p)).props.digital == p.digital
    ensures TupleOf(p).measureCols == p.measureCols && TupleOf(p).values == p.values
    ensures TupleOf(p).fileOffset == p.fileOffset
  {
  }

  /** Ungrouped aggregates, one per engine entry. */
  function OtherSeries(entries: seq<(string, seq<real>)>, q: VisQuery): (r: seq<Grouped>)
    ensures |r| == |entries|
    ensures forall i :: 0 <= i < |entries| ==>
      r[i].key == entries[i].0 && r[i].aggType == q.aggType && r[i].sample == entries[i].1
  {
    seq(|entries|, i requires 0 <= i < |entries| => Grouped(entries[i].0, q.aggType, entries[i].1))
  }

  /** Grouped aggregates. Each group's first-measure sample is used when
      the query's measure is the schema's first measure and the second
      otherwise; comparing a `null` query measure throws, which happens as
      soon as there is one group. */
  function Series(entries: seq<(string, Paired)>, q: VisQuery, schema: Schema): (r: Result<seq<Grouped>>)
    ensures r.Err? <==> |entries| > 0 && q.measureCol.None?
    ensures r.Ok? ==> |r.value| == |entries|
    ensures r.Ok? ==> forall i :: 0 <= i < |entries| ==>
      r.value[i].key == entries[i].0 && r.value[i].aggType == q.aggType &&
      r.value[i].sample == (if q.measureCol == schema.measureCol0 then entries[i].1.xs else entries[i].1.ys)
  {
    if |entries| == 0 then Ok([])
    else if q.measureCol.None? then Err("NullPointerException")
    else
      var first := q.measureCol == schema.measureCol0;
      Ok(seq(|entries|, i requires 0 <= i < |entries| =>
        Grouped(entries[i].0, q.aggType, if first then entries[i].1.xs else entries[i].1.ys)))
  }

  /** The column indexes of a schema's categorical columns. */
  function Indexes(cols: seq<CategoricalColumn>): (ks: seq<int>)
    ensures |ks| == |cols|
    ensures forall i :: 0 <= i < |cols| ==> ks[i] == cols[i].index
  {
    seq(|cols|, i requires 0 <= i < |cols| => cols[i].index)
  }

  predicate Distinct(ks: seq<int>) {
    forall i, j :: 0 <= i < j < |ks| ==> ks[i] != ks[j]
  }

  /** The facets map from column index to non-null values. Collecting into
      a map throws on a repeated key. */
  function Facets(cols: seq<CategoricalColumn>): (r: Result<map<int, seq<string>>>)
    ensures r.Err? <==> !Distinct(Indexes(cols))
    ensures r.Ok? ==> r.value.Keys == set i | 0 <= i < |cols| :: cols[i].index
    ensures r.Ok? ==> forall i :: 0 <= i < |cols| ==> r.value[cols[i].index] == cols[i].nonNullValues
    decreases |cols|
  {
    if |cols| == 0 then Ok(map[])
    else
      var rest := Facets(cols[1..]);
      var c := cols[0];
      if rest.Err? then
        assert !Distinct(Indexes(cols)) by {
          var i, j :| 0 <= i < j < |cols| - 1 && cols[1..][i].index == cols[1..][j].index;
          assert Indexes(cols)[i + 1] == Indexes(cols)[j + 1];
        }
        rest
      else if c.index in rest.value then
        assert !Distinct(Indexes(cols)) by {
          var j :| 0 <= j < |cols| - 1 && cols[1..][j].index == c.index;
          assert Indexes(cols)[0] == Indexes(cols)[j + 1];
        }
        Err("IllegalStateException")
      else
        assert Distinct(Indexes(cols)) by {
          forall i, j | 0 <= i < j < |cols|
            ensures Indexes(cols)[i] != Indexes(cols)[j]
          {
            if i == 0 {
              assert cols[j] == cols[1..][j - 1];
            } else {
              assert Distinct(Indexes(cols[1..]));
              assert Indexes(cols[1..])[i - 1] != Indexes(cols[1..])[j - 1];
            }
          }
        }
        Ok(rest.value[c.index := c.nonNullValues])
  }

  /** The counters, time series and statistics the response copies from the
      engine's results and the index; points and facets are added by the
      caller. */
  function Assemble(x: Index, q: VisQuery, res: QueryResults, pointCount: int,
                    sqrt: real -> real): (r: Result<VisResults>)
    ensures r.Ok? ==> r.value.pointCount == pointCount
    ensures r.Ok? ==> r.value.totalPointCount == x.objectsIndexed
    ensures r.Ok? ==> r.value.totalTileCount == x.leafTileCount
    ensures r.Ok? ==> r.value.tileCount == res.tileCount && r.value.ioCount == res.ioCount
    ensures r.Ok? ==> r.value.fullyContainedTileCount == res.fullyContainedTileCount
    ensures r.Ok? ==> r.value.timeSeries == res.timeSeries
    ensures res.stats.None? ==>
      (r.Ok? && r.value.rectStats.None? && r.value.singleStats.None? &&
       r.value.series.None? && r.value.otherSeries.None?)
    ensures res.stats.Some? ==> (r.Err? <==> Series(res.stats.value.groupStats, q, x.schema).Err?)
    ensures res.stats.Some? && r.Ok? ==>
      var st := res.stats.value;
      r.value.rectStats == Some(st.rectStats) &&
      r.value.singleStats == Some(SingleRect.FromStats(st.singleRectStats, sqrt)) &&
      r.value.otherSeries == Some(OtherSeries(st.singleStats, q)) &&
      r.value.series == Some(Series(st.groupStats, q, x.schema).value)
  {
    var base := VisResults(res.fullyContainedTileCount, res.ioCount, pointCount, res.tileCount,
                           x.objectsIndexed, x.leafTileCount, res.timeSeries,
                           None, None, None, None, [], map[]);
    if res.stats.None? then Ok(base)
    else
      var st := res.stats.value;
      var series := Series(st.groupStats, q, x.schema);
      if series.Err? then Err(series.error)
      else Ok(base.(rectStats := Some(st.rectStats),
                    singleStats := Some(SingleRect.FromStats(st.singleRectStats, sqrt)),
                    otherSeries := Some(OtherSeries(st.singleStats, q)),
                    series := Some(series.value)))
  }

  /** `executeQuery` as written: the point count is read from the engine's
      point list before the list is checked for `null`, so a response
      without points throws. An engine failure (its `IOException` or
      `ClassNotFoundException`) is rethrown as a `RuntimeException`. */
  function ExecuteQueryAsWritten(reg: Registry, d: Dataset, q: VisQuery,
                                 engine: Index -> Result<QueryResults>,
                                 sqrt: real -> real): (r: (Result<VisResults>, Registry))
    ensures r.1 == GetIndex(reg, d).1
    ensures engine(GetIndex(reg, d).0).Err? ==> r.0 == Err("RuntimeException")
    ensures engine(GetIndex(reg, d).0).Ok? && engine(GetIndex(reg, d).0).value.points.None? ==>
              r.0 == Err("NullPointerException")
  {
    var (x, reg') := GetIndex(reg, d);
    var res := engine(x);
    if res.Err? then (Err("RuntimeException"), reg')
    else if res.value.points.None? then (Err("NullPointerException"), reg')
    else (ExecuteWith(x, q, res.value, |res.value.points.value|, sqrt), reg')
  }

  /** The engine returns no point list for a query that does not ask for
      points, and the service as written then fails the whole query. */
  lemma MissingPointsFailQuery(reg: Registry, d: Dataset, q: VisQuery, sqrt: real -> real)
    ensures ExecuteQueryAsWritten(reg, d, q,
      x => Ok(QueryResults(0, 0, 0, None, None, None)), sqrt).0.Err?
    ensures ExecuteQuery(reg, d, q,
      x => Ok(QueryResults(0, 0, 0, None, None, None)), sqrt).0.Ok? <==>
      Distinct(Indexes(GetIndex(reg, d).0.schema.categoricalColumns))
  {
  }

  /** The rest of the response once the point count is known. */
  function ExecuteWith(x: Index, q: VisQuery, res: QueryResults, pointCount: int,
                       sqrt: real -> real): (r: Result<VisResults>)
    ensures r.Ok? ==> r.value.pointCount == pointCount
    ensures r.Ok? ==> r.value.points == Tuples(if res.points.Some? then res.points.value else [])
    ensures r.Ok? ==> Facets(x.schema.categoricalColumns) == Ok(r.value.facets)
    ensures r.Err? <==> Assemble(x, q, res, pointCount, sqrt).Err? ||
                        Facets(x.schema.categoricalColumns).Err?
  {
    var base := Assemble(x, q, res, pointCount, sqrt);
    if base.Err? then base
    else
      var points := if res.points.Some? then res.points.value else [];
      var facets := Facets(x.schema.categoricalColumns);
      if facets.Err? then Err(facets.error)
      else Ok(base.value.(points := Tuples(points), facets := facets.value))
  }

  /** `executeQuery` with the point count taken from the list it already
      replaces by an empty one when absent. An engine failure is rethrown
      as a `RuntimeException`. */
  function ExecuteQuery(reg: Registry, d: Dataset, q: VisQuery,
                        engine: Index -> Result<QueryResults>,
                        sqrt: real -> real): (r: (Result<VisResults>, Registry))
    ensures r.1 == GetIndex(reg, d).1
    ensures engine(GetIndex(reg, d).0).Err? ==> r.0 == Err("RuntimeException")
    ensures r.0.Ok? ==> engine(GetIndex(reg, d).0).Ok?
    ensures r.0.Ok? ==> r.0.value.pointCount == |r.0.value.points|
    ensures r.0.Ok? ==> r.0.value.totalPointCount == GetIndex(reg, d).0.objectsIndexed
    ensures r.0.Ok? && engine(GetIndex(reg, d).0).value.points.None? ==> r.0.value.points == []
  {
    var (x, reg') := GetIndex(reg, d);
    var res := engine(x);
    if res.Err? then (Err("RuntimeException"), reg')
    else
      var points := if res.value.points.Some? then res.value.points.value else [];
      (ExecuteWith(x, q, res.value, |points|, sqrt), reg')
  }

  /** Whenever the engine fails or does return a point list, the two
      versions agree. */
  lemma ExecuteQueryAgreesWithPoints(reg: Registry, d: Dataset, q: VisQuery,
                                     engine: Index -> Result<QueryResults>, sqrt: real -> real)
    requires var res := engine(GetIndex(reg, d).0); res.Err? || res.value.points.Some?
    ensures ExecuteQueryAsWritten(reg, d, q, engine, sqrt) == ExecuteQuery(reg, d, q, engine, sqrt)
  {
  }
}

=== FILE: read_arguments.dfy ===
/** Command-line helpers of the training scripts (`read_arguments.py`):
    the tuple argument type and the split of parsed arguments into groups.
    The parser itself is left out; its parsed arguments are an input. */
module ReadArguments {
  import opened Wrappers
  import Text

  predicate IsParen(c: char) {
    c == '(' || c == ')'
  }

  /** `s` with every '(' and ')' removed, the other characters kept in
      order. */
  function RemoveParens(s: string): (r: string)
    ensures forall k :: 0 <= k < |r| ==> !IsParen(r[k])
    ensures |r| <= |s|
    decreases |s|
  {
    if |s| == 0 then ""
    else (if IsParen(s[0]) then "" else [s[0]]) + RemoveParens(s[1..])
  }

  /** Removing parentheses changes nothing in a string without any. */
  lemma {:induction false} RemoveParensFree(s: string)
    requires forall k :: 0 <= k < |s| ==> !IsParen(s[k])
    ensures RemoveParens(s) == s
    decreases |s|
  {
    if |s| > 0 {
      RemoveParensFree(s[1..]);
      assert [s[0]] + s[1..] == s;
    }
  }

  /** Removing parentheses distributes over concatenation. */
  lemma {:induction false} RemoveParensAppend(a: string, b: string)
    ensures RemoveParens(a + b) == RemoveParens(a) + RemoveParens(b)
    decreases |a|
  {
    if |a| > 0 {
      RemoveParensAppend(a[1..], b);
      assert (a + b)[1..] == a[1..] + b;
    } else {
      assert a + b == b;
    }
  }

  /** Every piece is an integer as `int` reads it. */
  predicate AllIntegers(pieces: seq<string>) {
    forall i :: 0 <= i < |pieces| ==> Text.ParseInt(pieces[i]).Ok?
  }

  /** Parses every piece, failing on the first that is not an integer. */
  function ParseAll(pieces: seq<string>): (r: Result<seq<int>>)
    ensures r.Ok? <==> AllIntegers(pieces)
    ensures r.Ok? ==> (
      |r.value| == |pieces| &&
      forall i :: 0 <= i < |pieces| ==> r.value[i] == Text.ParseInt(pieces[i]).value)
    decreases |pieces|
  {
    if |pieces| == 0 then Ok([])
    else
      var head := Text.ParseInt(pieces[0]);
      var rest := ParseAll(pieces[1..]);
      assert forall i :: 1 <= i < |pieces| ==> pieces[i] == pieces[1..][i - 1];
      if head.Err? then Err(head.error)
      else if rest.Err? then Err(rest.error)
      else Ok([head.value] + rest.value)
  }

  /** `tuple_type(strings)`: the parentheses are dropped, the rest is split
      on commas and every piece read with `int`. */
  function TupleType(s: string): (r: Result<seq<int>>)
    ensures r.Ok? ==> |r.value| == Text.CountChar(RemoveParens(s), ',') + 1
    ensures r.Ok? <==> AllIntegers(Text.Split(RemoveParens(s), ","))
  {
    var pieces := Text.Split(RemoveParens(s), ",");
    Text.SplitCount(RemoveParens(s), ',');
    ParseAll(pieces)
  }

  /** An empty piece, as in "()" or "1,,2", is not an integer. */
  lemma EmptyPieceRejected(s: string, i: int)
    requires 0 <= i < |Text.Split(RemoveParens(s), ",")| && Text.Split(RemoveParens(s), ",")[i] == ""
    ensures TupleType(s).Err?
  {
    assert Text.Strip("") == "";
  }

  lemma EmptyTupleRejected()
    ensures TupleType("()").Err?
  {
    assert RemoveParens("()") == "";
    assert Text.Split("", ",") == [""];
    EmptyPieceRejected("()", 0);
  }

  /** The text Python shows for a tuple of integers, e.g. "(1, 2)" without
      the blanks: "(1,2)". */
  function Render(xs: seq<int>): (s: string)
    requires |xs| >= 1
  {
    "(" + Text.Join(seq(|xs|, i requires 0 <= i < |xs| => Text.IntToString(xs[i])), ",") + ")"
  }

  /** A rendered integer holds neither a comma nor a parenthesis. */
  lemma IntTextPlain(n: int)
    ensures Text.FreeOf(Text.IntToString(n), ",")
    ensures forall k :: 0 <= k < |Text.IntToString(n)| ==> !IsParen(Text.IntToString(n)[k])
  {
    var d := Text.NatToString(if n < 0 then -n else n);
    assert forall k :: 0 <= k < |d| ==> Text.IsDigit(d[k]);
    if n < 0 {
      assert forall k :: 1 <= k < |Text.IntToString(n)| ==> Text.IntToString(n)[k] == d[k - 1];
    }
  }

  /** Joined pieces without parentheses have none. */
  lemma {:induction false} JoinFreeOfParens(parts: seq<string>)
    requires |parts| >= 1
    requires forall i, k :: 0 <= i < |parts| && 0 <= k < |parts[i]| ==> !IsParen(parts[i][k])
    ensures forall k :: 0 <= k < |Text.Join(parts, ",")| ==> !IsParen(Text.Join(parts, ",")[k])
    decreases |parts|
  {
    if |parts| > 1 {
      JoinFreeOfParens(parts[1..]);
      var rest := Text.Join(parts[1..], ",");
      var j := Text.Join(parts, ",");
      assert j == parts[0] + "," + rest;
      forall k | 0 <= k < |j|
        ensures !IsParen(j[k])
      {
        if k < |parts[0]| {
        } else if k == |parts[0]| {
        } else {
          assert j[k] == rest[k - |parts[0]| - 1];
        }
      }
    }
  }

  /** Every non-empty tuple of integers is read back from its rendering. */
  lemma TupleTypeRender(xs: seq<int>)
    requires |xs| >= 1
    ensures TupleType(Render(xs)) == Ok(xs)
  {
    var parts := seq(|xs|, i requires 0 <= i < |xs| => Text.IntToString(xs[i]));
    forall i | 0 <= i < |xs|
      ensures Text.FreeOf(parts[i], ",")
      ensures forall k :: 0 <= k < |parts[i]| ==> !IsParen(parts[i][k])
    {
      IntTextPlain(xs[i]);
    }
    var j := Text.Join(parts, ",");
    JoinFreeOfParens(parts);
    RemoveParensAppend("(", j + ")");
    RemoveParensAppend(j, ")");
    RemoveParensFree(j);
    assert "(" + j + ")" == "(" + (j + ")");
    assert RemoveParens(Render(xs)) == j;
    Text.SplitJoin(parts, ",");
    forall i | 0 <= i < |xs|
      ensures Text.ParseInt(parts[i]) == Ok(xs[i])
    {
      Text.ParseIntToString(xs[i]);
    }
    var r := ParseAll(parts);
    assert r.Ok? && |r.value| == |xs|;
    assert r.value == xs;
  }

  /** `create_group_dictionary`: of the parsed arguments, those not already
      in the current dictionary form the new group; the full arguments are
      returned alongside. */
  function CreateGroupDictionary<V, W>(current: map<string, W>, args: map<string, V>)
    : (r: (map<string, V>, map<string, V>))
    ensures r.1 == args
    ensures r.0.Keys !! current.Keys
    ensures forall k :: k in r.0 ==> k in args && r.0[k] == args[k]
    ensures forall k :: k in args ==> k in r.0 || k in current
  {
    (map k | k in args && k !in current :: args[k], args)
  }

  /** The scripts call it twice on a growing parser: first with no current
      keys, then with the first call's full arguments as current while the
      parser has gained more options. The first group is all of the first
      arguments; the second is exactly the options added since, with their
      values; the two groups are disjoint and together cover every key of
      the second parse. */
  lemma GroupsPartition<V>(args1: map<string, V>, args2: map<string, V>)
    requires args1.Keys <= args2.Keys
    ensures var (g1, current) := CreateGroupDictionary<V, V>(map[], args1);
      var (g2, all) := CreateGroupDictionary(current, args2);
      && g1 == args1 && current == args1 && all == args2
      && g2 == (map k | k in args2.Keys - args1.Keys :: args2[k])
      && g1.Keys !! g2.Keys
      && g1.Keys + g2.Keys == args2.Keys
  {
    var (g1, current) := CreateGroupDictionary<V, V>(map[], args1);
    assert g1 == args1;
    var (g2, all) := CreateGroupDictionary(current, args2);
    assert g2.Keys == args2.Keys - args1.Keys;
  }
}

=== FILE: single_rect_stats.dfy ===
/** Summary statistics of the values of one measure inside the selected
    rectangle (`SingleRectStats`), built from a statistics snapshot of the
    sample. The snapshot is modelled by the sample itself, and its
    aggregates are defined here as the snapshot library defines them:
    arithmetic mean, minimum, maximum and population variance. */
module SingleRect {
  import opened Wrappers

  /** The record sent to the client; `None` is a Java `null`. */
  datatype SingleRectStats = SingleRectStats(
    count: int,
    mean: Option<real>,
    min: Option<real>,
    max: Option<real>,
    variance: Option<real>,
    standardDeviation: Option<real>)

  function Sum(xs: seq<real>): real
    decreases |xs|
  {
    if |xs| == 0 then 0.0 else Sum(xs[..|xs| - 1]) + xs[|xs| - 1]
  }

  function Minimum(xs: seq<real>): real
    requires |xs| > 0
    decreases |xs|
  {
    if |xs| == 1 then xs[0]
    else
      var m := Minimum(xs[..|xs| - 1]);
      if xs[|xs| - 1] < m then xs[|xs| - 1] else m
  }

  function Maximum(xs: seq<real>): real
    requires |xs| > 0
    decreases |xs|
  {
    if |xs| == 1 then xs[0]
    else
      var m := Maximum(xs[..|xs| - 1]);
      if xs[|xs| - 1] > m then xs[|xs| - 1] else m
  }

  /** The snapshot's mean; undefined (an exception) on an empty sample. */
  function Mean(xs: seq<real>): real
    requires |xs| > 0
  {
    Sum(xs) / (|xs| as real)
  }

  /** Sum of squared deviations from `m`. */
  function SquaredDeviations(xs: seq<real>, m: real): real
    decreases |xs|
  {
    if |xs| == 0 then 0.0
    else SquaredDeviations(xs[..|xs| - 1], m) + (xs[|xs| - 1] - m) * (xs[|xs| - 1] - m)
  }

  /** Variance with divisor `n` (not `n - 1`). */
  function PopulationVariance(xs: seq<real>): real
    requires |xs| > 0
  {
    SquaredDeviations(xs, Mean(xs)) / (|xs| as real)
  }

  /** The minimum is a member of the sample and no member is smaller. */
  lemma {:induction false} MinimumIsLeast(xs: seq<real>)
    requires |xs| > 0
    ensures Minimum(xs) in xs
    ensures forall i :: 0 <= i < |xs| ==> Minimum(xs) <= xs[i]
    decreases |xs|
  {
    if |xs| > 1 {
      MinimumIsLeast(xs[..|xs| - 1]);
      assert forall i :: 0 <= i < |xs| - 1 ==> xs[..|xs| - 1][i] == xs[i];
    }
  }

  /** The maximum is a member of the sample and no member is larger. */
  lemma {:induction false} MaximumIsGreatest(xs: seq<real>)
    requires |xs| > 0
    ensures Maximum(xs) in xs
    ensures forall i :: 0 <= i < |xs| ==> xs[i] <= Maximum(xs)
    decreases |xs|
  {
    if |xs| > 1 {
      MaximumIsGreatest(xs[..|xs| - 1]);
      assert forall i :: 0 <= i < |xs| - 1 ==> xs[..|xs| - 1][i] == xs[i];
    }
  }

  /** A sum of `n` values lies between `n` times any lower bound and `n`
      times any upper bound. */
  lemma {:induction false} SumBounds(xs: seq<real>, lo: real, hi: real)
    requires forall i :: 0 <= i < |xs| ==> lo <= xs[i] <= hi
    ensures (|xs| as real) * lo <= Sum(xs) <= (|xs| as real) * hi
    decreases |xs|
  {
    if |xs| > 0 {
      var init := xs[..|xs| - 1];
      assert forall i :: 0 <= i < |init| ==> init[i] == xs[i];
      SumBounds(init, lo, hi);
    }
  }

  lemma {:induction false} SquaredDeviationsNonNegative(xs: seq<real>, m: real)
    ensures SquaredDeviations(xs, m) >= 0.0
    decreases |xs|
  {
    if |xs| > 0 {
      SquaredDeviationsNonNegative(xs[..|xs| - 1], m);
      var d := xs[|xs| - 1] - m;
      assert d * d >= 0.0;
    }
  }

  /** Dividing the bounds of a sum of `n` values by `n`. */
  lemma DivideBounds(n: real, lo: real, s: real, hi: real)
    requires n > 0.0 && n * lo <= s <= n * hi
    ensures lo <= s / n <= hi
  {
    assert s / n - lo == (s - n * lo) / n;
    assert hi - s / n == (n * hi - s) / n;
  }

  /** The mean lies between the minimum and the maximum. */
  lemma MeanBetweenExtremes(xs: seq<real>)
    requires |xs| > 0
    ensures Minimum(xs) <= Mean(xs) <= Maximum(xs)
  {
    SumWithinExtremes(xs);
    DivideBounds(|xs| as real, Minimum(xs), Sum(xs), Maximum(xs));
  }

  /** A sample's sum lies between its size times its minimum and its size
      times its maximum. */
  lemma SumWithinExtremes(xs: seq<real>)
    requires |xs| > 0
    ensures (|xs| as real) * Minimum(xs) <= Sum(xs) <= (|xs| as real) * Maximum(xs)
  {
    MinimumIsLeast(xs);
    MaximumIsGreatest(xs);
    SumBounds(xs, Minimum(xs), Maximum(xs));
  }

  /** The constructor. `count` is always copied. The five aggregates are
      read only for a non-empty sample (the snapshot throws otherwise) and
      stay `null` for an empty one. The standard deviation is the square
      root of the population variance; `sqrt` is the platform's square root. */
  function FromStats(xs: seq<real>, sqrt: real -> real): (r: SingleRectStats)
    ensures r.count == |xs|
    ensures |xs| == 0 <==> r.mean.None?
    ensures |xs| == 0 ==>
      r.mean.None? && r.min.None? && r.max.None? && r.variance.None? && r.standardDeviation.None?
    ensures |xs| != 0 ==>
      r.mean.Some? && r.min.Some? && r.max.Some? && r.variance.Some? && r.standardDeviation.Some?
    ensures |xs| != 0 ==> r.min.value in xs && r.max.value in xs
    ensures |xs| != 0 ==> forall i :: 0 <= i < |xs| ==> r.min.value <= xs[i] <= r.max.value
    ensures |xs| != 0 ==> r.min.value <= r.mean.value <= r.max.value
    ensures |xs| != 0 ==> r.mean.value * (|xs| as real) == Sum(xs)
    ensures |xs| != 0 ==> r.variance.value >= 0.0
    ensures |xs| != 0 ==> r.standardDeviation == Some(sqrt(r.variance.value))
  {
    if |xs| == 0 then SingleRectStats(0, None, None, None, None, None)
    else
      MinimumIsLeast(xs);
      MaximumIsGreatest(xs);
      MeanBetweenExtremes(xs);
      SquaredDeviationsNonNegative(xs, Mean(xs));
      var v := PopulationVariance(xs);
      SingleRectStats(|xs|, Some(Mean(xs)), Some(Minimum(xs)), Some(Maximum(xs)), Some(v), Some(sqrt(v)))
  }

  /** The five nullable fields, each with a getter and a setter. */
  datatype Field = MeanField | MinField | MaxField | VarianceField | StandardDeviationField

  function Get(r: SingleRectStats, f: Field): Option<real> {
    match f
    case MeanField => r.mean
    case MinField => r.min
    case MaxField => r.max
    case VarianceField => r.variance
    case StandardDeviationField => r.standardDeviation
  }

  /** A setter replaces its own field and nothing else. */
  function Set(r: SingleRectStats, f: Field, v: Option<real>): (t: SingleRectStats)
    ensures Get(t, f) == v
    ensures forall g :: g != f ==> Get(t, g) == Get(r, g)
    ensures t.count == r.count
  {
    match f
    case MeanField => r.(mean := v)
    case MinField => r.(min := v)
    case MaxField => r.(max := v)
    case VarianceField => r.(variance := v)
    case StandardDeviationField => r.(standardDeviation := v)
  }

  /** `setCount` replaces the count and nothing else. */
  function SetCount(r: SingleRectStats, n: int): (t: SingleRectStats)
    ensures t.count == n
    ensures forall g :: Get(t, g) == Get(r, g)
  {
    r.(count := n)
  }

  /** Setting a field back to the value read from it changes nothing, and
      the last of two writes to one field wins. */
  lemma SetGetLaws(r: SingleRectStats, f: Field, v: Option<real>, w: Option<real>)
    ensures Set(r, f, Get(r, f)) == r
    ensures Set(Set(r, f, v), f, w) == Set(r, f, w)
  {
  }
}

=== FILE: stats_panel.dfy ===
/** The statistics panel: which statistic each measure reads, how a value
    is shown, and the map-type and measure controls. */
module StatsPanel {
  import opened Wrappers
  import opened Text
  import opened VisState
  import opened VisReducer

  /** A shown statistic: "N/A" for `null`, else the number (its two-decimal
      formatting is not modelled). */
  datatype StatText = NotAvailable | Fixed(value: real)

  /** `formatStat` on a record lookup: a missing key is `undefined`, whose
      `toFixed` throws. */
  function FormatStat(v: Option<Option<real>>): (r: Result<StatText>)
    ensures r.Err? <==> v.None?
    ensures v == Some(None) ==> r == Ok(NotAvailable)
    ensures v.Some? && v.value.Some? ==> r == Ok(Fixed(v.value.value))
  {
    match v
    case None => Err("TypeError")
    case Some(None) => Ok(NotAvailable)
    case Some(Some(x)) => Ok(Fixed(x))
  }

  function Lookup(rec: StatRecord, key: string): (v: Option<Option<real>>)
    ensures v.Some? <==> key in rec
  {
    if key in rec then Some(rec[key]) else None
  }

  /** The record key measure `k` reads for statistic `stat`: the plain name
      for the single-measure statistics, else the name followed by `k - 1`. */
  function StatKey(stat: string, k: int): string {
    if k == 0 then stat else stat + IntToString(k - 1)
  }

  /** The value shown for statistic `stat` of measure `k`. Measure 0 reads
      the single-measure statistics, the others the rectangle statistics;
      missing single-measure statistics (`null`) make the lookup throw. */
  function ShownStat(single: Option<StatRecord>, rect: StatRecord, k: int, stat: string): (r: Result<StatText>)
    ensures k == 0 && single.None? ==> r.Err?
    ensures k == 0 && single.Some? ==> r == FormatStat(Lookup(single.value, stat))
    ensures k != 0 ==> r == FormatStat(Lookup(rect, StatKey(stat, k)))
  {
    if k == 0 then
      if single.None? then Err("TypeError") else FormatStat(Lookup(single.value, stat))
    else FormatStat(Lookup(rect, stat + IntToString(k - 1)))
  }

  /** Different measures read different keys of the rectangle statistics. */
  lemma StatKeysDistinct(stat: string, k1: int, k2: int)
    requires k1 != 0 && k2 != 0 && k1 != k2
    ensures StatKey(stat, k1) != StatKey(stat, k2)
  {
    var a := IntToString(k1 - 1);
    var b := IntToString(k2 - 1);
    IntToStringInjective(k1 - 1, k2 - 1);
    assert (stat + a)[|stat|..] == a;
    assert (stat + b)[|stat|..] == b;
  }

  /** The first and second measures read the keys ending in 0 and 1. */
  lemma StatKeysOfMeasures(stat: string)
    ensures StatKey(stat, 1) == stat + "0" && StatKey(stat, 2) == stat + "1"
  {
  }

  /** A map-type button: the change is dispatched only when it differs from
      the panel's own map type, which always takes the new value. */
  function MapTypeChange(local: string, newType: string): (r: (Option<Action>, string))
    ensures r.0.Some? <==> newType != local
    ensures r.0.Some? ==> r.0.value == UpdateMapType(newType)
    ensures r.1 == newType
  {
    (if newType != local then Some(UpdateMapType(newType)) else None, newType)
  }

  /** When the store and the panel agree on the map type before a click,
      they agree after it. */
  lemma MapTypeStaysInSync(s: VisualizerState, newType: string, clk: Clock)
    ensures var (act, local) := MapTypeChange(s.mapType, newType);
      var t := if act.Some? then Reduce(s, act.value, clk).value else s;
      t.mapType == local
  {
  }

  /** A measure choice is always dispatched and stored locally. */
  function MeasureChange(k: int): (r: (Action, int))
    ensures r.0 == UpdateSelectedMeasure(k) && r.1 == k
  {
    (UpdateSelectedMeasure(k), k)
  }

  /** The store handles only the fulfilled form of the measure choice, so a
      choice leaves the store's selected measure as it was. */
  lemma MeasureChoiceLeavesStore(s: VisualizerState, k: int, clk: Clock)
    ensures Reduce(s, MeasureChange(k).0, clk) == Ok(s)
  {
    UnnamedActionsKeepState(s, MeasureChange(k).0, clk);
  }
}

=== FILE: supercluster.dfy ===
/** The callbacks `prepareSupercluster` hands to the clustering library: the
    per-point feature and the `reduce` merge of cluster properties. The
    spatial index itself is not modelled. */
module ClusterFeatures {
  import opened VisState

  /** The feature built for one point tuple: one point, its own digital
      flag, at `[lon, lat]` (tuple elements 1 and 0). */
  function PointFeature(p: PointTuple): Feature {
    Feature(ClusterProps(1, [p], p.digital), p.lon, p.lat)
  }

  function PointFeatures(ps: seq<PointTuple>): (fs: seq<Feature>)
    ensures |fs| == |ps|
    ensures forall i :: 0 <= i < |ps| ==> fs[i] == PointFeature(ps[i])
  {
    if ps == [] then [] else [PointFeature(ps[0])] + PointFeatures(ps[1..])
  }

  /** All points carried by some properties, in order. */
  function AllPoints(ps: seq<ClusterProps>): seq<PointTuple> {
    if ps == [] then [] else ps[0].points + AllPoints(ps[1..])
  }

  function TotalCount(ps: seq<ClusterProps>): int {
    if ps == [] then 0 else ps[0].totalCount + TotalCount(ps[1..])
  }

  function Props(fs: seq<Feature>): (ps: seq<ClusterProps>)
    ensures |ps| == |fs|
    ensures forall i :: 0 <= i < |fs| ==> ps[i] == fs[i].props
  {
    if fs == [] then [] else [fs[0].props] + Props(fs[1..])
  }

  /** Whether some point is digital (`points.some(p => p[5] === true)`). */
  predicate AnyDigital(ps: seq<PointTuple>) {
    exists i :: 0 <= i < |ps| && ps[i].digital
  }

  /** The point features hand the input points back, in order, and count
      one each. */
  lemma {:induction false} PointFeaturesCarryPoints(ps: seq<PointTuple>)
    ensures AllPoints(Props(PointFeatures(ps))) == ps
    ensures TotalCount(Props(PointFeatures(ps))) == |ps|
  {
    if ps != [] {
      PointFeaturesCarryPoints(ps[1..]);
      PropsOfPointFeatures(ps);
      var qs := Props(PointFeatures(ps));
      assert AllPoints(qs) == [ps[0]] + AllPoints(qs[1..]);
      assert ps == [ps[0]] + ps[1..];
    }
  }

  /** The properties of the point features, taken apart at the first one. */
  lemma PropsOfPointFeatures(ps: seq<PointTuple>)
    requires ps != []
    ensures Props(PointFeatures(ps))[0] == ClusterProps(1, [ps[0]], ps[0].digital)
    ensures Props(PointFeatures(ps))[1..] == Props(PointFeatures(ps[1..]))
  {
    var fs := PointFeatures(ps);
    assert fs[1..] == PointFeatures(ps[1..]);
  }

  /** The `reduce` callback as written: the digital flag is recomputed from
      the accumulated points before the new points are appended. */
  function Merge(acc: ClusterProps, p: ClusterProps): ClusterProps {
    ClusterProps(acc.totalCount + p.totalCount, acc.points + p.points, AnyDigital(acc.points))
  }

  /** The library folds `reduce` over a cluster's neighbours, starting from
      a copy of the first member's properties. */
  function MergeAll(first: ClusterProps, rest: seq<ClusterProps>): ClusterProps
    decreases |rest|
  {
    if rest == [] then first else Merge(MergeAll(first, rest[..|rest| - 1]), rest[|rest| - 1])
  }

  lemma {:induction false} AllPointsSnoc(ps: seq<ClusterProps>, p: ClusterProps)
    ensures AllPoints(ps + [p]) == AllPoints(ps) + p.points
    ensures TotalCount(ps + [p]) == TotalCount(ps) + p.totalCount
  {
    if ps == [] {
      assert ps + [p] == [p];
    } else {
      assert (ps + [p])[1..] == ps[1..] + [p];
      AllPointsSnoc(ps[1..], p);
    }
  }

  /** Merging adds the counts and concatenates the points in order. */
  lemma {:induction false} MergeAllCountsAndPoints(first: ClusterProps, rest: seq<ClusterProps>)
    ensures MergeAll(first, rest).totalCount == first.totalCount + TotalCount(rest)
    ensures MergeAll(first, rest).points == first.points + AllPoints(rest)
    decreases |rest|
  {
    if rest != [] {
      var init := rest[..|rest| - 1];
      MergeAllCountsAndPoints(first, init);
      AllPointsSnoc(init, rest[|rest| - 1]);
      assert init + [rest[|rest| - 1]] == rest;
    }
  }

  /** The merged flag looks at every point except those of the last
      neighbour merged. */
  lemma {:induction false} MergeAllDigitalAsWritten(first: ClusterProps, rest: seq<ClusterProps>)
    requires rest != []
    ensures MergeAll(first, rest).digital
        == AnyDigital(first.points + AllPoints(rest[..|rest| - 1]))
  {
    MergeAllCountsAndPoints(first, rest[..|rest| - 1]);
  }

  /** A cluster of a plain point and a digital point is not marked digital. */
  lemma MergeMissesLastDigital()
    ensures var plain := PointTuple(0.0, 0.0, [], [], 0, false);
      var star := PointTuple(0.0, 0.0, [], [], 1, true);
      var merged := MergeAll(PointFeature(plain).props, [PointFeature(star).props]);
      && !merged.digital && AnyDigital(merged.points)
  {
    var plain := PointTuple(0.0, 0.0, [], [], 0, false);
    var star := PointTuple(0.0, 0.0, [], [], 1, true);
    var merged := MergeAll(PointFeature(plain).props, [PointFeature(star).props]);
    assert merged.points == [plain, star];
    assert merged.points[1].digital;
  }

  /** Properties whose flag agrees with their points. */
  predicate FlagAgrees(p: ClusterProps) {
    p.digital == AnyDigital(p.points)
  }

  /** The merge with the flag taken over both sides. */
  function MergeFixed(acc: ClusterProps, p: ClusterProps): (m: ClusterProps)
    ensures m.totalCount == acc.totalCount + p.totalCount && m.points == acc.points + p.points
    ensures FlagAgrees(acc) && FlagAgrees(p) ==> FlagAgrees(m)
  {
    var m := ClusterProps(acc.totalCount + p.totalCount, acc.points + p.points, acc.digital || p.digital);
    assert FlagAgrees(acc) && FlagAgrees(p) ==> FlagAgrees(m) by {
      if FlagAgrees(acc) && FlagAgrees(p) {
        if acc.digital {
          var i :| 0 <= i < |acc.points| && acc.points[i].digital;
          assert m.points[i] == acc.points[i];
        } else if p.digital {
          var i :| 0 <= i < |p.points| && p.points[i].digital;
          assert m.points[|acc.points| + i] == p.points[i];
        } else {
          forall i | 0 <= i < |m.points| ensures !m.points[i].digital {
            if i < |acc.points| { assert m.points[i] == acc.points[i]; }
            else { assert m.points[i] == p.points[i - |acc.points|]; }
          }
        }
      }
    }
    m
  }

  function MergeAllFixed(first: ClusterProps, rest: seq<ClusterProps>): ClusterProps
    decreases |rest|
  {
    if rest == [] then first else MergeFixed(MergeAllFixed(first, rest[..|rest| - 1]), rest[|rest| - 1])
  }

  /** With the fixed merge, a cluster built from point features is digital
      exactly when one of its points is. */
  lemma {:induction false} MergeAllFixedFlagAgrees(first: ClusterProps, rest: seq<ClusterProps>)
    requires FlagAgrees(first)
    requires forall i :: 0 <= i < |rest| ==> FlagAgrees(rest[i])
    ensures FlagAgrees(MergeAllFixed(first, rest))
    decreases |rest|
  {
    if rest != [] {
      MergeAllFixedFlagAgrees(first, rest[..|rest| - 1]);
    }
  }

  /** Every point feature's flag agrees with its single point. */
  lemma PointFeatureFlagAgrees(p: PointTuple)
    ensures FlagAgrees(PointFeature(p).props)
  {
    assert PointFeature(p).props.points[0] == p;
  }
}

=== FILE: text.dfy ===
/** String helpers with the semantics of the host languages: `split` on a
    non-empty separator (identical in JavaScript, Java and Python), ASCII
    lower-casing, substring search, and decimal rendering and parsing of
    integers. */
module Text {
  import opened Wrappers

  /** Pieces of `s` between the leftmost non-overlapping occurrences of `sep`. */
  function Split(s: string, sep: string): (parts: seq<string>)
    requires |sep| > 0
    ensures |parts| >= 1
    decreases |s|
  {
    if |s| < |sep| then [s]
    else if s[..|sep|] == sep then [""] + Split(s[|sep|..], sep)
    else
      var rest := Split(s[1..], sep);
      [[s[0]] + rest[0]] + rest[1..]
  }

  /** Inverse of `Split`: the pieces glued back with `sep`. */
  function Join(parts: seq<string>, sep: string): string
    requires |parts| >= 1
  {
    if |parts| == 1 then parts[0] else parts[0] + sep + Join(parts[1..], sep)
  }

  /** Splitting and re-joining gives back the original string. */
  lemma {:induction false} JoinSplit(s: string, sep: string)
    requires |sep| > 0
    ensures Join(Split(s, sep), sep) == s
    decreases |s|
  {
    if |s| < |sep| {
    } else if s[..|sep|] == sep {
      JoinSplit(s[|sep|..], sep);
      JoinSplitAtSep(s, sep);
      assert s == s[..|sep|] + s[|sep|..];
    } else {
      JoinSplit(s[1..], sep);
      JoinSplitPastChar(s, sep);
    }
  }

  /** The step of `JoinSplit` where `s` starts with the separator: an
      empty first piece, then the separator. */
  lemma JoinSplitAtSep(s: string, sep: string)
    requires |sep| > 0 && |s| >= |sep| && s[..|sep|] == sep
    ensures Join(Split(s, sep), sep) == sep + Join(Split(s[|sep|..], sep), sep)
  {
    var rest := Split(s[|sep|..], sep);
    assert Split(s, sep) == [""] + rest;
    JoinHead("", rest, sep);
  }

  /** The step of `JoinSplit` where the first character of `s` joins the
      first piece. */
  lemma JoinSplitPastChar(s: string, sep: string)
    requires |sep| > 0 && |s| >= |sep| && s[..|sep|] != sep
    requires Join(Split(s[1..], sep), sep) == s[1..]
    ensures Join(Split(s, sep), sep) == s
  {
    var rest := Split(s[1..], sep);
    assert Split(s, sep) == [[s[0]] + rest[0]] + rest[1..];
    JoinConsFirst(s[0], rest, sep);
    assert s == [s[0]] + s[1..];
  }

  /** Putting a character before the first piece puts it before the
      joined text. */
  lemma JoinConsFirst(c: char, rest: seq<string>, sep: string)
    requires |rest| >= 1
    ensures Join([[c] + rest[0]] + rest[1..], sep) == [c] + Join(rest, sep)
  {
    if |rest| > 1 {
      JoinHead([c] + rest[0], rest[1..], sep);
      assert rest == [rest[0]] + rest[1..];
      JoinHead(rest[0], rest[1..], sep);
    }
  }

  lemma JoinHead(p: string, rest: seq<string>, sep: string)
    requires |rest| >= 1
    ensures Join([p] + rest, sep) == p + sep + Join(rest, sep)
  {
    assert ([p] + rest)[1..] == rest;
  }

  /** No character of `p` is the first character of `sep`, so `sep` cannot
      start inside `p`. */
  predicate FreeOf(p: string, sep: string) {
    forall k :: 0 <= k < |p| && |sep| > 0 ==> p[k] != sep[0]
  }

  /** A piece free of separator characters, followed by the separator,
      is split off as exactly that piece. */
  lemma {:induction false} SplitFreePrefix(p: string, sep: string, rest: string)
    requires |sep| > 0 && FreeOf(p, sep)
    ensures Split(p + sep + rest, sep) == [p] + Split(rest, sep)
    decreases |p|
  {
    var s := p + sep + rest;
    if |p| == 0 {
      assert s == sep + rest;
      assert s[..|sep|] == sep;
      assert s[|sep|..] == rest;
    } else {
      assert s[0] == p[0] && p[0] != sep[0];
      assert s[..|sep|] != sep by { assert s[..|sep|][0] == p[0]; }
      assert s[1..] == p[1..] + sep + rest;
      SplitFreePrefix(p[1..], sep, rest);
      assert [s[0]] + p[1..] == p;
    }
  }

  /** A string free of separator characters is a single piece. */
  lemma {:induction false} SplitFree(p: string, sep: string)
    requires |sep| > 0 && FreeOf(p, sep)
    ensures Split(p, sep) == [p]
    decreases |p|
  {
    if |p| < |sep| {
    } else {
      assert p[..|sep|] != sep by { assert p[..|sep|][0] == p[0]; }
      SplitFree(p[1..], sep);
      assert [p[0]] + p[1..] == p;
    }
  }

  /** A string in which the separator never occurs is a single piece. */
  lemma {:induction false} SplitWithoutSep(s: string, sep: string)
    requires |sep| > 0 && !Contains(s, sep)
    ensures Split(s, sep) == [s]
    decreases |s|
  {
    if |s| >= |sep| {
      assert s[..|sep|] != sep by { assert !OccursAt(s, sep, 0); assert s[0..|sep|] == s[..|sep|]; }
      ContainsNotInTail(s, sep);
      SplitWithoutSep(s[1..], sep);
      SplitPastChar(s, sep);
      assert [s[0]] + s[1..] == s;
    }
  }

  /** Without an occurrence in `s` there is none in its tail. */
  lemma ContainsNotInTail(s: string, sep: string)
    requires |s| > 0 && !Contains(s, sep)
    ensures !Contains(s[1..], sep)
  {
    forall i | 0 <= i <= |s[1..]|
      ensures !OccursAt(s[1..], sep, i)
    {
      assert !OccursAt(s, sep, i + 1);
      if i <= |s[1..]| - |sep| {
        assert s[1..][i..i + |sep|] == s[i + 1..i + 1 + |sep|];
      }
    }
  }

  /** Where `s` does not start with the separator, its first character
      opens the first piece. */
  lemma SplitPastChar(s: string, sep: string)
    requires |sep| > 0 && |s| >= |sep| && s[..|sep|] != sep
    ensures Split(s, sep) == [[s[0]] + Split(s[1..], sep)[0]] + Split(s[1..], sep)[1..]
  {
  }

  /** Joining separator-free pieces and splitting again gives the pieces back. */
  lemma {:induction false} SplitJoin(parts: seq<string>, sep: string)
    requires |sep| > 0 && |parts| >= 1
    requires forall i :: 0 <= i < |parts| ==> FreeOf(parts[i], sep)
    ensures Split(Join(parts, sep), sep) == parts
    decreases |parts|
  {
    if |parts| == 1 {
      SplitFree(parts[0], sep);
    } else {
      SplitJoin(parts[1..], sep);
      SplitFreePrefix(parts[0], sep, Join(parts[1..], sep));
      assert [parts[0]] + parts[1..] == parts;
    }
  }

  /** Number of occurrences of `c` in `s`. */
  function CountChar(s: string, c: char): nat {
    if |s| == 0 then 0 else (if s[0] == c then 1 else 0) + CountChar(s[1..], c)
  }

  /** Splitting on one character yields one more piece than there are
      occurrences of that character. */
  lemma {:induction false} SplitCount(s: string, c: char)
    ensures |Split(s, [c])| == CountChar(s, c) + 1
    decreases |s|
  {
    if |s| == 0 {
    } else {
      SplitCount(s[1..], c);
      if s[..1] == [c] {
        assert s[0] == c;
      } else {
        assert s[0] != c;
      }
    }
  }

  /** Every piece produced by a one-character split is free of that character. */
  lemma {:induction false} SplitPiecesFree(s: string, c: char)
    ensures forall i :: 0 <= i < |Split(s, [c])| ==> c !in Split(s, [c])[i]
    decreases |s|
  {
    if |s| == 0 {
    } else {
      SplitPiecesFree(s[1..], c);
      if s[..1] == [c] {
      } else {
        assert s[0] != c;
      }
    }
  }

  /** ASCII lower-casing of one character. */
  function LowerChar(c: char): char {
    if 'A' <= c <= 'Z' then (c as int + 32) as char else c
  }

  /** ASCII lower-casing of a string, character by character. */
  function Lower(s: string): (r: string)
    ensures |r| == |s|
    ensures forall i :: 0 <= i < |s| ==> r[i] == LowerChar(s[i])
  {
    seq(|s|, i requires 0 <= i < |s| => LowerChar(s[i]))
  }

  /** `s` contains `t` as a contiguous substring (JavaScript `includes`). */
  predicate Contains(s: string, t: string) {
    exists i | 0 <= i <= |s| :: OccursAt(s, t, i)
  }

  /** `t` occurs in `s` starting at index `i`. */
  predicate OccursAt(s: string, t: string, i: int) {
    0 <= i <= |s| - |t| && s[i..i + |t|] == t
  }

  /** Decimal digit for 0..9. */
  function Digit(d: nat): char
    requires d < 10
  {
    "0123456789"[d]
  }

  predicate IsDigit(c: char) {
    '0' <= c <= '9'
  }

  /** Decimal rendering of a natural number, most significant digit first,
      without leading zeros. */
  function NatToString(n: nat): (r: string)
    ensures |r| >= 1
    ensures forall i :: 0 <= i < |r| ==> IsDigit(r[i])
    decreases n
  {
    if n < 10 then [Digit(n)] else NatToString(n / 10) + [Digit(n % 10)]
  }

  /** Decimal rendering of an integer as JavaScript's `String(n)` and Java's
      string concatenation produce it. */
  function IntToString(n: int): (r: string)
    ensures |r| >= 1
  {
    if n < 0 then "-" + NatToString(-n) else NatToString(n)
  }

  /** Value of a string of decimal digits. */
  function DigitsValue(s: string): nat
    requires forall i :: 0 <= i < |s| ==> IsDigit(s[i])
    decreases |s|
  {
    if |s| == 0 then 0
    else
      assert IsDigit(s[|s| - 1]);
      DigitsValue(s[..|s| - 1]) * 10 + (s[|s| - 1] as int - '0' as int)
  }

  /** Reading back the decimal rendering gives the number. */
  lemma {:induction false} DigitsValueOfNat(n: nat)
    ensures DigitsValue(NatToString(n)) == n
    decreases n
  {
    var r := NatToString(n);
    if n < 10 {
      assert r == [Digit(n)];
    } else {
      DigitsValueOfNat(n / 10);
      assert r[..|r| - 1] == NatToString(n / 10);
      assert r[|r| - 1] == Digit(n % 10);
    }
  }

  predicate IsSpace(c: char) {
    c == ' ' || c == '\t' || c == '\n' || c == '\r' || c == '\U{B}' || c == '\U{C}'
  }

  /** `s` without leading and trailing white space (Python `str.strip()`
      restricted to ASCII white space). */
  function Strip(s: string): (r: string)
    ensures |r| <= |s|
    decreases |s|
  {
    if |s| > 0 && IsSpace(s[0]) then Strip(s[1..])
    else if |s| > 0 && IsSpace(s[|s| - 1]) then Strip(s[..|s| - 1])
    else s
  }

  /** Python's `int(s)` for base-10 text: optional surrounding white space,
      an optional sign, then at least one decimal digit; anything else raises
      `ValueError`. */
  function ParseInt(s: string): (r: Result<int>)
    ensures r.Ok? ==> |Strip(s)| >= 1
    ensures |Strip(s)| == 0 ==> r.Err?
  {
    var t := Strip(s);
    var sign := if |t| > 0 && (t[0] == '-' || t[0] == '+') then 1 else 0;
    var digits := t[sign..];
    if |digits| > 0 && forall i :: 0 <= i < |digits| ==> IsDigit(digits[i]) then
      Ok(if sign == 1 && t[0] == '-' then -(DigitsValue(digits) as int) else DigitsValue(digits))
    else Err("ValueError")
  }

  lemma StripDigits(s: string)
    requires |s| >= 1 && forall i :: 0 <= i < |s| ==> IsDigit(s[i])
    ensures Strip(s) == s
  {
    assert !IsSpace(s[0]) && !IsSpace(s[|s| - 1]);
  }

  /** Python's `int` reads back the decimal rendering of every integer. */
  lemma ParseIntToString(n: int)
    ensures ParseInt(IntToString(n)) == Ok(n)
  {
    if n < 0 {
      var d := NatToString(-n);
      var s := "-" + d;
      assert !IsSpace(s[0]) && !IsSpace(s[|s| - 1]);
      assert Strip(s) == s;
      assert s[1..] == d;
      DigitsValueOfNat(-n);
    } else {
      StripDigits(NatToString(n));
      DigitsValueOfNat(n);
      assert NatToString(n)[0..] == NatToString(n);
    }
  }

  /** Different integers have different decimal renderings. */
  lemma IntToStringInjective(x: int, y: int)
    requires x != y
    ensures IntToString(x) != IntToString(y)
  {
    ParseIntToString(x);
    ParseIntToString(y);
  }
}

=== FILE: train_model.dfy ===
/** The epoch loop of `train` (`train_model.py`) with its early stopping.
    What the network computes is left to a parameter: `run(e)` gives the
    losses of the training batches and of the validation batches in epoch
    `e`. The best model is identified by the epoch it was saved in. */
module TrainModel {
  import opened Wrappers
  import SingleRect

  datatype Epoch = Epoch(trainBatches: seq<real>, validationBatches: seq<real>)

  datatype Outcome = Outcome(
    bestEpoch: nat,
    trainLoss: seq<real>,
    validationLoss: seq<real>,
    stoppedAt: Option<nat>)

  /** Both loaders yield at least one batch, so both means are defined. */
  predicate HasBatches(ep: Epoch) {
    |ep.trainBatches| > 0 && |ep.validationBatches| > 0
  }

  /** Epoch `e`'s mean validation loss is worse than `best` (`None` stands
      for the initial infinity, which nothing exceeds). */
  predicate Worse(loss: real, best: Option<real>) {
    best.Some? && loss > best.value
  }

  /** The recorded losses of an outcome are the batch means of the epochs
      that ran, in order. */
  predicate Recorded(run: nat -> Epoch, trainLoss: seq<real>, validationLoss: seq<real>) {
    |trainLoss| == |validationLoss| &&
    forall i :: 0 <= i < |validationLoss| ==>
      HasBatches(run(i)) &&
      trainLoss[i] == SingleRect.Mean(run(i).trainBatches) &&
      validationLoss[i] == SingleRect.Mean(run(i).validationBatches)
  }

  /** `best` is the least recorded validation loss and `bestEpoch` the
      last epoch that reached it; every later epoch was worse. */
  predicate BestSoFar(vl: seq<real>, bestEpoch: nat, best: real) {
    bestEpoch < |vl| && vl[bestEpoch] == best &&
    (forall i :: 0 <= i < |vl| ==> best <= vl[i]) &&
    (forall i :: bestEpoch < i < |vl| ==> vl[i] > best)
  }

  /** The best epoch of a run is unique: it is the last epoch reaching the
      least loss. */
  lemma BestSoFarUnique(vl: seq<real>, j1: nat, j2: nat)
    requires j1 < |vl| && j2 < |vl|
    requires BestSoFar(vl, j1, vl[j1]) && BestSoFar(vl, j2, vl[j2])
    ensures j1 == j2
  {
  }

  /** No recorded epoch had a stopping streak: in every epoch `e`, the
      number of epochs since the best one of `vl[..e+1]` is 0 or below
      `patience`. */
  predicate NoEarlierStop(vl: seq<real>, patience: int) {
    forall e: nat, j: nat :: j <= e < |vl| && BestAt(vl, e, j) ==> e - j == 0 || e - j < patience
  }

  /** Epoch `j` was the best one when epoch `e` ended. */
  predicate BestAt(vl: seq<real>, e: nat, j: nat) {
    j <= e < |vl| && BestSoFar(vl[..e + 1], j, vl[j])
  }

  /** Recording one more epoch keeps the property when that epoch's own
      streak is harmless. */
  lemma {:induction false} NoEarlierStopSnoc(vl: seq<real>, x: real, patience: int, best: nat)
    requires NoEarlierStop(vl, patience)
    requires best <= |vl| && BestSoFar(vl + [x], best, (vl + [x])[best])
    requires |vl| - best == 0 || |vl| - best < patience
    ensures NoEarlierStop(vl + [x], patience)
  {
    var vl' := vl + [x];
    forall e: nat, j: nat | BestAt(vl', e, j)
      ensures e - j == 0 || e - j < patience
    {
      if e < |vl| {
        assert vl'[..e + 1] == vl[..e + 1];
        assert vl'[j] == vl[j];
        assert BestAt(vl, e, j);
      } else {
        assert vl'[..e + 1] == vl';
        BestSoFarUnique(vl', j, best);
      }
    }
  }

  /** With `patience` 1, losses 5 then 6 cannot both be recorded: the
      second epoch is worse than the best one and stops training. */
  lemma WorseEpochStopsAtPatienceOne()
    ensures !NoEarlierStop([5.0, 6.0, 4.0], 1)
  {
    var vl := [5.0, 6.0, 4.0];
    assert vl[..2] == [5.0, 6.0];
    assert BestAt(vl, 1, 0);
  }

  /** `train(device, model, epochs, …, patience, …)`. An epoch whose
      validation loss exceeds the best so far counts as not improved; once
      `patience` such epochs follow the best one, training stops without
      recording that epoch. Otherwise the model is saved as the best and
      the count restarts. An empty loader divides by zero; with no epoch
      at all the best model is never bound. */
  method Train(epochs: int, patience: int, run: nat -> Epoch) returns (r: Result<Outcome>)
    ensures epochs <= 0 ==> r == Err("UnboundLocalError")
    ensures epochs > 0 && (forall e: nat :: e < epochs ==> HasBatches(run(e))) ==> r.Ok?
    ensures r == Err("ZeroDivisionError") ==> exists e: nat :: e < epochs && !HasBatches(run(e))
    ensures r.Ok? ==> (
      var o := r.value;
      Recorded(run, o.trainLoss, o.validationLoss) && |o.validationLoss| <= epochs &&
      o.bestEpoch < |o.validationLoss| &&
      BestSoFar(o.validationLoss, o.bestEpoch, o.validationLoss[o.bestEpoch]) &&
      (o.stoppedAt.None? ==> |o.validationLoss| == epochs) &&
      (o.stoppedAt.Some? ==> (
        o.stoppedAt.value == |o.validationLoss| < epochs &&
        HasBatches(run(o.stoppedAt.value)) &&
        SingleRect.Mean(run(o.stoppedAt.value).validationBatches) > o.validationLoss[o.bestEpoch] &&
        o.stoppedAt.value - o.bestEpoch >= patience)) &&
      (|o.validationLoss| - 1 - o.bestEpoch == 0 || |o.validationLoss| - 1 - o.bestEpoch < patience) &&
      NoEarlierStop(o.validationLoss, patience))
  {
    if epochs <= 0 {
      return Err("UnboundLocalError");
    }
    var best: Option<real> := None;
    var bestEpoch: nat := 0;
    var notImproved := 0;
    var trainLoss: seq<real> := [];
    var validationLoss: seq<real> := [];
    var epoch: nat := 0;
    while epoch < epochs
      invariant epoch <= epochs
      invariant |validationLoss| == epoch
      invariant Recorded(run, trainLoss, validationLoss)
      invariant best.None? <==> epoch == 0
      invariant best.Some? ==> BestSoFar(validationLoss, bestEpoch, best.value)
      invariant best.Some? ==> notImproved == epoch - 1 - bestEpoch
      invariant notImproved == 0 || notImproved < patience
      invariant NoEarlierStop(validationLoss, patience)
    {
      var ep := run(epoch);
      if !HasBatches(ep) {
        return Err("ZeroDivisionError");
      }
      var epochTrainLoss := SingleRect.Mean(ep.trainBatches);
      var epochValidationLoss := SingleRect.Mean(ep.validationBatches);
      if Worse(epochValidationLoss, best) {
        notImproved := notImproved + 1;
        if notImproved >= patience {
          return Ok(Outcome(bestEpoch, trainLoss, validationLoss, Some(epoch)));
        }
      } else {
        best := Some(epochValidationLoss);
        bestEpoch := epoch;
        notImproved := 0;
      }
      NoEarlierStopSnoc(validationLoss, epochValidationLoss, patience, bestEpoch);
      trainLoss := trainLoss + [epochTrainLoss];
      validationLoss := validationLoss + [epochValidationLoss];
      epoch := epoch + 1;
    }
    return Ok(Outcome(bestEpoch, trainLoss, validationLoss, None));
  }
}

=== FILE: vis_control.dfy ===
/** The decision logic of the visualizer's control panel: quick-select time
    ranges, filter edits, the date-range input, the filter accordion and the
    time-series checkbox. */
module VisControl {
  import opened Wrappers
  import opened Text
  import opened VisState
  import opened VisReducer

  /** Two years of 365 days, in milliseconds. */
  const TwoYears: int := 2 * 365 * 24 * 60 * 60 * 1000

  /** How far before `now` each quick-select entry ends. */
  function QuickOffset(id: int): int {
    if id == 1 then TwoYears
    else if id == 2 then TwoYears / 2
    else if id == 3 then TwoYears / 4
    else if id == 4 then TwoYears / 8
    else if id == 5 then TwoYears / 24
    else 0
  }

  /** The range a quick-select entry requests: from the epoch up to `now`
      less the entry's offset ("All" and unknown ids end at `now`). */
  function QuickRange(id: int, now: int): (t: TimeRange)
    ensures t.from == 0 && t.to <= now
    ensures 1 <= id <= 5 <==> t.to < now
  {
    TimeRange(0, now - QuickOffset(id))
  }

  /** The entries' end points, from the earliest: 2Y, 1Y, 6M, 3M, 1M, All. */
  lemma QuickRangeOrder(now: int)
    ensures QuickRange(1, now).to < QuickRange(2, now).to < QuickRange(3, now).to
          < QuickRange(4, now).to < QuickRange(5, now).to < QuickRange(0, now).to == now
    ensures QuickRange(1, now).to == now - 63072000000 && QuickRange(5, now).to == now - 2628000000
  {
  }

  /** Choosing a facet value: the empty value selects nothing (`null`). */
  function FilterChange(f: Filters, dim: Col, value: string): (g: Filters)
    ensures dim in g && g[dim] == (if value == "" then None else Some(value))
    ensures forall c :: c != dim ==> (c in g <==> c in f)
    ensures forall c :: c != dim && c in f ==> g[c] == f[c]
  {
    f[dim := if value == "" then None else Some(value)]
  }

  /** Removing a filter drops exactly its key. */
  function RemoveFilter(f: Filters, dim: Col): (g: Filters)
    ensures dim !in g
    ensures forall c :: c != dim ==> (c in g <==> c in f)
    ensures forall c :: c in g ==> g[c] == f[c]
  {
    f - {dim}
  }

  /** Removing a filter undoes setting it, whatever was there before. */
  lemma RemoveUndoesChange(f: Filters, dim: Col, value: string)
    ensures RemoveFilter(FilterChange(f, dim, value), dim) == RemoveFilter(f, dim)
  {
  }

  /** Clicking a filter title opens it, or closes it if it was open. */
  function AccordionClick(expanded: Option<int>, index: int): (e: Option<int>)
    ensures e == None <==> expanded == Some(index)
    ensures e != None ==> e == Some(index)
  {
    if expanded == Some(index) then None else Some(index)
  }

  /** A second click on the same title closes it, unless the first click
      closed it, in which case the second opens it again. */
  lemma AccordionClickTwice(expanded: Option<int>, index: int)
    ensures AccordionClick(AccordionClick(expanded, index), index)
         == (if expanded == Some(index) then Some(index) else None)
  {
  }

  /** The time-series checkbox: the toggle value to dispatch, if any. */
  function CheckboxDispatch(disabled: bool, checked: bool): (d: Option<bool>)
    ensures d.Some? <==> !disabled
    ensures d.Some? ==> d.value == checked
  {
    if !disabled then Some(checked) else None
  }

  /** The checkbox drives the store's toggle: while enabled a click stores
      the clicked value and touches no other field; while disabled it
      dispatches nothing. */
  lemma CheckboxSetsToggle(s: VisualizerState, checked: bool, clk: Clock)
    ensures var d := CheckboxDispatch(s.disabledTimeSeriesDataToggle, checked);
      && (d.None? <==> s.disabledTimeSeriesDataToggle)
      && (d.Some? ==>
            && Reduce(s, UpdateTimeSeriesDataToggle(d.value), clk).Ok?
            && Reduce(s, UpdateTimeSeriesDataToggle(d.value), clk).value.timeSeriesDataToggle == checked
            && Framed(s, UpdateTimeSeriesDataToggle(d.value), clk))
  {
    DataToggleFrame(s, checked, clk);
    assert Reduce(s, UpdateTimeSeriesDataToggle(checked), clk) == Ok(s.(timeSeriesDataToggle := checked));
  }

  /** The argument strings a date passes to `new Date(year, month, day)`:
      pieces 2, 1 and 0 of the date split on "-"; a missing piece is
      `undefined`. */
  datatype DateFields = DateFields(year: Option<string>, month: Option<string>, day: Option<string>)

  function At(parts: seq<string>, i: nat): (p: Option<string>)
    ensures p.Some? <==> i < |parts|
  {
    if i < |parts| then Some(parts[i]) else None
  }

  function FieldsOf(date: string): DateFields {
    var p := Split(date, "-");
    DateFields(At(p, 2), At(p, 1), At(p, 0))
  }

  /** The date-range input: a range is taken only when the text splits on
      " - " into exactly two pieces and the second is not empty. */
  function HandleChange(value: string): (r: Option<(DateFields, DateFields)>)
    ensures r.Some? <==> |Split(value, " - ")| == 2 && Split(value, " - ")[1] != ""
    ensures r.Some? ==> r.value == (FieldsOf(Split(value, " - ")[0]), FieldsOf(Split(value, " - ")[1]))
  {
    var dates := Split(value, " - ");
    if |dates| == 2 && dates[1] != "" then Some((FieldsOf(dates[0]), FieldsOf(dates[1]))) else None
  }

  /** A single date, without the " - " separator, is not taken. */
  lemma HandleChangeRejectsSingleDate(value: string)
    requires !Contains(value, " - ")
    ensures HandleChange(value) == None
  {
    SplitWithoutSep(value, " - ");
  }

  /** A range whose second date is still empty, as while typing it, is not
      taken. */
  lemma HandleChangeRejectsOpenRange(first: string)
    requires FreeOf(first, " - ")
    ensures HandleChange(first + " - ") == None
  {
    SplitFreePrefix(first, " - ", "");
    assert first + " - " + "" == first + " - ";
  }

  /** Text with the separator twice splits into three pieces and is not
      taken. */
  lemma HandleChangeRejectsThreeDates(a: string, b: string, c: string)
    requires FreeOf(a, " - ") && FreeOf(b, " - ")
    ensures HandleChange(a + " - " + b + " - " + c) == None
  {
    SplitFreePrefix(b, " - ", c);
    SplitFreePrefix(a, " - ", b + " - " + c);
    assert a + " - " + b + " - " + c == a + " - " + (b + " - " + c);
  }

  /** A field without spaces or hyphens. */
  predicate Plain(s: string) {
    forall k :: 0 <= k < |s| ==> s[k] != ' ' && s[k] != '-'
  }

  /** The text "DD-MM-YYYY" of a date. */
  function DateText(d: string, m: string, y: string): string {
    d + "-" + m + "-" + y
  }

  lemma {:induction false} DateTextFields(d: string, m: string, y: string)
    requires Plain(d) && Plain(m) && Plain(y)
    ensures FieldsOf(DateText(d, m, y)) == DateFields(Some(y), Some(m), Some(d))
    ensures FreeOf(DateText(d, m, y), " - ")
  {
    assert Join([d, m, y], "-") == DateText(d, m, y) by {
      assert [d, m, y][1..] == [m, y];
      assert [m, y][1..] == [y];
      assert Join([m, y], "-") == m + "-" + y;
      assert Join([d, m, y], "-") == d + "-" + (m + "-" + y);
      assert d + "-" + (m + "-" + y) == d + "-" + m + "-" + y;
    }
    SplitJoin([d, m, y], "-");
    var t := DateText(d, m, y);
    forall k | 0 <= k < |t| ensures t[k] != ' ' {
      if k < |d| { assert t[k] == d[k]; }
      else if k == |d| { assert t[k] == '-'; }
      else if k < |d| + 1 + |m| { assert t[k] == m[k - |d| - 1]; }
      else if k == |d| + 1 + |m| { assert t[k] == '-'; }
      else { assert t[k] == y[k - |d| - 2 - |m|]; }
    }
  }

  /** A range "D1-M1-Y1 - D2-M2-Y2" yields the fields of both dates,
      year, month and day in that order. */
  lemma {:induction false} HandleChangeReadsBothDates(d1: string, m1: string, y1: string,
                                                      d2: string, m2: string, y2: string)
    requires Plain(d1) && Plain(m1) && Plain(y1) && Plain(d2) && Plain(m2) && Plain(y2)
    ensures HandleChange(DateText(d1, m1, y1) + " - " + DateText(d2, m2, y2))
         == Some((DateFields(Some(y1), Some(m1), Some(d1)), DateFields(Some(y2), Some(m2), Some(d2))))
  {
    DateTextFields(d1, m1, y1);
    DateTextFields(d2, m2, y2);
    var a := DateText(d1, m1, y1);
    var b := DateText(d2, m2, y2);
    assert Join([a, b], " - ") == a + " - " + b by { assert [a, b][1..] == [b]; }
    SplitJoin([a, b], " - ");
    assert b != "" by { assert b[|d2|] == '-'; }
  }

  /** The calendar month (1-12) a zero-based `Date` month index lands in;
      the constructor carries whole years over. */
  function CalendarMonth(monthIndex: int): (m: int)
    ensures 1 <= m <= 12
  {
    monthIndex % 12 + 1
  }

  /** The month index `handleChange` passes: the typed month itself. */
  function MonthIndexAsWritten(f: DateFields): Result<int> {
    if f.month.None? then Err("NaN") else ParseInt(f.month.value)
  }

  /** The month index the zero-based constructor needs: the typed month less one. */
  function MonthIndex(f: DateFields): Result<int> {
    match MonthIndexAsWritten(f)
    case Ok(k) => Ok(k - 1)
    case Err(e) => Err(e)
  }

  /** As written, every typed month lands one month later (December in
      January of the next year). */
  lemma MonthShiftedAsWritten(y: string, k: int, d: string)
    requires 1 <= k <= 12
    ensures var f := DateFields(Some(y), Some(IntToString(k)), Some(d));
      && MonthIndexAsWritten(f) == Ok(k)
      && CalendarMonth(MonthIndexAsWritten(f).value) == k % 12 + 1 != k
  {
    ParseIntToString(k);
  }

  /** With the index decremented, the typed month is the calendar month. */
  lemma MonthIndexKeepsMonth(y: string, k: int, d: string)
    requires 1 <= k <= 12
    ensures var f := DateFields(Some(y), Some(IntToString(k)), Some(d));
      && MonthIndex(f) == Ok(k - 1)
      && CalendarMonth(MonthIndex(f).value) == k
  {
    ParseIntToString(k);
  }
}

=== FILE: vis_page.dfy ===
/** The visualizer page's effects and visibility rules. */
module VisPage {
  import opened Wrappers
  import opened VisState
  import opened VisReducer
  import opened VisThunks
  import VisControl

  /** The zoom level from which single time series can be shown. */
  const TimeSeriesZoom: int := 16

  /** The actions the zoom effect dispatches for a new zoom level. */
  function ZoomEffect(zoom: int): (acts: seq<Action>)
    ensures |acts| >= 1 && acts[0] == ToggleTimeSeriesData(zoom < TimeSeriesZoom)
    ensures zoom >= TimeSeriesZoom ==> |acts| == 1
    ensures zoom < TimeSeriesZoom ==> acts == [ToggleTimeSeriesData(true), UpdateTimeSeriesDataToggle(false)]
  {
    if zoom >= TimeSeriesZoom then [ToggleTimeSeriesData(false)]
    else [ToggleTimeSeriesData(true), UpdateTimeSeriesDataToggle(false)]
  }

  /** The reducer applied to a list of actions in order; an error stops it. */
  function ReduceAll(s: VisualizerState, acts: seq<Action>, clk: Clock): Result<VisualizerState>
    decreases |acts|
  {
    if acts == [] then Ok(s)
    else match Reduce(s, acts[0], clk)
      case Ok(t) => ReduceAll(t, acts[1..], clk)
      case Err(e) => Err(e)
  }

  /** From zoom 16 on the toggle is enabled and keeps its value; below it the
      toggle is disabled and switched off. */
  lemma ZoomEffectCouplesToggle(s: VisualizerState, zoom: int, clk: Clock)
    ensures ReduceAll(s, ZoomEffect(zoom), clk).Ok?
    ensures var t := ReduceAll(s, ZoomEffect(zoom), clk).value;
      && t.disabledTimeSeriesDataToggle == (zoom < TimeSeriesZoom)
      && (zoom >= TimeSeriesZoom ==> t.timeSeriesDataToggle == s.timeSeriesDataToggle)
      && (zoom < TimeSeriesZoom ==> !t.timeSeriesDataToggle)
  {
    var acts := ZoomEffect(zoom);
    var t1 := s.(disabledTimeSeriesDataToggle := zoom < TimeSeriesZoom);
    assert Reduce(s, acts[0], clk) == Ok(t1);
    if zoom < TimeSeriesZoom {
      var t2 := t1.(timeSeriesDataToggle := false);
      assert acts[1..][0] == UpdateTimeSeriesDataToggle(false);
      assert Reduce(t1, acts[1..][0], clk) == Ok(t2);
      assert acts[1..][1..] == [];
      assert ReduceAll(t2, acts[1..][1..], clk) == Ok(t2);
      assert ReduceAll(t1, acts[1..], clk) == Ok(t2);
      assert ReduceAll(s, acts, clk) == Ok(t2);
    } else {
      assert acts[1..] == [];
      assert ReduceAll(s, acts, clk) == Ok(t1);
    }
  }

  /** Below zoom 16 the time-series checkbox is inert: after the zoom
      effect a click dispatches nothing, so the toggle stays off. */
  lemma LowZoomCheckboxInert(s: VisualizerState, zoom: int, checked: bool, clk: Clock)
    requires zoom < TimeSeriesZoom
    ensures ReduceAll(s, ZoomEffect(zoom), clk).Ok?
    ensures var t := ReduceAll(s, ZoomEffect(zoom), clk).value;
      VisControl.CheckboxDispatch(t.disabledTimeSeriesDataToggle, checked).None? && !t.timeSeriesDataToggle
  {
    ZoomEffectCouplesToggle(s, zoom, clk);
  }

  /** A new dataset id fetches the dataset, the dataset list and the index
      status, in that order. */
  function DatasetEffect(r: Run, id: string, clk: Clock): Run {
    GetIndexStatus(GetDatasets(GetDataset(r, id, clk), clk), id, clk)
  }

  lemma DatasetEffectRequests(r: Run, id: string, clk: Clock)
    requires !r.threw
    ensures DatasetEffect(r, id, clk) == Run(InitialState(clk.loadTime), r.effects + [
      Sent(DatasetGet(id)), Dispatched(Pending(FetchDataset, None)),
      Sent(DatasetListGet), Dispatched(Pending(FetchDatasetList, None)),
      Sent(StatusGet(id)), Dispatched(Pending(FetchIndexStatus, None))], false)
  {
    var r1 := GetDataset(r, id, clk);
    assert r1 == Run(InitialState(clk.loadTime), r.effects + [Sent(DatasetGet(id)), Dispatched(Pending(FetchDataset, None))], false);
  }

  /** Another status request is scheduled only while the index is not ready. */
  function PollsStatus(st: IndexStatus): (b: bool)
    ensures b <==> !st.isInitialized
  {
    !st.isInitialized
  }

  /** The page: nothing while loading, otherwise the whole tree. JSX
      evaluates the closed indexing dialog's children eagerly, and they read
      the dataset's name and object count, so a render without a dataset
      throws. */
  function Renders(s: VisualizerState): (r: Result<bool>)
    ensures r == Ok(false) <==> s.loading
    ensures r.Err? <==> !s.loading && s.dataset.None?
    ensures r == Ok(true) <==> !s.loading && s.dataset.Some?
  {
    if s.loading then Ok(false)
    else if s.dataset.None? then Err("TypeError")
    else Ok(true)
  }

  /** The page disappears when a dataset is requested and reappears once it
      has loaded. */
  lemma LoadingHidesPage(s: VisualizerState, d: Dataset, meta: Option<int>, clk: Clock)
    ensures Renders(Reduce(s, Pending(FetchDataset, meta), clk).value) == Ok(false)
    ensures Renders(Reduce(s, DatasetFetched(d), clk).value) == Ok(true)
  {
    FetchDatasetRequestResets(s, s, meta, clk);
    FetchDatasetSuccess(s, d, clk);
  }

  /** A failed dataset fetch breaks the page: the request resets the store,
      dropping the dataset, and the failure only clears `loading`, so the
      next render reads the name of a missing dataset. */
  lemma FailedFetchThrowsOnRender(s: VisualizerState, meta: Option<int>, message: string, clk: Clock)
    ensures Reduce(s, Pending(FetchDataset, meta), clk).Ok?
    ensures var t := Reduce(s, Pending(FetchDataset, meta), clk).value;
      && Reduce(t, Rejected(FetchDataset, message), clk).Ok?
      && Renders(Reduce(t, Rejected(FetchDataset, message), clk).value) == Err("TypeError")
  {
    FetchDatasetRequestResets(s, s, meta, clk);
    var t := InitialState(clk.loadTime);
    assert Reduce(t, Rejected(FetchDataset, message), clk) == Ok(t.(loading := false, errorMessage := Some(message)));
  }

  /** The indexing dialog is open exactly while the index is not ready. */
  function ModalOpen(s: VisualizerState): (b: bool)
    ensures b == PollsStatus(s.indexStatus)
  {
    !s.indexStatus.isInitialized
  }

  /** Polling and the indexing dialog follow the reducer's index status: a
      fetched status that reports the index ready stops the polling and
      closes the dialog, one that does not keeps both, and a completed
      reset brings both back. */
  lemma PollingFollowsIndexStatus(s: VisualizerState, st: IndexStatus, clk: Clock)
    ensures Reduce(s, IndexStatusFetched(st), clk).Ok? && Reduce(s, ResetDone, clk).Ok?
    ensures var t := Reduce(s, IndexStatusFetched(st), clk).value;
      && (PollsStatus(t.indexStatus) <==> !st.isInitialized)
      && (ModalOpen(t) <==> !st.isInitialized)
    ensures var t := Reduce(s, ResetDone, clk).value;
      PollsStatus(t.indexStatus) && ModalOpen(t)
  {
    assert Reduce(s, IndexStatusFetched(st), clk) == Ok(s.(indexStatus := st));
    ClustersAndResetEffects(s, [], 0, clk);
  }

  /** What the right-hand panel shows. */
  datatype RightPanel = NoPanel | TimeSeriesChart | StatsAndChart

  /** The right-hand panel: nothing without rectangle statistics; otherwise
      the time-series chart when the dataset has a first measure and the
      toggle is on, else the statistics panel and the chart. Reading the
      dataset's measure while there is no dataset throws. */
  function RightPanelOf(s: VisualizerState): (p: Result<RightPanel>)
    ensures s.rectStats.None? ==> p == Ok(NoPanel)
    ensures p.Err? <==> s.rectStats.Some? && s.dataset.None?
    ensures p == Ok(TimeSeriesChart) <==>
              s.rectStats.Some? && s.dataset.Some? && s.dataset.value.measure0.Some? && s.timeSeriesDataToggle
    ensures p == Ok(StatsAndChart) <==>
              s.rectStats.Some? && s.dataset.Some? && !(s.dataset.value.measure0.Some? && s.timeSeriesDataToggle)
  {
    if s.rectStats.None? then Ok(NoPanel)
    else if s.dataset.None? then Err("TypeError")
    else if s.dataset.value.measure0.Some? && s.timeSeriesDataToggle then Ok(TimeSeriesChart)
    else Ok(StatsAndChart)
  }

  /** Below zoom 16 the time-series chart is never shown. */
  lemma LowZoomHidesTimeSeriesChart(s: VisualizerState, zoom: int, clk: Clock)
    requires zoom < TimeSeriesZoom
    ensures ReduceAll(s, ZoomEffect(zoom), clk).Ok?
    ensures RightPanelOf(ReduceAll(s, ZoomEffect(zoom), clk).value) != Ok(TimeSeriesChart)
  {
    ZoomEffectCouplesToggle(s, zoom, clk);
  }
}

=== FILE: vis_reducer.dfy ===
/** The visualizer reducer: a total transition function over the view state.
    Each action writes a named set of fields (`Writes`) and copies the rest. */
module VisReducer {
  import opened Wrappers
  import opened VisState

  const AllFields: set<Field> := {
    FIndexStatus, FLoading, FLoadingDups, FFirstDupLoad, FErrorMessage, FDataset,
    FDatasets, FZoom, FCategoricalFilters, FDisabledToggle, FToggle, FGroupByCols,
    FMeasureCol, FAggType, FViewRect, FDrawnRect, FSeries, FOtherSeries,
    FCleanedSeries, FTimeRange, FFacets, FRectStats, FSingleStats, FDedupStats,
    FCleanedRectStats, FClusters, FFullyContainedTileCount, FTileCount, FPointCount,
    FIoCount, FTotalTileCount, FTotalPointCount, FExecutionTime, FTotalTime, FBounds,
    FExpandedClusterIndex, FRow, FSelectedPointId, FMapType, FSelectedMeasure,
    FTimeSeries, FSelectedTimeSeries}

  const AnalysisFields: set<Field> := {
    FSeries, FOtherSeries, FRectStats, FSingleStats, FCleanedSeries, FCleanedRectStats}

  const QueryInfoFields: set<Field> := {
    FFullyContainedTileCount, FTileCount, FPointCount, FIoCount, FTotalTileCount,
    FTotalPointCount, FExecutionTime}

  /** The fields each case of the reducer names; the reference table the
      reducer's frame contract is stated against. */
  function Writes(a: Action): set<Field> {
    match a
    case Pending(k, _) =>
      if k == FetchDataset then AllFields
      else if k == FetchRow then {FSelectedPointId, FRow}
      else {}
    case Rejected(k, _) => if k == FetchDataset then {FLoading, FErrorMessage} else {}
    case DatasetFetched(_) => {FLoading, FDataset, FGroupByCols, FMeasureCol}
    case DatasetListFetched(_) => {FDatasets}
    case ClustersFetched(_, _) => {FClusters, FExpandedClusterIndex, FTotalTime}
    case AnalysisFetched(_) => AnalysisFields + {FSelectedTimeSeries}
    case ResetDone => {FDrawnRect, FIndexStatus}
    case IndexStatusFetched(_) => {FIndexStatus}
    case TimeRangeDone(_) => {FTimeRange}
    case RowFetched(_) => {FRow}
    case SelectedMeasureDone(_) => {FSelectedMeasure}
    case SelectedTimeSeriesDone(_) => {FSelectedTimeSeries}
    case ForecastDone => {}
    case UpdateMapType(_) => {FMapType}
    case UpdateTimeSeriesDataToggle(_) => {FToggle}
    case UpdateFacets(_) => {FFacets}
    case UpdateGroupBy(_) => {FGroupByCols, FSeries}
    case UpdateMeasure(_) => {FMeasureCol}
    case UpdateFilters(_) => {FCategoricalFilters}
    case UpdateAggType(_) => {FAggType}
    case UpdateDrawnRect(_) => {FDrawnRect}
    case UpdateMapBounds(_, _) => {FZoom, FViewRect}
    case UpdateAnalysisResults(_) => AnalysisFields + {FTimeSeries}
    case UpdateQueryInfo(_) => QueryInfoFields
    case ToggleTimeSeriesData(_) => {FDisabledToggle}
    case UpdateExpandedClusterIndex(_) => {FExpandedClusterIndex}
    case UpdateSelectedMeasure(_) => {}
    case UpdateSelectedTimeSeries(_) => {}
    case Unknown(_) => {}
  }

  /** The actions whose case names no field: requests and failures other
      than those of a dataset (and, for requests, of a row), the fulfilled
      forecast, the plain UPDATE_SELECTED_* actions and unknown actions. */
  predicate NamesNoField(a: Action) {
    || (a.Pending? && a.kind != FetchDataset && a.kind != FetchRow)
    || (a.Rejected? && a.kind != FetchDataset)
    || a.ForecastDone? || a.UpdateSelectedMeasure? || a.UpdateSelectedTimeSeries? || a.Unknown?
  }

  /** A field that an action naming some field writes. */
  function SomeWritten(a: Action): (f: Field)
    requires !NamesNoField(a)
    ensures f in Writes(a)
  {
    match a
    case Pending(k, _) => if k == FetchDataset then FLoading else FRow
    case Rejected(_, _) => FLoading
    case DatasetFetched(_) => FDataset
    case DatasetListFetched(_) => FDatasets
    case ClustersFetched(_, _) => FClusters
    case AnalysisFetched(_) => FSelectedTimeSeries
    case ResetDone => FDrawnRect
    case IndexStatusFetched(_) => FIndexStatus
    case TimeRangeDone(_) => FTimeRange
    case RowFetched(_) => FRow
    case SelectedMeasureDone(_) => FSelectedMeasure
    case SelectedTimeSeriesDone(_) => FSelectedTimeSeries
    case UpdateMapType(_) => FMapType
    case UpdateTimeSeriesDataToggle(_) => FToggle
    case UpdateFacets(_) => FFacets
    case UpdateGroupBy(_) => FGroupByCols
    case UpdateMeasure(_) => FMeasureCol
    case UpdateFilters(_) => FCategoricalFilters
    case UpdateAggType(_) => FAggType
    case UpdateDrawnRect(_) => FDrawnRect
    case UpdateMapBounds(_, _) => FZoom
    case UpdateAnalysisResults(_) => FTimeSeries
    case UpdateQueryInfo(_) => FTileCount
    case ToggleTimeSeriesData(_) => FDisabledToggle
    case UpdateExpandedClusterIndex(_) => FExpandedClusterIndex
  }

  /** An action names no field exactly when it is one of `NamesNoField`. */
  lemma WritesNothingExactly(a: Action)
    ensures Writes(a) == {} <==> NamesNoField(a)
  {
    if !NamesNoField(a) {
      var f := SomeWritten(a);
    }
  }

  /** The first group-by column of a freshly loaded dataset: `dimensions[0]`,
      which is `undefined` for a dataset without dimensions. */
  function FirstDimension(d: Dataset): Col {
    if |d.dimensions| > 0 then Some(d.dimensions[0]) else None
  }

  /** Pending and rejected requests. */
  function ReduceRequest(s: VisualizerState, a: Action, clk: Clock): VisualizerState
    requires a.Pending? || a.Rejected?
  {
    match a
    case Pending(k, meta) =>
      if k == FetchDataset then InitialState(clk.loadTime).(errorMessage := None, loading := true)
      else if k == FetchRow then s.(selectedPointId := meta, row := None)
      else s
    case Rejected(k, message) =>
      if k == FetchDataset then s.(loading := false, errorMessage := Some(message)) else s
  }

  /** Fulfilled requests that load data from the server. */
  function ReduceLoaded(s: VisualizerState, a: Action, clk: Clock): VisualizerState
    requires a.DatasetFetched? || a.DatasetListFetched? || a.ClustersFetched? || a.AnalysisFetched?
  {
    match a
    case DatasetFetched(d) =>
      s.(loading := false, dataset := Some(d), groupByCols := Some([FirstDimension(d)]),
         measureCol := d.measure0)
    case DatasetListFetched(ds) => s.(datasets := Some(ds))
    case ClustersFetched(cs, requestTime) =>
      s.(clusters := cs, expandedClusterIndex := None, totalTime := clk.now - requestTime)
    case AnalysisFetched(resp) =>
      s.(series := resp.series, otherSeries := resp.otherSeries, rectStats := resp.rectStats,
         singleStats := resp.singleStats, cleanedSeries := resp.cleanedSeries,
         cleanedRectStats := resp.cleanedRectStats, selectedTimeSeries := None)
  }

  /** The remaining fulfilled requests. */
  function ReduceDone(s: VisualizerState, a: Action): VisualizerState
    requires a.ResetDone? || a.IndexStatusFetched? || a.TimeRangeDone? || a.RowFetched?
          || a.SelectedMeasureDone? || a.SelectedTimeSeriesDone? || a.ForecastDone?
  {
    match a
    case ResetDone => s.(drawnRect := None, indexStatus := DefaultIndexStatus)
    case IndexStatusFetched(st) => s.(indexStatus := st)
    case TimeRangeDone(tr) => s.(timeRange := tr)
    case RowFetched(row) => s.(row := Some(row))
    case SelectedMeasureDone(m) => s.(selectedMeasure := m)
    case SelectedTimeSeriesDone(sel) => s.(selectedTimeSeries := sel)
    case ForecastDone => s
  }

  /** Plain UI actions that set the query parameters. */
  function ReduceQuerySetting(s: VisualizerState, a: Action): VisualizerState
    requires a.UpdateMeasure? || a.UpdateFilters? || a.UpdateAggType? || a.UpdateDrawnRect?
          || a.UpdateMapBounds?
  {
    match a
    case UpdateMeasure(c) => s.(measureCol := c)
    case UpdateFilters(f) => s.(categoricalFilters := f)
    case UpdateAggType(t) => s.(aggType := t)
    case UpdateDrawnRect(rect) => s.(drawnRect := rect)
    case UpdateMapBounds(z, vr) => s.(zoom := z, viewRect := Some(vr))
  }

  /** Plain UI actions that set display options. */
  function ReduceViewSetting(s: VisualizerState, a: Action): VisualizerState
    requires a.UpdateMapType? || a.UpdateTimeSeriesDataToggle? || a.UpdateFacets?
          || a.ToggleTimeSeriesData? || a.UpdateExpandedClusterIndex?
  {
    match a
    case UpdateMapType(mt) => s.(mapType := mt)
    case UpdateTimeSeriesDataToggle(t) => s.(timeSeriesDataToggle := t)
    case UpdateFacets(f) => s.(facets := f)
    case ToggleTimeSeriesData(d) => s.(disabledTimeSeriesDataToggle := d)
    case UpdateExpandedClusterIndex(i) => s.(expandedClusterIndex := i)
  }

  /** Plain UI actions that carry query results. */
  function ReduceResults(s: VisualizerState, a: Action): VisualizerState
    requires a.UpdateAnalysisResults? || a.UpdateQueryInfo?
  {
    match a
    case UpdateAnalysisResults(resp) =>
      s.(series := resp.series, otherSeries := resp.otherSeries, rectStats := resp.rectStats,
         singleStats := resp.singleStats, cleanedSeries := resp.cleanedSeries,
         cleanedRectStats := resp.cleanedRectStats, timeSeries := resp.timeSeries)
    case UpdateQueryInfo(q) =>
      s.(fullyContainedTileCount := q.fullyContainedTileCount, tileCount := q.tileCount,
         pointCount := q.pointCount, ioCount := q.ioCount, totalTileCount := q.totalTileCount,
         totalPointCount := q.totalPointCount, executionTime := q.executionTime)
  }

  /** The reducer. The only case that throws is UPDATE_GROUP_BY while
      `groupByCols` is still null (it reads `state.groupByCols.length`); a
      throwing reducer leaves the store as it was. */
  function Reduce(s: VisualizerState, a: Action, clk: Clock): (r: Result<VisualizerState>)
    ensures r.Err? <==> a.UpdateGroupBy? && s.groupByCols.None?
  {
    match a
    case Pending(_, _) | Rejected(_, _) => Ok(ReduceRequest(s, a, clk))
    case DatasetFetched(_) | DatasetListFetched(_) | ClustersFetched(_, _) | AnalysisFetched(_) =>
      Ok(ReduceLoaded(s, a, clk))
    case ResetDone | IndexStatusFetched(_) | TimeRangeDone(_) | RowFetched(_)
       | SelectedMeasureDone(_) | SelectedTimeSeriesDone(_) | ForecastDone =>
      Ok(ReduceDone(s, a))
    case UpdateMeasure(_) | UpdateFilters(_) | UpdateAggType(_) | UpdateDrawnRect(_)
       | UpdateMapBounds(_, _) =>
      Ok(ReduceQuerySetting(s, a))
    case UpdateMapType(_) | UpdateTimeSeriesDataToggle(_) | UpdateFacets(_)
       | ToggleTimeSeriesData(_) | UpdateExpandedClusterIndex(_) =>
      Ok(ReduceViewSetting(s, a))
    case UpdateAnalysisResults(_) | UpdateQueryInfo(_) => Ok(ReduceResults(s, a))
    case UpdateGroupBy(cols) =>
      if s.groupByCols.None? then Err("TypeError")
      else Ok(s.(groupByCols := Some(cols),
                 series := if |cols| != |s.groupByCols.value| then Some([]) else s.series))
    case UpdateSelectedMeasure(_) | UpdateSelectedTimeSeries(_) | Unknown(_) => Ok(s)
  }

  /** A state the reducer returns for `a` keeps every field `Writes(a)`
      does not name. */
  predicate Framed(s: VisualizerState, a: Action, clk: Clock) {
    Reduce(s, a, clk).Ok? && AgreeOutside(s, Reduce(s, a, clk).value, Writes(a))
  }

  /** REQUEST actions: a dataset request resets everything, a row request
      records the point and clears the row, any other request changes
      nothing. */
  lemma PendingFrame(s: VisualizerState, k: AsyncKind, meta: Option<int>, clk: Clock)
    ensures Framed(s, Pending(k, meta), clk)
  {
    var a := Pending(k, meta);
    if k == FetchRow {
      assert Reduce(s, a, clk) == Ok(s.(selectedPointId := meta, row := None));
    } else if k != FetchDataset {
      assert Reduce(s, a, clk) == Ok(s);
    }
  }

  /** FAILURE actions: only a failed dataset request is recorded. */
  lemma RejectedFrame(s: VisualizerState, k: AsyncKind, message: string, clk: Clock)
    ensures Framed(s, Rejected(k, message), clk)
  {
    var a := Rejected(k, message);
    if k == FetchDataset {
      assert Reduce(s, a, clk) == Ok(s.(loading := false, errorMessage := Some(message)));
    } else {
      assert Reduce(s, a, clk) == Ok(s);
    }
  }

  /** A loaded dataset or dataset list. */
  lemma DatasetLoadedFrame(s: VisualizerState, a: Action, clk: Clock)
    requires a.DatasetFetched? || a.DatasetListFetched?
    ensures Framed(s, a, clk)
  {
    match a
    case DatasetFetched(d) =>
      assert Reduce(s, a, clk) == Ok(s.(loading := false, dataset := Some(d),
        groupByCols := Some([FirstDimension(d)]), measureCol := d.measure0));
    case DatasetListFetched(ds) => assert Reduce(s, a, clk) == Ok(s.(datasets := Some(ds)));
  }

  /** Loaded clusters and analysis results. */
  lemma QueryLoadedFrame(s: VisualizerState, a: Action, clk: Clock)
    requires a.ClustersFetched? || a.AnalysisFetched?
    ensures Framed(s, a, clk)
  {
    match a
    case ClustersFetched(cs, t0) =>
      assert Reduce(s, a, clk) == Ok(s.(clusters := cs, expandedClusterIndex := None, totalTime := clk.now - t0));
    case AnalysisFetched(resp) =>
      assert Reduce(s, a, clk) == Ok(ReduceLoaded(s, a, clk));
  }

  /** Completed reset, index status and time range. */
  lemma IndexDoneFrame(s: VisualizerState, a: Action, clk: Clock)
    requires a.ResetDone? || a.IndexStatusFetched? || a.TimeRangeDone?
    ensures Framed(s, a, clk)
  {
    match a
    case ResetDone => assert Reduce(s, a, clk) == Ok(s.(drawnRect := None, indexStatus := DefaultIndexStatus));
    case IndexStatusFetched(st) => assert Reduce(s, a, clk) == Ok(s.(indexStatus := st));
    case TimeRangeDone(tr) => assert Reduce(s, a, clk) == Ok(s.(timeRange := tr));
  }

  /** Completed row, selection and forecast requests. */
  lemma SelectionDoneFrame(s: VisualizerState, a: Action, clk: Clock)
    requires a.RowFetched? || a.SelectedMeasureDone? || a.SelectedTimeSeriesDone? || a.ForecastDone?
    ensures Framed(s, a, clk)
  {
    match a
    case RowFetched(row) => assert Reduce(s, a, clk) == Ok(s.(row := Some(row)));
    case SelectedMeasureDone(m) => assert Reduce(s, a, clk) == Ok(s.(selectedMeasure := m));
    case SelectedTimeSeriesDone(sel) => assert Reduce(s, a, clk) == Ok(s.(selectedTimeSeries := sel));
    case ForecastDone => assert Reduce(s, a, clk) == Ok(s);
  }

  /** Measure, filters and aggregate. */
  lemma QuerySettingFrame(s: VisualizerState, a: Action, clk: Clock)
    requires a.UpdateMeasure? || a.UpdateFilters? || a.UpdateAggType?
    ensures Framed(s, a, clk)
  {
    match a
    case UpdateMeasure(c) => assert Reduce(s, a, clk) == Ok(s.(measureCol := c));
    case UpdateFilters(f) => assert Reduce(s, a, clk) == Ok(s.(categoricalFilters := f));
    case UpdateAggType(t) => assert Reduce(s, a, clk) == Ok(s.(aggType := t));
  }

  /** Drawn rectangle and map bounds. */
  lemma AreaSettingFrame(s: VisualizerState, a: Action, clk: Clock)
    requires a.UpdateDrawnRect? || a.UpdateMapBounds?
    ensures Framed(s, a, clk)
  {
    match a
    case UpdateDrawnRect(rect) => assert Reduce(s, a, clk) == Ok(s.(drawnRect := rect));
    case UpdateMapBounds(z, vr) => assert Reduce(s, a, clk) == Ok(s.(zoom := z, viewRect := Some(vr)));
  }

  /** UPDATE_MAP_TYPE sets the map type. */
  lemma MapTypeFrame(s: VisualizerState, mt: string, clk: Clock)
    ensures Framed(s, UpdateMapType(mt), clk)
  {
    assert Reduce(s, UpdateMapType(mt), clk) == Ok(s.(mapType := mt));
  }

  /** UPDATE_TIMESERIES_DATA_TOGGLE sets the toggle. */
  lemma DataToggleFrame(s: VisualizerState, t: bool, clk: Clock)
    ensures Framed(s, UpdateTimeSeriesDataToggle(t), clk)
  {
    assert Reduce(s, UpdateTimeSeriesDataToggle(t), clk) == Ok(s.(timeSeriesDataToggle := t));
  }

  /** UPDATE_FACETS sets the facets. */
  lemma FacetsFrame(s: VisualizerState, f: Facets, clk: Clock)
    ensures Framed(s, UpdateFacets(f), clk)
  {
    assert Reduce(s, UpdateFacets(f), clk) == Ok(s.(facets := f));
  }

  /** TOGGLE_TIMESERIES_DATA sets the disabled flag. */
  lemma DisabledToggleFrame(s: VisualizerState, d: bool, clk: Clock)
    ensures Framed(s, ToggleTimeSeriesData(d), clk)
  {
    assert Reduce(s, ToggleTimeSeriesData(d), clk) == Ok(s.(disabledTimeSeriesDataToggle := d));
  }

  /** UPDATE_EXPANDED_CLUSTER_INDEX sets the expanded cluster. */
  lemma ExpandedClusterFrame(s: VisualizerState, i: Option<int>, clk: Clock)
    ensures Framed(s, UpdateExpandedClusterIndex(i), clk)
  {
    assert Reduce(s, UpdateExpandedClusterIndex(i), clk) == Ok(s.(expandedClusterIndex := i));
  }

  /** The bare analysis results and the query counters. */
  lemma ResultsFrame(s: VisualizerState, a: Action, clk: Clock)
    requires a.UpdateAnalysisResults? || a.UpdateQueryInfo?
    ensures Framed(s, a, clk)
  {
    assert Reduce(s, a, clk) == Ok(ReduceResults(s, a));
  }

  /** UPDATE_GROUP_BY, once a dataset has set the group-by columns. */
  lemma GroupByFrame(s: VisualizerState, cols: seq<Col>, clk: Clock)
    requires s.groupByCols.Some?
    ensures Framed(s, UpdateGroupBy(cols), clk)
  {
    assert Reduce(s, UpdateGroupBy(cols), clk) == Ok(s.(groupByCols := Some(cols),
      series := if |cols| != |s.groupByCols.value| then Some([]) else s.series));
  }

  /** An action that names no field returns the state unchanged: the
      default branch, SUCCESS(FORECAST), and the plain UPDATE_SELECTED_*
      actions whose SUCCESS form alone the reducer handles. */
  lemma {:induction false} UnnamedActionsKeepState(s: VisualizerState, a: Action, clk: Clock)
    requires Writes(a) == {}
    ensures Reduce(s, a, clk) == Ok(s)
  {
    WritesNothingExactly(a);
    if a.Pending? || a.Rejected? {
      assert Reduce(s, a, clk) == Ok(ReduceRequest(s, a, clk));
    } else if a.ForecastDone? {
      assert Reduce(s, a, clk) == Ok(ReduceDone(s, a));
    }
  }

  /** Requesting a dataset discards the whole previous state: the result is
      `initialState`, loading, without an error, whatever the state was. */
  lemma FetchDatasetRequestResets(s: VisualizerState, s': VisualizerState, meta: Option<int>, clk: Clock)
    ensures Reduce(s, Pending(FetchDataset, meta), clk) == Ok(InitialState(clk.loadTime))
    ensures Reduce(s, Pending(FetchDataset, meta), clk) == Reduce(s', Pending(FetchDataset, meta), clk)
    ensures Reduce(s, Pending(FetchDataset, meta), clk).value.loading
    ensures Reduce(s, Pending(FetchDataset, meta), clk).value.errorMessage == None
  {
  }

  /** A loaded dataset ends loading, groups by its first dimension and
      measures its first measure. */
  lemma FetchDatasetSuccess(s: VisualizerState, d: Dataset, clk: Clock)
    ensures Reduce(s, DatasetFetched(d), clk).Ok?
    ensures var t := Reduce(s, DatasetFetched(d), clk).value;
      && !t.loading && t.dataset == Some(d) && t.measureCol == d.measure0
      && t.groupByCols == Some(if |d.dimensions| > 0 then [Some(d.dimensions[0])] else [None])
  {
  }

  /** Changing the group-by columns clears the grouped series exactly when
      the number of columns changes; otherwise the series are kept. */
  lemma GroupByClearsSeriesIffCountChanges(s: VisualizerState, cols: seq<Col>, clk: Clock)
    requires s.groupByCols.Some?
    ensures Reduce(s, UpdateGroupBy(cols), clk).Ok?
    ensures Reduce(s, UpdateGroupBy(cols), clk).value.groupByCols == Some(cols)
    ensures |cols| != |s.groupByCols.value| ==> Reduce(s, UpdateGroupBy(cols), clk).value.series == Some([])
    ensures |cols| == |s.groupByCols.value| ==> Reduce(s, UpdateGroupBy(cols), clk).value.series == s.series
  {
  }

  /** New clusters collapse any expanded cluster; a completed reset drops the
      drawn rectangle and returns the index status to not initialised. */
  lemma ClustersAndResetEffects(s: VisualizerState, cs: seq<Feature>, t0: int, clk: Clock)
    ensures Reduce(s, ClustersFetched(cs, t0), clk).value.clusters == cs
    ensures Reduce(s, ClustersFetched(cs, t0), clk).value.expandedClusterIndex == None
    ensures Reduce(s, ResetDone, clk).value.drawnRect == None
    ensures !Reduce(s, ResetDone, clk).value.indexStatus.isInitialized
  {
  }

  /** SUCCESS(UPDATE_ANALYSIS_RESULTS) overwrites the analysis fields and
      clears the selected time series. */
  lemma AnalysisFetchedForm(s: VisualizerState, resp: QueryResponse, clk: Clock)
    ensures Reduce(s, AnalysisFetched(resp), clk) == Ok(ReduceLoaded(s, AnalysisFetched(resp), clk))
  {
  }

  /** The bare UPDATE_ANALYSIS_RESULTS overwrites the analysis fields and
      the time series. */
  lemma UpdateAnalysisResultsForm(s: VisualizerState, resp: QueryResponse, clk: Clock)
    ensures Reduce(s, UpdateAnalysisResults(resp), clk) == Ok(ReduceResults(s, UpdateAnalysisResults(resp)))
  {
  }

  /** Both forms of analysis results overwrite the statistics and series; the
      fulfilled request clears the selected time series and keeps the time
      series, the piggy-backed form sets the time series and keeps the
      selection. */
  lemma AnalysisResultsForms(s: VisualizerState, resp: QueryResponse, clk: Clock)
    ensures var t := Reduce(s, AnalysisFetched(resp), clk).value;
      && t.series == resp.series && t.rectStats == resp.rectStats && t.singleStats == resp.singleStats
      && t.selectedTimeSeries == None && t.timeSeries == s.timeSeries
    ensures var t := Reduce(s, UpdateAnalysisResults(resp), clk).value;
      && t.series == resp.series && t.rectStats == resp.rectStats && t.singleStats == resp.singleStats
      && t.timeSeries == resp.timeSeries && t.selectedTimeSeries == s.selectedTimeSeries
  {
    AnalysisFetchedForm(s, resp, clk);
    UpdateAnalysisResultsForm(s, resp, clk);
  }
}

=== FILE: vis_state.dfy ===
/** The visualizer's view-state record, the actions that change it, and the
    payload shapes they carry (visualizer.reducer.ts and the client model
    interfaces). */
module VisState {
  import opened Wrappers

  /** A column index as the store sees it. `None` is JavaScript's
      `undefined`, which appears when `dimensions[0]` is read from an empty
      list. Object keys built from columns (`categoricalFilters`) use the
      same representation: JavaScript turns a number and `undefined` into
      distinct property names, so the mapping is faithful. */
  type Col = Option<int>

  /** An aggregate function name (`AggregateFunctionType`). */
  datatype AggType = AggType(name: string)

  const DefaultAggType: AggType := AggType("AVG")

  /** A query rectangle `{lat: [south, north], lon: [west, east]}`. */
  datatype Rect = Rect(south: real, north: real, west: real, east: real)

  /** A Leaflet `LatLngBounds` as read through its four getters. */
  datatype Bounds = Bounds(south: real, north: real, west: real, east: real)

  /** The rectangle `updateMapBounds` and `updateDrawnRect` build from bounds. */
  function RectOf(b: Bounds): Rect {
    Rect(b.south, b.north, b.west, b.east)
  }

  datatype TimeRange = TimeRange(from: int, to: int)

  datatype IndexStatus = IndexStatus(isInitialized: bool, objectsIndexed: int)

  /** The index status the store starts from and returns to on reset: not
      initialised, nothing indexed. */
  const DefaultIndexStatus: IndexStatus := IndexStatus(false, 0)

  /** The dataset fields the store and the views read. */
  datatype Dataset = Dataset(id: string, name: string, dimensions: seq<int>,
                             measure0: Option<int>, measure1: Option<int>, headers: seq<string>)

  /** A statistics object as JSON: absent key is `undefined`, `None` value is `null`. */
  type StatRecord = map<string, Option<real>>

  datatype GroupedStats = GroupedStats(group: string, value: real)

  datatype DataPoint = DataPoint(timestamp: int, value: real)

  datatype TimeSeries = TimeSeries(name: Option<string>, id: int,
                                   dataPoints: Option<seq<DataPoint>>, digital: bool)

  /** One indexed object as the server sends it:
      `[y, x, measureCols, values, fileOffset, isDigital]`. */
  datatype PointTuple = PointTuple(lat: real, lon: real, measureCols: seq<int>,
                                   values: seq<real>, fileOffset: int, digital: bool)

  /** The properties the clusterer carries for a point or a cluster. */
  datatype ClusterProps = ClusterProps(totalCount: int, points: seq<PointTuple>, digital: bool)

  /** A map feature: its properties and its coordinates `[lon, lat]`. */
  datatype Feature = Feature(props: ClusterProps, lon: real, lat: real)

  type Facets = map<int, seq<string>>

  type Filters = map<Col, Option<string>>

  /** Diagnostic counters of a query response. */
  datatype QueryInfo = QueryInfo(fullyContainedTileCount: int, tileCount: int, pointCount: int,
                                 ioCount: int, totalTileCount: int, totalPointCount: int,
                                 executionTime: int)

  /** A `/query` response body; nullable fields are `Option`s. */
  datatype QueryResponse = QueryResponse(
    points: Option<seq<PointTuple>>,
    facets: Facets,
    rectStats: Option<StatRecord>,
    singleStats: Option<StatRecord>,
    series: Option<seq<GroupedStats>>,
    otherSeries: Option<seq<GroupedStats>>,
    cleanedSeries: Option<seq<GroupedStats>>,
    cleanedRectStats: Option<StatRecord>,
    timeSeries: Option<seq<TimeSeries>>,
    fullyContainedTileCount: int, tileCount: int, pointCount: int, ioCount: int,
    totalTileCount: int, totalPointCount: int)

  /** The view state, field for field as `initialState` declares it. */
  datatype VisualizerState = VisualizerState(
    indexStatus: IndexStatus,
    loading: bool,
    loadingDups: bool,
    firstDupLoad: bool,
    errorMessage: Option<string>,
    dataset: Option<Dataset>,
    datasets: Option<seq<Dataset>>,
    zoom: int,
    categoricalFilters: Filters,
    disabledTimeSeriesDataToggle: bool,
    timeSeriesDataToggle: bool,
    groupByCols: Option<seq<Col>>,
    measureCol: Col,
    aggType: AggType,
    viewRect: Option<Rect>,
    drawnRect: Option<Rect>,
    series: Option<seq<GroupedStats>>,
    otherSeries: Option<seq<GroupedStats>>,
    cleanedSeries: Option<seq<GroupedStats>>,
    timeRange: Option<TimeRange>,
    facets: Facets,
    rectStats: Option<StatRecord>,
    singleStats: Option<StatRecord>,
    dedupStats: Option<StatRecord>,
    cleanedRectStats: Option<StatRecord>,
    clusters: seq<Feature>,
    fullyContainedTileCount: int,
    tileCount: int,
    pointCount: int,
    ioCount: int,
    totalTileCount: int,
    totalPointCount: int,
    executionTime: int,
    totalTime: int,
    bounds: Option<Rect>,
    expandedClusterIndex: Option<int>,
    row: Option<seq<string>>,
    selectedPointId: Option<int>,
    mapType: string,
    selectedMeasure: int,
    timeSeries: Option<seq<TimeSeries>>,
    selectedTimeSeries: Option<int>)

  /** `initialState`; its time range ends at `loadTime`, the clock reading
      taken when the module was loaded. */
  function InitialState(loadTime: int): VisualizerState {
    VisualizerState(
      DefaultIndexStatus, true, false, true, None, None, None, 14, map[], true, false,
      None, None, DefaultAggType, None, None, Some([]), Some([]), Some([]),
      Some(TimeRange(0, loadTime)), map[], None, None, None, None, [],
      0, 0, 0, 0, 0, 0, 0, 0, None, None, None, None, "map", 0, Some([]), None)
  }

  /** Clock readings the reducer takes: the module load time that fixed
      `initialState`, and the current time. */
  datatype Clock = Clock(loadTime: int, now: int)

  /** Requests whose promise the middleware turns into pending, fulfilled and
      rejected actions. */
  datatype AsyncKind =
    | FetchDataset | FetchDatasetList | Reset | UpdateClustersKind | UpdateAnalysisResultsKind
    | FetchIndexStatus | FetchRow | ForecastKind

  /** The actions of the store. `...Done` constructors are the fulfilled
      (SUCCESS) forms; each carries what the reducer reads from the payload. */
  datatype Action =
    | Pending(kind: AsyncKind, meta: Option<int>)
    | Rejected(kind: AsyncKind, message: string)
    | DatasetFetched(dataset: Dataset)
    | DatasetListFetched(datasets: seq<Dataset>)
    | ClustersFetched(clusters: seq<Feature>, requestTime: int)
    | AnalysisFetched(response: QueryResponse)
    | ResetDone
    | IndexStatusFetched(status: IndexStatus)
    | TimeRangeDone(range: Option<TimeRange>)
    | RowFetched(row: seq<string>)
    | SelectedMeasureDone(measure: int)
    | SelectedTimeSeriesDone(selection: Option<int>)
    | ForecastDone
    | UpdateMapType(mapType: string)
    | UpdateTimeSeriesDataToggle(toggle: bool)
    | UpdateFacets(facets: Facets)
    | UpdateGroupBy(cols: seq<Col>)
    | UpdateMeasure(col: Col)
    | UpdateFilters(filters: Filters)
    | UpdateAggType(aggType: AggType)
    | UpdateDrawnRect(rect: Option<Rect>)
    | UpdateMapBounds(zoom: int, viewRect: Rect)
    | UpdateAnalysisResults(response: QueryResponse)
    | UpdateQueryInfo(info: QueryInfo)
    | ToggleTimeSeriesData(disabled: bool)
    | UpdateExpandedClusterIndex(index: Option<int>)
    | UpdateSelectedMeasure(measure: int)
    | UpdateSelectedTimeSeries(selection: Option<int>)
    | Unknown(name: string)

  /** Names of the state's fields, for stating which ones an action writes. */
  datatype Field =
    | FIndexStatus | FLoading | FLoadingDups | FFirstDupLoad | FErrorMessage | FDataset
    | FDatasets | FZoom | FCategoricalFilters | FDisabledToggle | FToggle | FGroupByCols
    | FMeasureCol | FAggType | FViewRect | FDrawnRect | FSeries | FOtherSeries
    | FCleanedSeries | FTimeRange | FFacets | FRectStats | FSingleStats | FDedupStats
    | FCleanedRectStats | FClusters | FFullyContainedTileCount | FTileCount | FPointCount
    | FIoCount | FTotalTileCount | FTotalPointCount | FExecutionTime | FTotalTime | FBounds
    | FExpandedClusterIndex | FRow | FSelectedPointId | FMapType | FSelectedMeasure
    | FTimeSeries | FSelectedTimeSeries

  /** `s` and `t` agree on every field outside `w`. */
  predicate AgreeOutside(s: VisualizerState, t: VisualizerState, w: set<Field>) {
    && (FIndexStatus !in w ==> s.indexStatus == t.indexStatus)
    && (FLoading !in w ==> s.loading == t.loading)
    && (FLoadingDups !in w ==> s.loadingDups == t.loadingDups)
    && (FFirstDupLoad !in w ==> s.firstDupLoad == t.firstDupLoad)
    && (FErrorMessage !in w ==> s.errorMessage == t.errorMessage)
    && (FDataset !in w ==> s.dataset == t.dataset)
    && (FDatasets !in w ==> s.datasets == t.datasets)
    && (FZoom !in w ==> s.zoom == t.zoom)
    && (FCategoricalFilters !in w ==> s.categoricalFilters == t.categoricalFilters)
    && (FDisabledToggle !in w ==> s.disabledTimeSeriesDataToggle == t.disabledTimeSeriesDataToggle)
    && (FToggle !in w ==> s.timeSeriesDataToggle == t.timeSeriesDataToggle)
    && (FGroupByCols !in w ==> s.groupByCols == t.groupByCols)
    && (FMeasureCol !in w ==> s.measureCol == t.measureCol)
    && (FAggType !in w ==> s.aggType == t.aggType)
    && (FViewRect !in w ==> s.viewRect == t.viewRect)
    && (FDrawnRect !in w ==> s.drawnRect == t.drawnRect)
    && (FSeries !in w ==> s.series == t.series)
    && (FOtherSeries !in w ==> s.otherSeries == t.otherSeries)
    && (FCleanedSeries !in w ==> s.cleanedSeries == t.cleanedSeries)
    && (FTimeRange !in w ==> s.timeRange == t.timeRange)
    && (FFacets !in w ==> s.facets == t.facets)
    && (FRectStats !in w ==> s.rectStats == t.rectStats)
    && (FSingleStats !in w ==> s.singleStats == t.singleStats)
    && (FDedupStats !in w ==> s.dedupStats == t.dedupStats)
    && (FCleanedRectStats !in w ==> s.cleanedRectStats == t.cleanedRectStats)
    && (FClusters !in w ==> s.clusters == t.clusters)
    && (FFullyContainedTileCount !in w ==> s.fullyContainedTileCount == t.fullyContainedTileCount)
    && (FTileCount !in w ==> s.tileCount == t.tileCount)
    && (FPointCount !in w ==> s.pointCount == t.pointCount)
    && (FIoCount !in w ==> s.ioCount == t.ioCount)
    && (FTotalTileCount !in w ==> s.totalTileCount == t.totalTileCount)
    && (FTotalPointCount !in w ==> s.totalPointCount == t.totalPointCount)
    && (FExecutionTime !in w ==> s.executionTime == t.executionTime)
    && (FTotalTime !in w ==> s.totalTime == t.totalTime)
    && (FBounds !in w ==> s.bounds == t.bounds)
    && (FExpandedClusterIndex !in w ==> s.expandedClusterIndex == t.expandedClusterIndex)
    && (FRow !in w ==> s.row == t.row)
    && (FSelectedPointId !in w ==> s.selectedPointId == t.selectedPointId)
    && (FMapType !in w ==> s.mapType == t.mapType)
    && (FSelectedMeasure !in w ==> s.selectedMeasure == t.selectedMeasure)
    && (FTimeSeries !in w ==> s.timeSeries == t.timeSeries)
    && (FSelectedTimeSeries !in w ==> s.selectedTimeSeries == t.selectedTimeSeries)
  }

  /** Agreeing outside the empty set is equality. */
  lemma AgreeOutsideNothing(s: VisualizerState, t: VisualizerState)
    requires AgreeOutside(s, t, {})
    ensures s == t
  {
  }
}

=== FILE: vis_thunks.dfy ===
/** The visualizer's thunks: they read the store, compose query bodies,
    issue requests and dispatch actions in a fixed order. A thunk is a
    function from a `Run` (store state, effects so far, whether an exception
    has escaped) to a `Run`; server responses arrive as parameters of the
    `Resolve...` functions, applied in arrival order. */
module VisThunks {
  import opened Wrappers
  import opened VisState
  import opened VisReducer

  /** The body `updateAnalysisResults` posts. */
  datatype AnalysisQuery = AnalysisQuery(
    categoricalFilters: Filters, rect: Option<Rect>, groupByCols: Option<seq<Col>>,
    measureCol: Col, aggType: AggType, timeSeriesDataToggle: bool, from: int, to: int)

  /** The body `updateClusters` posts; `from`/`to` are left out (`undefined`)
      when the store has no time range. */
  datatype ClusterQuery = ClusterQuery(
    rect: Rect, zoom: int, categoricalFilters: Filters, groupByCols: Option<seq<Col>>,
    measureCol: Col, aggType: AggType, timeSeriesDataToggle: bool,
    from: Option<int>, to: Option<int>)

  /** The HTTP requests the thunks and action creators issue. */
  datatype Request =
    | PostAnalysis(datasetId: string, analysis: AnalysisQuery)
    | PostClusters(datasetId: string, clusters: ClusterQuery)
    | PostReset(datasetId: string)
    | DatasetGet(datasetId: string)
    | DatasetListGet
    | RowGet(datasetId: string, rowId: int)
    | StatusGet(datasetId: string)
    | PostPredict(seriesId: string, predictions: int)

  datatype Effect = Dispatched(action: Action) | Sent(request: Request)

  /** A store run: the state, what has happened so far, and whether an
      exception has escaped (which ends the enclosing thunk). */
  datatype Run = Run(state: VisualizerState, effects: seq<Effect>, threw: bool)

  /** Dispatching a plain action runs the reducer; a throwing reducer makes
      the dispatch throw. Nothing happens after an escaped exception. */
  function Dispatch(r: Run, a: Action, clk: Clock): (r': Run)
    ensures r.threw ==> r' == r
    ensures !r.threw ==> r'.effects == r.effects + [Dispatched(a)]
    ensures !r.threw ==> (r'.threw <==> Reduce(r.state, a, clk).Err?)
  {
    if r.threw then r
    else match Reduce(r.state, a, clk)
      case Ok(t) => Run(t, r.effects + [Dispatched(a)], false)
      case Err(_) => r.(effects := r.effects + [Dispatched(a)], threw := true)
  }

  /** Issuing a request (building an axios promise) changes no state. */
  function Send(r: Run, q: Request): (r': Run)
    ensures r'.state == r.state && r'.threw == r.threw
    ensures r.threw ==> r'.effects == r.effects
    ensures !r.threw ==> |r'.effects| == |r.effects| + 1 && r'.effects[..|r.effects|] == r.effects
                         && r'.effects[|r.effects|] == Sent(q)
  {
    if r.threw then r else r.(effects := r.effects + [Sent(q)])
  }

  /** Dispatching a promise action: the request is made when the action is
      built, then the middleware dispatches the pending action. */
  function Issue(r: Run, q: Request, k: AsyncKind, meta: Option<int>, clk: Clock): Run {
    Dispatch(Send(r, q), Pending(k, meta), clk)
  }

  /** The analysis body read from the store; reading `timeRange.from` throws
      when the time range is undefined. */
  function AnalysisQueryOf(s: VisualizerState): (q: Result<AnalysisQuery>)
    ensures q.Err? <==> s.timeRange.None?
    ensures q.Ok? ==> q.value.rect == (if s.drawnRect.Some? then s.drawnRect else s.viewRect)
    ensures q.Ok? ==> q.value.from == s.timeRange.value.from && q.value.to == s.timeRange.value.to
    ensures q.Ok? ==> q.value.categoricalFilters == s.categoricalFilters
                      && q.value.measureCol == s.measureCol && q.value.aggType == s.aggType
  {
    match s.timeRange
    case None => Err("TypeError")
    case Some(tr) =>
      Ok(AnalysisQuery(s.categoricalFilters, if s.drawnRect.Some? then s.drawnRect else s.viewRect,
                       s.groupByCols, s.measureCol, s.aggType, s.timeSeriesDataToggle, tr.from, tr.to))
  }

  /** The cluster body for a given time range; there is none without a view
      rectangle. */
  function ClusterQueryOf(s: VisualizerState, tr: Option<TimeRange>): (q: Option<ClusterQuery>)
    ensures q.None? <==> s.viewRect.None?
    ensures q.Some? ==> q.value.rect == s.viewRect.value && q.value.zoom == s.zoom
    ensures q.Some? ==> q.value.from.Some? == tr.Some? && q.value.to.Some? == tr.Some?
    ensures q.Some? && tr.Some? ==> q.value.from.value == tr.value.from && q.value.to.value == tr.value.to
    ensures q.Some? ==> q.value.categoricalFilters == s.categoricalFilters
  {
    match s.viewRect
    case None => None
    case Some(vr) =>
      Some(ClusterQuery(vr, s.zoom, s.categoricalFilters, s.groupByCols, s.measureCol, s.aggType,
                        s.timeSeriesDataToggle,
                        if tr.Some? then Some(tr.value.from) else None,
                        if tr.Some? then Some(tr.value.to) else None))
  }

  /** `updateAnalysisResults(id)`. */
  function UpdateAnalysisResults(r: Run, id: string, clk: Clock): Run {
    if r.threw then r
    else match AnalysisQueryOf(r.state)
      case Err(_) => r.(threw := true)
      case Ok(q) => Issue(r, PostAnalysis(id, q), UpdateAnalysisResultsKind, None, clk)
  }

  /** `updateClustersWTime(id, timeRange)`: the cluster request with the
      given range; `clk.now` is the request time. */
  function UpdateClustersWTime(r: Run, id: string, tr: Option<TimeRange>, clk: Clock): Run {
    if r.threw then r
    else match ClusterQueryOf(r.state, tr)
      case None => r
      case Some(q) => Issue(r, PostClusters(id, q), UpdateClustersKind, Some(clk.now), clk)
  }

  /** `updateClusters(id)`: the cluster request with the store's range. */
  function UpdateClusters(r: Run, id: string, clk: Clock): Run {
    UpdateClustersWTime(r, id, r.state.timeRange, clk)
  }

  /** The cluster response handler, then the fulfilled action. `drawnRect`
      is the value read from the store when the request was made;
      `clusters` is what the spatial index returns for the response's points. */
  function ResolveClusters(r: Run, res: QueryResponse, requestTime: int, responseTime: int,
                           drawnRect: Option<Rect>, clusters: seq<Feature>, clk: Clock): Run
  {
    var info := QueryInfo(res.fullyContainedTileCount, res.tileCount, res.pointCount, res.ioCount,
                          res.totalTileCount, res.totalPointCount, responseTime - requestTime);
    var r1 := Dispatch(Dispatch(r, UpdateFacets(res.facets), clk), UpdateQueryInfo(info), clk);
    var r2 := if drawnRect.None? then Dispatch(r1, Action.UpdateAnalysisResults(res), clk) else r1;
    Dispatch(r2, ClustersFetched(clusters, requestTime), clk)
  }

  /** The analysis response: the fulfilled action. */
  function ResolveAnalysis(r: Run, res: QueryResponse, clk: Clock): Run {
    Dispatch(r, AnalysisFetched(res), clk)
  }

  /** `updateFilters(id, filters)`. */
  function UpdateFilters(r: Run, id: string, f: Filters, clk: Clock): Run {
    UpdateClusters(UpdateAnalysisResults(Dispatch(r, Action.UpdateFilters(f), clk), id, clk), id, clk)
  }

  /** `filters` without the keys of `cols` (the `delete` loop of `updateGroupBy`). */
  function WithoutColumns(f: Filters, cols: seq<Col>): (g: Filters)
    ensures forall c :: c in g <==> c in f && c !in cols
    ensures forall c :: c in g ==> g[c] == f[c]
  {
    map c | c in f && c !in cols :: f[c]
  }

  /** `updateGroupBy(id, cols)`: the filters are read before the group-by
      update and then cleared of every grouped column. */
  function UpdateGroupBy(r: Run, id: string, cols: seq<Col>, clk: Clock): Run {
    var f := r.state.categoricalFilters;
    UpdateFilters(Dispatch(r, Action.UpdateGroupBy(cols), clk), id, WithoutColumns(f, cols), clk)
  }

  /** `updateMeasure(id, col)`. */
  function UpdateMeasure(r: Run, id: string, c: Col, clk: Clock): Run {
    UpdateAnalysisResults(Dispatch(r, Action.UpdateMeasure(c), clk), id, clk)
  }

  /** `updateAggType(id, aggType)`. */
  function UpdateAggType(r: Run, id: string, t: AggType, clk: Clock): Run {
    UpdateAnalysisResults(Dispatch(r, Action.UpdateAggType(t), clk), id, clk)
  }

  /** `updateDrawnRect(id, bounds)`; deleting the rectangle passes no bounds. */
  function UpdateDrawnRect(r: Run, id: string, b: Option<Bounds>, clk: Clock): Run {
    var rect := if b.Some? then Some(RectOf(b.value)) else None;
    UpdateAnalysisResults(Dispatch(r, Action.UpdateDrawnRect(rect), clk), id, clk)
  }

  /** `updateMapBounds(id, bounds, zoom)`. */
  function UpdateMapBounds(r: Run, id: string, b: Bounds, zoom: int, clk: Clock): Run {
    UpdateClusters(Dispatch(r, Action.UpdateMapBounds(zoom, RectOf(b)), clk), id, clk)
  }

  /** The awaited RESET request: `resetError` is `None` when the server
      answered, else the rejection, which makes the awaiting thunk throw. */
  function AwaitReset(r: Run, id: string, resetError: Option<string>, clk: Clock): Run {
    var r1 := Issue(r, PostReset(id), Reset, None, clk);
    match resetError
    case None => Dispatch(r1, ResetDone, clk)
    case Some(m) => var r2 := Dispatch(r1, Rejected(Reset, m), clk); r2.(threw := true)
  }

  /** `reset(id)`. */
  function ResetIndex(r: Run, id: string, resetError: Option<string>, clk: Clock): Run {
    UpdateClusters(AwaitReset(r, id, resetError, clk), id, clk)
  }

  /** `resetWTime(id, t)`. */
  function ResetWTime(r: Run, id: string, tr: Option<TimeRange>, resetError: Option<string>, clk: Clock): Run {
    UpdateClustersWTime(AwaitReset(r, id, resetError, clk), id, tr, clk)
  }

  /** `updateTimeRange(range, id)` as written: the fulfilled action carries
      the bare range, and the reducer stores its (absent) `data` member. */
  function UpdateTimeRangeAsWritten(r: Run, tr: TimeRange, id: string, resetError: Option<string>, clk: Clock): Run {
    ResetWTime(Dispatch(r, TimeRangeDone(None), clk), id, Some(tr), resetError, clk)
  }

  /** `updateTimeRange(range, id)` storing the range itself, as the reducer
      case evidently intends. */
  function UpdateTimeRange(r: Run, tr: TimeRange, id: string, resetError: Option<string>, clk: Clock): Run {
    ResetWTime(Dispatch(r, TimeRangeDone(Some(tr)), clk), id, Some(tr), resetError, clk)
  }

  /** The action creators that only issue a request. */
  function GetDataset(r: Run, id: string, clk: Clock): Run {
    Issue(r, DatasetGet(id), FetchDataset, None, clk)
  }

  function GetDatasets(r: Run, clk: Clock): Run {
    Issue(r, DatasetListGet, FetchDatasetList, None, clk)
  }

  function GetRow(r: Run, datasetId: string, rowId: int, clk: Clock): Run {
    Issue(r, RowGet(datasetId, rowId), FetchRow, Some(rowId), clk)
  }

  function GetIndexStatus(r: Run, id: string, clk: Clock): Run {
    Issue(r, StatusGet(id), FetchIndexStatus, None, clk)
  }

  /** `forecast(id, predictions)`: posts to the prediction endpoint; the
      answer is ignored. */
  function Forecast(r: Run, seriesId: string, predictions: int, clk: Clock): Run {
    Issue(r, PostPredict(seriesId, predictions), ForecastKind, None, clk)
  }

  /** The forecast request changes no state: it records the post and the
      pending action, and nothing else. */
  lemma ForecastStep(r: Run, seriesId: string, predictions: int, clk: Clock)
    requires !r.threw
    ensures Forecast(r, seriesId, predictions, clk) == Run(r.state, r.effects + [
      Sent(PostPredict(seriesId, predictions)), Dispatched(Pending(ForecastKind, None))], false)
  {
    assert Reduce(r.state, Pending(ForecastKind, None), clk) == Ok(r.state);
  }

  /** The analysis step: it posts the query and dispatches the pending
      action, which changes no state; without a time range it throws. */
  lemma AnalysisStep(r: Run, id: string, clk: Clock)
    requires !r.threw
    ensures r.state.timeRange.Some? ==> UpdateAnalysisResults(r, id, clk) == Run(r.state, r.effects + [
      Sent(PostAnalysis(id, AnalysisQueryOf(r.state).value)),
      Dispatched(Pending(UpdateAnalysisResultsKind, None))], false)
    ensures r.state.timeRange.None? ==> UpdateAnalysisResults(r, id, clk) == r.(threw := true)
  {
  }

  /** The cluster step: a post and a pending action when there is a view
      rectangle, nothing at all otherwise. */
  lemma ClustersStep(r: Run, id: string, tr: Option<TimeRange>, clk: Clock)
    requires !r.threw
    ensures r.state.viewRect.Some? ==> UpdateClustersWTime(r, id, tr, clk) == Run(r.state, r.effects + [
      Sent(PostClusters(id, ClusterQueryOf(r.state, tr).value)),
      Dispatched(Pending(UpdateClustersKind, Some(clk.now)))], false)
    ensures r.state.viewRect.None? ==> UpdateClustersWTime(r, id, tr, clk) == r
  {
  }

  /** The awaited reset, on success: the post, the pending action, then the
      fulfilled RESET applied to the store. */
  lemma ResetStep(r: Run, id: string, clk: Clock)
    requires !r.threw
    ensures AwaitReset(r, id, None, clk) == Run(
      r.state.(drawnRect := None, indexStatus := DefaultIndexStatus),
      r.effects + [Sent(PostReset(id)), Dispatched(Pending(Reset, None)), Dispatched(ResetDone)], false)
  {
  }

  /** `updateFilters` stores the filters, then posts the analysis query and
      then the cluster query, both composed from the updated store. */
  lemma {:induction false} UpdateFiltersIssuesAnalysisThenClusters(r: Run, id: string, f: Filters, clk: Clock)
    requires !r.threw && r.state.timeRange.Some? && r.state.viewRect.Some?
    ensures var s1 := r.state.(categoricalFilters := f);
      && UpdateFilters(r, id, f, clk) == Run(s1, r.effects + [
           Dispatched(Action.UpdateFilters(f)),
           Sent(PostAnalysis(id, AnalysisQueryOf(s1).value)),
           Dispatched(Pending(UpdateAnalysisResultsKind, None)),
           Sent(PostClusters(id, ClusterQueryOf(s1, s1.timeRange).value)),
           Dispatched(Pending(UpdateClustersKind, Some(clk.now)))], false)
      && AnalysisQueryOf(s1).value.categoricalFilters == f
      && ClusterQueryOf(s1, s1.timeRange).value.categoricalFilters == f
  {
    var s1 := r.state.(categoricalFilters := f);
    assert Reduce(r.state, Action.UpdateFilters(f), clk) == Ok(s1);
    var r1 := Run(s1, r.effects + [Dispatched(Action.UpdateFilters(f))], false);
    assert Dispatch(r, Action.UpdateFilters(f), clk) == r1;
    AnalysisStep(r1, id, clk);
    var r2 := Run(s1, r1.effects + [Sent(PostAnalysis(id, AnalysisQueryOf(s1).value)),
                                    Dispatched(Pending(UpdateAnalysisResultsKind, None))], false);
    assert UpdateAnalysisResults(r1, id, clk) == r2;
    ClustersStep(r2, id, s1.timeRange, clk);
    assert r2.effects + [Sent(PostClusters(id, ClusterQueryOf(s1, s1.timeRange).value)),
                         Dispatched(Pending(UpdateClustersKind, Some(clk.now)))]
        == r.effects + [Dispatched(Action.UpdateFilters(f)),
             Sent(PostAnalysis(id, AnalysisQueryOf(s1).value)),
             Dispatched(Pending(UpdateAnalysisResultsKind, None)),
             Sent(PostClusters(id, ClusterQueryOf(s1, s1.timeRange).value)),
             Dispatched(Pending(UpdateClustersKind, Some(clk.now)))];
  }

  /** Without a time range the analysis step throws, so `updateFilters`
      stores the filters and ends before it issues any request. */
  lemma UpdateFiltersWithoutTimeRangeIssuesNothing(r: Run, id: string, f: Filters, clk: Clock)
    requires !r.threw && r.state.timeRange.None?
    ensures UpdateFilters(r, id, f, clk)
         == Run(r.state.(categoricalFilters := f), r.effects + [Dispatched(Action.UpdateFilters(f))], true)
  {
    AnalysisStep(Dispatch(r, Action.UpdateFilters(f), clk), id, clk);
  }

  /** `updateMeasure`, `updateAggType` and `updateDrawnRect` store their
      value and post the analysis query only. */
  lemma UpdateMeasureIssuesAnalysisOnly(r: Run, id: string, c: Col, clk: Clock)
    requires !r.threw && r.state.timeRange.Some?
    ensures var s1 := r.state.(measureCol := c);
      UpdateMeasure(r, id, c, clk) == Run(s1, r.effects + [Dispatched(Action.UpdateMeasure(c)),
        Sent(PostAnalysis(id, AnalysisQueryOf(s1).value)), Dispatched(Pending(UpdateAnalysisResultsKind, None))], false)
  {
    AnalysisStep(Dispatch(r, Action.UpdateMeasure(c), clk), id, clk);
  }

  lemma UpdateAggTypeIssuesAnalysisOnly(r: Run, id: string, t: AggType, clk: Clock)
    requires !r.threw && r.state.timeRange.Some?
    ensures var s1 := r.state.(aggType := t);
      UpdateAggType(r, id, t, clk) == Run(s1, r.effects + [Dispatched(Action.UpdateAggType(t)),
        Sent(PostAnalysis(id, AnalysisQueryOf(s1).value)), Dispatched(Pending(UpdateAnalysisResultsKind, None))], false)
  {
    AnalysisStep(Dispatch(r, Action.UpdateAggType(t), clk), id, clk);
  }

  lemma UpdateDrawnRectIssuesAnalysisOnly(r: Run, id: string, b: Option<Bounds>, clk: Clock)
    requires !r.threw && r.state.timeRange.Some?
    ensures var rect := if b.Some? then Some(RectOf(b.value)) else None;
      var s1 := r.state.(drawnRect := rect);
      && UpdateDrawnRect(r, id, b, clk) == Run(s1, r.effects + [Dispatched(Action.UpdateDrawnRect(rect)),
           Sent(PostAnalysis(id, AnalysisQueryOf(s1).value)), Dispatched(Pending(UpdateAnalysisResultsKind, None))], false)
      && AnalysisQueryOf(s1).value.rect == (if b.Some? then rect else r.state.viewRect)
  {
    var rect := if b.Some? then Some(RectOf(b.value)) else None;
    assert Reduce(r.state, Action.UpdateDrawnRect(rect), clk) == Ok(r.state.(drawnRect := rect));
    var r1 := Run(r.state.(drawnRect := rect), r.effects + [Dispatched(Action.UpdateDrawnRect(rect))], false);
    assert Dispatch(r, Action.UpdateDrawnRect(rect), clk) == r1;
    AnalysisStep(r1, id, clk);
    assert r1.effects + [Sent(PostAnalysis(id, AnalysisQueryOf(r1.state).value)), Dispatched(Pending(UpdateAnalysisResultsKind, None))]
        == r.effects + [Dispatched(Action.UpdateDrawnRect(rect)), Sent(PostAnalysis(id, AnalysisQueryOf(r1.state).value)), Dispatched(Pending(UpdateAnalysisResultsKind, None))];
  }

  /** `updateMapBounds` always posts exactly one cluster query, for the new
      rectangle and zoom, and no analysis query. */
  lemma UpdateMapBoundsIssuesClustersOnly(r: Run, id: string, b: Bounds, zoom: int, clk: Clock)
    requires !r.threw
    ensures var s1 := r.state.(zoom := zoom, viewRect := Some(RectOf(b)));
      && UpdateMapBounds(r, id, b, zoom, clk) == Run(s1, r.effects + [
           Dispatched(Action.UpdateMapBounds(zoom, RectOf(b))),
           Sent(PostClusters(id, ClusterQueryOf(s1, s1.timeRange).value)),
           Dispatched(Pending(UpdateClustersKind, Some(clk.now)))], false)
      && ClusterQueryOf(s1, s1.timeRange).value.rect == RectOf(b)
      && ClusterQueryOf(s1, s1.timeRange).value.zoom == zoom
  {
    var r1 := Dispatch(r, Action.UpdateMapBounds(zoom, RectOf(b)), clk);
    ClustersStep(r1, id, r1.state.timeRange, clk);
  }

  /** `reset` waits for the RESET response: on success the reset is applied
      before the cluster query is made (from the reset store). */
  lemma ResetAwaitsBeforeClusters(r: Run, id: string, clk: Clock)
    requires !r.threw && r.state.viewRect.Some?
    ensures var s1 := r.state.(drawnRect := None, indexStatus := DefaultIndexStatus);
      ResetIndex(r, id, None, clk) == Run(s1, r.effects + [
        Sent(PostReset(id)), Dispatched(Pending(Reset, None)), Dispatched(ResetDone),
        Sent(PostClusters(id, ClusterQueryOf(s1, s1.timeRange).value)),
        Dispatched(Pending(UpdateClustersKind, Some(clk.now)))], false)
  {
    ResetStep(r, id, clk);
    var r1 := AwaitReset(r, id, None, clk);
    ClustersStep(r1, id, r1.state.timeRange, clk);
  }

  /** A rejected RESET makes `reset` throw before the cluster query. */
  lemma ResetFailureIssuesNoClusters(r: Run, id: string, m: string, clk: Clock)
    requires !r.threw
    ensures ResetIndex(r, id, Some(m), clk) == Run(r.state, r.effects + [
      Sent(PostReset(id)), Dispatched(Pending(Reset, None)), Dispatched(Rejected(Reset, m))], true)
  {
  }

  /** `updateTimeRange` as written: the reset and the cluster query use the
      new range, but the store's range becomes undefined, so the next
      analysis query throws. */
  lemma TimeRangeAsWrittenLosesRange(r: Run, tr: TimeRange, id: string, clk: Clock)
    requires !r.threw && r.state.viewRect.Some?
    ensures var r' := UpdateTimeRangeAsWritten(r, tr, id, None, clk);
      && !r'.threw && r'.state.timeRange.None?
      && r'.effects[|r'.effects| - 2] == Sent(PostClusters(id, ClusterQueryOf(r'.state, Some(tr)).value))
      && ClusterQueryOf(r'.state, Some(tr)).value.from == Some(tr.from)
      && UpdateAnalysisResults(r', id, clk).threw
      && ClusterQueryOf(r'.state, r'.state.timeRange).value.from.None?
      && ClusterQueryOf(r'.state, r'.state.timeRange).value.to.None?
  {
    var r1 := Dispatch(r, TimeRangeDone(None), clk);
    ResetStep(r1, id, clk);
    var r2 := AwaitReset(r1, id, None, clk);
    ClustersStep(r2, id, Some(tr), clk);
    AnalysisStep(UpdateTimeRangeAsWritten(r, tr, id, None, clk), id, clk);
  }

  /** The corrected `updateTimeRange` stores the range; the cluster query
      carries it and later analysis queries use it. */
  lemma TimeRangeStored(r: Run, tr: TimeRange, id: string, clk: Clock)
    requires !r.threw && r.state.viewRect.Some?
    ensures var r' := UpdateTimeRange(r, tr, id, None, clk);
      && !r'.threw && r'.state.timeRange == Some(tr)
      && r'.effects[|r'.effects| - 2] == Sent(PostClusters(id, ClusterQueryOf(r'.state, Some(tr)).value))
      && ClusterQueryOf(r'.state, Some(tr)).value.from == Some(tr.from)
      && AnalysisQueryOf(r'.state).Ok?
      && AnalysisQueryOf(r'.state).value.from == tr.from && AnalysisQueryOf(r'.state).value.to == tr.to
  {
    var r1 := Dispatch(r, TimeRangeDone(Some(tr)), clk);
    ResetStep(r1, id, clk);
    var r2 := AwaitReset(r1, id, None, clk);
    ClustersStep(r2, id, Some(tr), clk);
  }

  /** The analysis response stores the new series and statistics and clears
      the selected series; nothing else is dispatched. */
  lemma ResolveAnalysisStoresResults(r: Run, res: QueryResponse, clk: Clock)
    requires !r.threw
    ensures var t := ResolveAnalysis(r, res, clk);
      && !t.threw && t.effects == r.effects + [Dispatched(AnalysisFetched(res))]
      && t.state.series == res.series && t.state.rectStats == res.rectStats
      && t.state.singleStats == res.singleStats && t.state.selectedTimeSeries.None?
      && t.state.timeSeries == r.state.timeSeries
  {
    AnalysisResultsForms(r.state, res, clk);
    AnalysisFetchedForm(r.state, res, clk);
  }

  /** The first two dispatches of the cluster response handler. */
  lemma ResolveCountersStep(r: Run, res: QueryResponse, info: QueryInfo, clk: Clock)
    requires !r.threw
    ensures var r1 := Dispatch(Dispatch(r, UpdateFacets(res.facets), clk), UpdateQueryInfo(info), clk);
      && !r1.threw
      && r1.state == r.state.(facets := res.facets,
           fullyContainedTileCount := info.fullyContainedTileCount, tileCount := info.tileCount,
           pointCount := info.pointCount, ioCount := info.ioCount, totalTileCount := info.totalTileCount,
           totalPointCount := info.totalPointCount, executionTime := info.executionTime)
  {
    var s0 := r.state.(facets := res.facets);
    assert Reduce(r.state, UpdateFacets(res.facets), clk) == Ok(s0);
    var r0 := Dispatch(r, UpdateFacets(res.facets), clk);
    assert r0.state == s0 && !r0.threw;
    assert Reduce(s0, UpdateQueryInfo(info), clk) == Ok(ReduceResults(s0, UpdateQueryInfo(info)));
  }

  /** The cluster response: facets, counters and clusters are applied; the
      analysis results from the same response are applied exactly when no
      rectangle was drawn at request time. */
  lemma ResolveClustersAppliesAnalysisIffNoDrawnRect(
    r: Run, res: QueryResponse, t0: int, t1: int, drawn: Option<Rect>, cs: seq<Feature>, clk: Clock)
    requires !r.threw
    ensures var t := ResolveClusters(r, res, t0, t1, drawn, cs, clk).state;
      && t.facets == res.facets && t.clusters == cs && t.expandedClusterIndex == None
      && t.executionTime == t1 - t0 && t.pointCount == res.pointCount
      && (drawn.None? ==> t.series == res.series && t.rectStats == res.rectStats && t.timeSeries == res.timeSeries)
      && (drawn.Some? ==> t.series == r.state.series && t.rectStats == r.state.rectStats
                          && t.timeSeries == r.state.timeSeries)
  {
    var info := QueryInfo(res.fullyContainedTileCount, res.tileCount, res.pointCount, res.ioCount,
                          res.totalTileCount, res.totalPointCount, t1 - t0);
    ResolveCountersStep(r, res, info, clk);
    var r1 := Dispatch(Dispatch(r, UpdateFacets(res.facets), clk), UpdateQueryInfo(info), clk);
    var r2 := if drawn.None? then Dispatch(r1, Action.UpdateAnalysisResults(res), clk) else r1;
    if drawn.None? {
      var s2 := ReduceResults(r1.state, Action.UpdateAnalysisResults(res));
      assert Reduce(r1.state, Action.UpdateAnalysisResults(res), clk) == Ok(s2);
      assert r2.state == s2 && !r2.threw;
    } else {
      assert r2 == r1;
    }
    var a := ClustersFetched(cs, t0);
    var s3 := ReduceLoaded(r2.state, a, clk);
    assert Reduce(r2.state, a, clk) == Ok(s3);
    assert ResolveClusters(r, res, t0, t1, drawn, cs, clk).state == s3;
  }

  /** `updateClusters` followed by its response with nothing dispatched in
      between: the handler sees the drawn rectangle and the request time
      of the snapshot the request was built from. */
  function ClustersRoundTrip(r: Run, id: string, res: QueryResponse, responseTime: int,
                             cs: seq<Feature>, clk: Clock): Run {
    ResolveClusters(UpdateClusters(r, id, clk), res, clk.now, responseTime, r.state.drawnRect, cs, clk)
  }

  /** In a round trip the cluster response replaces the analysis results
      exactly when the store had no drawn rectangle when the request was
      made, and the recorded time is the response time less the request
      time. */
  lemma ClustersRoundTripUsesSnapshot(r: Run, id: string, res: QueryResponse, t1: int,
                                      cs: seq<Feature>, clk: Clock)
    requires !r.threw && r.state.viewRect.Some?
    ensures var t := ClustersRoundTrip(r, id, res, t1, cs, clk).state;
      && t.clusters == cs && t.executionTime == t1 - clk.now
      && (r.state.drawnRect.None? ==> t.series == res.series && t.rectStats == res.rectStats)
      && (r.state.drawnRect.Some? ==> t.series == r.state.series && t.rectStats == r.state.rectStats)
  {
    ClustersStep(r, id, r.state.timeRange, clk);
    ResolveClustersAppliesAnalysisIffNoDrawnRect(UpdateClusters(r, id, clk), res, clk.now, t1,
                                                 r.state.drawnRect, cs, clk);
  }

  /** `updateGroupBy` passes on the filters it read, less every grouped
      column, and stores the new columns. */
  lemma UpdateGroupByClearsGroupedFilters(r: Run, id: string, cols: seq<Col>, clk: Clock)
    requires !r.threw && r.state.groupByCols.Some?
    ensures var t := UpdateGroupBy(r, id, cols, clk).state;
      && t.groupByCols == Some(cols)
      && (forall c :: c in t.categoricalFilters <==> c in r.state.categoricalFilters && c !in cols)
      && (forall c :: c in t.categoricalFilters ==> t.categoricalFilters[c] == r.state.categoricalFilters[c])
  {
    var r1 := Dispatch(r, Action.UpdateGroupBy(cols), clk);
    var g := WithoutColumns(r.state.categoricalFilters, cols);
    var r2 := Dispatch(r1, Action.UpdateFilters(g), clk);
    assert r2.state.groupByCols == Some(cols) && r2.state.categoricalFilters == g;
    AnalysisStep(r2, id, clk);
    var r3 := UpdateAnalysisResults(r2, id, clk);
    assert r3.state == r2.state;
    if !r3.threw {
      ClustersStep(r3, id, r3.state.timeRange, clk);
    }
  }

  /** While the store has no group-by columns, `updateGroupBy` throws
      before any request. */
  lemma UpdateGroupByBeforeDatasetThrows(r: Run, id: string, cols: seq<Col>, clk: Clock)
    requires !r.threw && r.state.groupByCols.None?
    ensures UpdateGroupBy(r, id, cols, clk) == r.(effects := r.effects + [Dispatched(Action.UpdateGroupBy(cols))], threw := true)
  {
  }
}

=== FILE: wrappers.dfy ===
/** Failure-carrying values shared by every module of the model.
    `Option` stands for a nullable or possibly-undefined value of the
    original code, `Result` for a computation that may raise. */
module Wrappers {

  datatype Option<+T> = None | Some(value: T) {
    /** The value, or `default` when absent. */
    function GetOr(default: T): T {
      match this
      case Some(v) => v
      case None => default
    }
  }

  /** `Err` carries the name of the exception the original code raises. */
  datatype Result<+T> = Ok(value: T) | Err(error: string)
}
